=== FILE: README.md ===
# PressProof core, modelled in Dafny

PressProof proofreads an online Pressbooks book one page after another. For
each page it:

- pulls the readable text out of the page's content region;
- cleans that text;
- asks a language model for errors;
- logs the errors it gets, with the page title;
- follows the page's "next" link, until the book ends or a depth limit is reached.

This project models the deterministic part of that pipeline and proves
properties of it:

- **Text cleaning** (`scraper.py`).
  - `Mojibake`: the mojibake gate `_maybe_fix_mojibake`.
  - `Passes` and `Normalize`: the regular-expression passes of `_reflow_segment`. `Rewrite` holds a generic leftmost, non-overlapping `re.sub`, and each pattern is written as a matcher for it.
  - `CodeSpans`: `_reflow`, which splits text into prose and inline or fenced code, and reflows only the prose.
- **Page reading** (`scraper.py`).
  - `Dom`: the parsed page as a tree of strings, comments and elements. It includes `select_one` as a depth-first search, proved equal to "first match in document order".
  - `Extract`: the text walk `_text_from_dom`.
  - `Locate`: the content region, the title and the next-page URL.
- **The crawl** (`__main__.py`). `Driver` models `proofRead` as a loop over pages. The page fetches, the language model and the logger are oracles. The loop's observable behaviour is a list of events:
  - `Logged(url, title, errors)`;
  - `Clean(url)`;
  - `Finished(depthLimit)`, which corresponds to `reportFinish`.

Several lemmas pin down behaviour of the code that a reader might not
expect:

- A soft wrap before punctuation that is not hugged becomes a space:
  `"word\n, next"` gives `"word , next"` (`Normalize.SoftWrapBecomesSpace`).
  Punctuation is hugged only when whitespace follows the line break
  (`Normalize.WrapHugsSpacedPunct`).
- Of two line breaks separated by one character, only the first is marked as a
  soft wrap, because the match consumes the character after it:
  `"a\nb\nc"` gives `"a b\nc"` (`Normalize.OnlyFirstOfAdjacentWrapsMarked`).
- For the same reason, cleaning is not idempotent. A second pass joins the
  remaining line (`Normalize.TidyTwiceDiffers`).
- The `;` + wrap + `.` pass at `scraper.py:52` does change output for
  some inputs (`Normalize.SemicolonPassCanFire`).
- `_text_from_dom` keeps comment text, because comments are strings to the
  walk. `get_text` drops them.
- The parser gives every string inside `rt`, `rp`, `script`, `style` or
  `template` that element's string type. `get_text` on an ordinary element
  collects only plain strings, so a `code` element inside a template has no
  text: `<template><code>x</code></template>` gives two backticks, an empty
  span (`Extract.CodeInTemplateIsEmpty`). The walk itself copies every string.
- `_text_from_dom` sets blocks apart part by part. A whitespace string
  between two blocks therefore gets a separator on each side:
  `<div><p>a</p> <p>b</p></div>` gives `"a\n\n \n\nb"`, two blank lines
  (`Extract.SpacedBlocksKeepTwoBlankLines`).
- Text without the wrap sentinel reflows to text without one, except that
  a code span is copied whole: the reflow of an inline span holding the
  sentinel still holds it (`CodeSpans.CodeSpanKeepsSentinel`).
- A `maxdepth` of 0 checks no page at all. It is not "unbounded"
  (`Driver.ZeroDepthChecksNothing`).
- A `<title>` that holds only whitespace gives the title `""`, not `None`
  (`Locate.BlankTitleIsEmpty`).
- The fourth next-page rule (`.nav-links a, nav a`) can never decide. Any
  anchor it would accept is accepted earlier by the "next…" label scan
  (`Locate.NavNeverDecides`).
- Only the first `a[rel~="next"]` is consulted. If it has no `href`, later
  ones are not looked at.

## Model

| member | source | states |
|---|---|---|
| Chars.Strip | build/lib/pressproof/scraper.py:113 | The result neither starts nor ends with Python whitespace. It is an infix of the input, and only whitespace was removed on either side. It is empty exactly when the input is all whitespace. |
| Mojibake.PatternIsSign | build/lib/pressproof/scraper.py:21 | The literal alternatives of the signature regex match at a position exactly when the folded test holds. The folded test is: `Ã` or `Â` followed by any non-newline character, or `â€`. |
| Mojibake.FindSign | build/lib/pressproof/scraper.py:31 | The search finds no position exactly when the text has no mojibake signature. A found position is the leftmost signature. |
| Mojibake.FixMojibake | build/lib/pressproof/scraper.py:29-37 | The text changes only if it carries a signature and the cp1252-to-UTF-8 round trip succeeds, and then it becomes that round trip's result. |
| Mojibake.FixMojibakeCases | build/lib/pressproof/scraper.py:29-37 | Covers all three branches: no signature leaves the text unchanged; a failing transcoding leaves it unchanged; otherwise the text is replaced by the transcoded one. |
| Mojibake.AsciiIsUntouched | build/lib/pressproof/scraper.py:31-32 | Pure ASCII text never passes the gate and is returned unchanged. |
| Mojibake.LoneTildeBeforeNewlineIsNoSign | build/lib/pressproof/scraper.py:21 | `Ã` followed by a line break, or at the very end of the text, is not a signature, because `.` does not match a newline. |
| Passes.ReplaceNbspPointwise | build/lib/pressproof/scraper.py:43 | The length is kept. Every no-break space becomes a plain space and every other character is kept in place. |
| Passes.UnifyNewlinesSpec | build/lib/pressproof/scraper.py:44 | No carriage return is left. The text with line breaks removed is unchanged. Text without a carriage return is unchanged. Step by step: a CR LF pair becomes one line feed, a lone CR becomes a line feed, and every other character is copied. |
| Passes.DropInvisiblesIsFilter | build/lib/pressproof/scraper.py:45 | The pass deletes exactly the zero-width, bidi-control, word-joiner, BOM and soft-hyphen characters, and keeps every other character in order. |
| Passes.TrimLineEndsSpec | build/lib/pressproof/scraper.py:46 | No space or tab is left before a line break. All other characters are kept in order. Text without such blanks is unchanged. Step by step: a run of blanks followed by a line break becomes that line break, a run of blanks not followed by one is kept, and every other character is copied. |
| Passes.CollapseBlankLinesSpec | build/lib/pressproof/scraper.py:47 | No run of three line breaks is left. All characters other than line breaks are kept in order. The pass is idempotent, and the identity on text without such runs. Step by step: a run of three or more line breaks becomes exactly two, a shorter run is kept, and every other character is copied. |
| Passes.MarkSoftWrapsSpec | build/lib/pressproof/scraper.py:50 | For text without a sentinel, marking only turns line breaks into the wrap sentinel: unmarking gives back the input. Every sentinel sits between two characters that are not line breaks. Conversely, every line break left between two characters that are not line breaks has a sentinel right before its preceding character: that character was consumed by the previous match, which is why the pattern misses alternate single breaks. |
| Passes.PunctuationPassesNeedSentinel | build/lib/pressproof/scraper.py:51-52 | Without a sentinel in the text, the hugging pass and the `;.` pass change nothing. |
| Passes.ResolveWrapsSpec | build/lib/pressproof/scraper.py:53 | No sentinel survives resolution. Text without a sentinel is unchanged. Step by step: for sentinel-free text `a` that does not end in whitespace, whitespace runs `ws1` and `ws2`, and text `b` that does not start with whitespace, `a + ws1 + WRAP + ws2 + b` resolves to `a + " "` followed by the resolution of `b`. |
| Passes.TrimLineStartsSpec | build/lib/pressproof/scraper.py:56-57 | No space or tab is left after a line break. Every character other than a space or tab is kept in order. It keeps "no blank before a line break". Text already clean is unchanged. Step by step: a line break followed by blanks becomes that line break, and every other character is copied. |
| Passes.TrimsKeepSentinelOut | build/lib/pressproof/scraper.py:56-57 | The final trims never introduce a wrap sentinel. |
| Normalize.Tidy | build/lib/pressproof/scraper.py:43-57 | After the passes, no wrap sentinel is left and no space or tab touches a line break on either side. |
| Normalize.ReflowSegment | build/lib/pressproof/scraper.py:39-58 | For every decoding and normalization, the cleaned segment has no sentinel and no blank next to a line break. |
| Normalize.SingleLineUnchanged | build/lib/pressproof/scraper.py:43-57 | A single line of ordinary text is left exactly as it is. |
| Normalize.SoftWrapBecomesSpace | build/lib/pressproof/scraper.py:50-53 | A single line break between two non-space characters becomes one space. This holds whatever the character after it is, so `"word\n, next"` gives `"word , next"`. |
| Normalize.WrapHugsSpacedPunct | build/lib/pressproof/scraper.py:51 | A soft wrap followed by whitespace and closing punctuation is removed together with the whitespace, so the punctuation joins the preceding word. |
| Normalize.ParagraphBreakKept | build/lib/pressproof/scraper.py:47-57 | A blank line between two paragraphs survives cleaning unchanged. |
| Normalize.OnlyFirstOfAdjacentWrapsMarked | build/lib/pressproof/scraper.py:50 | In `a\ny\nb`, the first break becomes a space and the second stays, because the first match consumed `y`. |
| Normalize.TidyTwiceDiffers | build/lib/pressproof/scraper.py:39-58 | Cleaning twice joins the line that the first cleaning left, so the cleaning is not idempotent. |
| Normalize.SemicolonPassCanFire | build/lib/pressproof/scraper.py:52 | One concrete text cleans to `";."` with the `;`-wrap-`.` pass and to `"; ."` without it. |
| CodeSpans.CodeAt | build/lib/pressproof/scraper.py:27 | A code span at the start of a text is fenced or inline. A fenced span wins whenever one exists, and it is the shortest one. No match means no prefix of either kind. |
| CodeSpans.UnclosedFenceIsEmptySpan | build/lib/pressproof/scraper.py:27 | An opening fence that is never closed is matched as the empty inline span of its first two backticks. |
| CodeSpans.SplitCovers | build/lib/pressproof/scraper.py:120-130 | The prose and code pieces join back to the original text. They alternate starting with prose, and every code piece is a well-formed span. |
| CodeSpans.ScanSkips | build/lib/pressproof/scraper.py:122 | Positions where no code span starts are collected into the prose gap, so the spans found are the leftmost ones. |
| CodeSpans.Render | build/lib/pressproof/scraper.py:122-130 | There is one output string per piece. Code pieces are copied verbatim, and each prose piece is cleaned on its own. |
| CodeSpans.Reflow | build/lib/pressproof/scraper.py:115-132 | The reflowed text neither starts nor ends with whitespace. Text without the wrap sentinel reflows to text without one, since cleaning removes every sentinel and code spans are copied from the raw text. |
| CodeSpans.ReflowKeepsCode | build/lib/pressproof/scraper.py:115-132 | Every code span cut from the raw text appears, unchanged, in the reflowed text. |
| CodeSpans.CodeSpanKeepsSentinel | build/lib/pressproof/scraper.py:120-132 | A sentinel written inside an inline code span survives the reflow, because the span is copied whole. |
| CodeSpans.NoBacktickReflow | build/lib/pressproof/scraper.py:115-132 | Text without a backtick is one prose segment: its reflow is the stripped cleaning of the whole text. |
| Dom.Context | build/lib/pressproof/scraper.py:167-168 | The string type at a place in the page is plain exactly when no enclosing element is `rt`, `rp`, `script`, `style` or `template`. Otherwise it is named by the innermost such element. |
| Dom.PlainStrings | build/lib/pressproof/scraper.py:89 | Outside every such element, the plain strings below a node are its text strings, with comments and the contents of those elements left out. |
| Dom.OwnStringsTyped | build/lib/pressproof/scraper.py:89 | `get_text` on an element collects exactly the strings below it whose type is the element's own. A hidden element collects its own kind. An ordinary element collects plain strings, and it has none when it sits inside a hidden element. |
| Dom.StrippedText | build/lib/pressproof/scraper.py:167-168 | `get_text(strip=True)` neither starts nor ends with whitespace. It is empty exactly when every collected string is whitespace, and every collected string, stripped, appears in it. |
| Dom.HiddenChildIgnored | build/lib/pressproof/scraper.py:167-168 | A ruby annotation or parenthesis, script, style sheet or template child adds nothing to the text of an ordinary element around it, stripped or not, wherever that element sits. |
| Dom.FindIsFirst | build/lib/pressproof/scraper.py:153 | The depth-first search returns exactly the first matching node in document order. |
| Dom.SelectOneSpec | build/lib/pressproof/scraper.py:153 | A selected node is a page descendant that matches, and no earlier descendant matches. No selection means no descendant matches. |
| Extract.LangOf | build/lib/pressproof/scraper.py:93-99 | The language is the one named by the first class of the form `language-…` or `lang-…`. No language means no class names one. |
| Extract.Walk | build/lib/pressproof/scraper.py:65-108 | The walk only appends: the parts collected before a node are never changed. |
| Extract.TextFromDom | build/lib/pressproof/scraper.py:110-113 | The extracted text has no run of three line breaks, and it neither starts nor ends with whitespace. |
| Extract.SkippedAddsNothing | build/lib/pressproof/scraper.py:74-75 | A `script` or `style` element adds nothing, whatever it contains. |
| Extract.BreakAddsNewline | build/lib/pressproof/scraper.py:78-80 | A `br` element adds exactly one line break. |
| Extract.CodeAddsInlineSpan | build/lib/pressproof/scraper.py:88-89 | A `code` element adds its plain text wrapped in backticks. Inside a hidden element it adds the empty span. |
| Extract.PreAddsFencedBlock | build/lib/pressproof/scraper.py:90-101 | A `pre` element adds a fenced block with its language, holding its plain text, or nothing when it sits inside a hidden element. The block is set apart by blank lines. |
| Extract.CodeInTemplateIsEmpty | build/lib/pressproof/scraper.py:65-113 | `<template><code>x</code></template>` gives the page text of two backticks, an empty span: the walk enters the template, but the code element inside it has no text. |
| Extract.SpacedBlocksKeepTwoBlankLines | build/lib/pressproof/scraper.py:82-113 | For a whitespace string between two paragraphs, the walk emits a separator on each side of it, and the page text keeps two blank lines there. |
| Extract.BlockIsSetApart | build/lib/pressproof/scraper.py:82-108 | Walking a block element first opens a block: when anything came before, the parts so far are made to end in a blank line, and everything the element adds comes after that. The walk also ends with a blank line after the element. |
| Extract.UnstructuredWalk | build/lib/pressproof/scraper.py:65-68 | Over a tree with no special elements, the walk collects every string, comments included, in document order. |
| Extract.UnstructuredText | build/lib/pressproof/scraper.py:110-113 | For such a tree, the text is the joined strings with blank-line runs collapsed, then stripped. |
| Extract.SkippedRootIsEmpty | build/lib/pressproof/scraper.py:74-75 | A `script` or `style` root yields empty text. |
| Locate.RegionSpec | build/lib/pressproof/scraper.py:152-157 | The region is a page element matching one of the four rules. It is the first entry content of an article; failing that, the first element with the main role; then the first `main`; then the first `body`. There is none exactly when no element matches any rule. |
| Locate.PageContent | build/lib/pressproof/scraper.py:151-162 | Page content is trimmed. It is empty when the page has no content region. It holds the wrap sentinel only if the region's text, read where the region sits, already did. |
| Locate.PageTitle | build/lib/pressproof/scraper.py:165-174 | A title, when there is one, neither starts nor ends with whitespace. |
| Locate.PageTitleSpec | build/lib/pressproof/scraper.py:165-174 | A non-blank entry heading gives the title. Otherwise, when the first `title` element holds a single non-empty string, the title is that string stripped; in every other case there is no title. |
| Locate.BlankTitleIsEmpty | build/lib/pressproof/scraper.py:170-172 | With no entry heading, a whitespace-only `title` string gives the empty title rather than none. |
| Locate.NavNeverDecides | build/lib/pressproof/scraper.py:188-200 | The navigation rule finds nothing whenever the label scan found nothing. So the next URL is decided by the first three rules alone. |
| Locate.NextUrlIsJoinedHref | build/lib/pressproof/scraper.py:176-202 | A next URL is always the join of the page URL with the non-empty `href` of a `link` or `a` element of the page. |
| Locate.NextUrlPrecedence | build/lib/pressproof/scraper.py:178-193 | The rules are tried in a fixed order: first `link[rel=next]` with an address, then the first `a[rel~=next]` with an address, then the first anchor labelled "next…" with an address. If none applies, there is no next URL. |
| Driver.Check | build/lib/pressproof/__main__.py:49-62 | A page is logged exactly when the model reports errors. The log carries the URL, the page title and those errors. Otherwise the page is reported clean. |
| Driver.ProofRead | build/lib/pressproof/__main__.py:29-70 | The loop's events are the run's event trace. The page count equals the number of pages checked, and it never exceeds a depth limit. |
| Driver.FalsyStartDoesNothing | build/lib/pressproof/__main__.py:41 | With no starting URL, or an empty one, nothing happens, not even a finish report. |
| Driver.DepthCheckedFirst | build/lib/pressproof/__main__.py:41-44 | When the count has reached the depth limit, the run reports "depth limit reached" before checking another page. |
| Driver.ZeroDepthChecksNothing | build/lib/pressproof/__main__.py:41-44 | A depth limit of 0 checks no page. |
| Driver.LoggedOnlyWithErrors | build/lib/pressproof/__main__.py:53-59 | Every logged event carries the non-empty errors reported for its URL's content, and that page's title. Every clean event names a page for which no errors were reported. |
| Driver.FinishIsLast | build/lib/pressproof/__main__.py:41-70 | A finish report can only be the last event. |
| Driver.CheckedWithinLimit | build/lib/pressproof/__main__.py:42-66 | Under a depth limit, at most that many pages are checked. |
| Driver.StopsAtDepth | build/lib/pressproof/__main__.py:41-66 | When the chain of next links goes on long enough, the run checks exactly the pages up to the limit in chain order, then reports "depth limit reached". |
| Driver.StopsAtEnd | build/lib/pressproof/__main__.py:65-70 | For a book of n pages within the limit, the run checks the n pages in order, then reports "end of book". |
| Driver.BookRun | build/lib/pressproof/__main__.py:29-70 | For a book of n pages and a limit k, the run checks the first min(n, k) pages, then reports which of the two endings applied. |

## Left out

- Unicode NFKC normalization (`scraper.py:42`) and the cp1252-to-UTF-8 round trip (`scraper.py:34`) are function parameters (`Normalize.Codec`). The proofs hold for every choice of them. The model does not implement Unicode tables.
- `urljoin` is a parameter `join` of the next-page functions. URL resolution is not modelled.
- Fetching and parsing (`_fetch_soup`, `indexPage`), the HTTP timeout and user agent, and the lxml/html.parser fallback are left out. The page is given as an already parsed tree.
- The HTML parser's own decisions are left out: tag-name case, CDATA, doctype and processing-instruction strings, entity decoding. Element names are taken as lower case.
- The language-model call, token counting, the logger, the status bar, the `--dumppage` early exit and interrupt handling are left out. The language model and the per-page fetches are oracles of `Driver`, and logging is the event list.
- The `getPageContent`, `getPageTitle` and `getNextPageURL` calls in `proofRead` are not defined in `scraper.py`. They are modelled as the oracles `content`, `title` and `next`. `Locate.PageContent`, `Locate.PageTitle` and `Locate.NextPageUrl` are their intended meaning.
- Driver.Loop: it takes a `fuel` bound. A crawl that follows links forever, such as a cycle of pages without a depth limit, is cut off after `fuel` pages.
- Driver.ProofRead: `maxdepth` is a natural number or none. A negative limit, which the command line would accept and which never stops the loop, is not modelled.
- Chars.IsWordChar: `\w` is restricted to ASCII letters, digits and `_`. Python also accepts other Unicode letters and digits in a language class name.
- Chars.LowerChar: lower-casing is ASCII-only. This is enough for the `startswith("next")` tests, but it does not lower other scripts.
- Dom.SoleString: `tag.string` is modelled for text and comment children only. Other string subclasses are not distinguished.
- Exceptions raised by the transcoding are folded into the codec returning no result. Other exceptions, such as network errors and a missing `body` when the page fails to parse, are not modelled.

=== FILE: chars.dfy ===
/**
 Character classes and small string helpers shared by the extraction and
 reflow code: Python's notion of whitespace (`str.isspace`, the `\s` class of
 a `str` pattern), `str.strip()`, whitespace splitting, ASCII case folding,
 and sub-string occurrence.
 */
module Chars {

  /** Python's `str.isspace()`, which is also what `\s` matches in a `str` pattern. */
  predicate IsSpace(c: char) {
    || ('\t' <= c <= '\r')
    || ('\U{1C}' <= c <= '\U{1F}')
    || c == ' ' || c == '\U{85}' || c == '\U{A0}' || c == '\U{1680}'
    || ('\U{2000}' <= c <= '\U{200A}')
    || c == '\U{2028}' || c == '\U{2029}' || c == '\U{202F}' || c == '\U{205F}'
    || c == '\U{3000}'
  }

  /** The `[ \t]` class: horizontal blanks only. */
  predicate IsBlank(c: char) {
    c == ' ' || c == '\t'
  }

  /** The `\w` class, restricted to ASCII letters, digits and underscore. */
  predicate IsWordChar(c: char) {
    ('a' <= c <= 'z') || ('A' <= c <= 'Z') || ('0' <= c <= '9') || c == '_'
  }

  predicate AllSpace(s: string) {
    forall k :: 0 <= k < |s| ==> IsSpace(s[k])
  }

  /** Number of leading characters satisfying `p`: the greedy run `p*` at the start of `s`. */
  function Span(s: string, p: char -> bool): (n: nat)
    ensures n <= |s|
    ensures forall k :: 0 <= k < n ==> p(s[k])
    ensures n < |s| ==> !p(s[n])
  {
    if s == [] || !p(s[0]) then 0 else 1 + Span(s[1..], p)
  }

  /** Inside a run, the run seen from a later start is the rest of it. */
  lemma SpanFrom(s: string, p: char -> bool, i: nat)
    requires i <= Span(s, p)
    ensures Span(s[i..], p) == Span(s, p) - i
  {
    assert forall j :: 0 <= j < |s| - i ==> s[i..][j] == s[i + j];
  }

  /** A whitespace run followed by anything else is exactly what `\s*` takes. */
  lemma SpanOfRun(ws: string, rest: string)
    requires AllSpace(ws)
    requires rest == [] || !IsSpace(rest[0])
    ensures Span(ws + rest, IsSpace) == |ws|
  {
    var s := ws + rest;
    assert forall k :: 0 <= k < |ws| ==> s[k] == ws[k];
    assert |ws| < |s| ==> s[|ws|] == rest[0];
  }

  /** Number of trailing whitespace characters of `s`. */
  function TrailingSpace(s: string): (n: nat)
    ensures n <= |s|
    ensures forall k :: |s| - n <= k < |s| ==> IsSpace(s[k])
    ensures n < |s| ==> !IsSpace(s[|s| - n - 1])
  {
    if s == [] || !IsSpace(s[|s| - 1]) then 0 else 1 + TrailingSpace(s[..|s| - 1])
  }

  /** `w` occurs in `s` starting at index `i`. */
  predicate OccursAt(w: string, s: string, i: int) {
    0 <= i && i + |w| <= |s| && s[i..i + |w|] == w
  }

  predicate Occurs(w: string, s: string) {
    exists i :: 0 <= i <= |s| && OccursAt(w, s, i)
  }

  predicate StartsWith(s: string, prefix: string) {
    |prefix| <= |s| && s[..|prefix|] == prefix
  }

  predicate EndsWith(s: string, suffix: string) {
    |suffix| <= |s| && s[|s| - |suffix|..] == suffix
  }

  /** `w` starts the suffix of `t` at `j` exactly when it occurs in `t` at `j`. */
  lemma StartsWithOccurs(t: string, j: nat, w: string)
    requires j <= |t|
    ensures StartsWith(t[j..], w) <==> OccursAt(w, t, j)
  {
    if j + |w| <= |t| {
      assert t[j..][..|w|] == t[j..j + |w|];
    }
  }

  /** A string starting with `c` begins with `q` exactly when `q` starts with `c` and the rest follows. */
  lemma ConsPrefix(c: char, x: string, q: string)
    requires q != []
    ensures StartsWith([c] + x, q) <==> c == q[0] && StartsWith(x, q[1..])
  {
    if |q| <= |[c] + x| {
      assert ([c] + x)[..|q|] == [c] + x[..|q| - 1];
      if c == q[0] && StartsWith(x, q[1..]) {
        assert q == [q[0]] + q[1..];
      }
    }
  }

  /**
   Python's `str.strip()`: drops leading and trailing whitespace and nothing
   else, so the result is the one infix of `s` that is framed by whitespace
   and neither starts nor ends with it.
   */
  function Strip(s: string): (r: string)
    ensures r == [] || (!IsSpace(r[0]) && !IsSpace(r[|r| - 1]))
    ensures exists i :: 0 <= i <= |s| && OccursAt(r, s, i) && AllSpace(s[..i]) && AllSpace(s[i + |r|..])
    ensures AllSpace(s) <==> r == []
  {
    var i := Span(s, IsSpace);
    var j := TrailingSpace(s[i..]);
    StripFrame(s, i, j);
    s[i..|s| - j]
  }

  lemma StripFrame(s: string, i: nat, j: nat)
    requires i == Span(s, IsSpace) && j == TrailingSpace(s[i..])
    ensures i + j <= |s|
    ensures var r := s[i..|s| - j];
      && (r == [] || (!IsSpace(r[0]) && !IsSpace(r[|r| - 1])))
      && (exists i :: 0 <= i <= |s| && OccursAt(r, s, i) && AllSpace(s[..i]) && AllSpace(s[i + |r|..]))
      && (AllSpace(s) <==> r == [])
  {
    var r := s[i..|s| - j];
    StripCuts(s, i, j);
    StripEnds(s, i, j);
    assert s[i + |r|..] == s[|s| - j..];
    assert OccursAt(r, s, i);
  }

  /** What `Strip` cuts off at either end is whitespace. */
  lemma StripCuts(s: string, i: nat, j: nat)
    requires i == Span(s, IsSpace) && j == TrailingSpace(s[i..])
    ensures i + j <= |s|
    ensures AllSpace(s[..i]) && AllSpace(s[|s| - j..])
  {
    LeadingCut(s, i);
    TrailingCut(s[i..], j);
    assert s[i..][|s[i..]| - j..] == s[|s| - j..];
  }

  lemma LeadingCut(s: string, i: nat)
    requires i == Span(s, IsSpace)
    ensures AllSpace(s[..i])
  {
    forall k | 0 <= k < i ensures IsSpace(s[..i][k]) {
      assert IsSpace(s[k]);
    }
  }

  lemma TrailingCut(t: string, j: nat)
    requires j == TrailingSpace(t)
    ensures AllSpace(t[|t| - j..])
  {
    var tail := t[|t| - j..];
    forall k | 0 <= k < j ensures IsSpace(tail[k]) {
      assert tail[k] == t[|t| - j + k];
    }
  }


  /** What `Strip` keeps neither starts nor ends with whitespace, and is empty only for an all-blank input. */
  lemma StripEnds(s: string, i: nat, j: nat)
    requires i == Span(s, IsSpace) && j == TrailingSpace(s[i..])
    ensures i + j <= |s|
    ensures var r := s[i..|s| - j];
      && (r == [] || (!IsSpace(r[0]) && !IsSpace(r[|r| - 1])))
      && (AllSpace(s) <==> r == [])
  {
    var rest := s[i..];
    if i < |s| {
      assert !IsSpace(s[i]);
      assert !IsSpace(rest[0]);
      assert j < |rest|;
      assert !IsSpace(rest[|rest| - j - 1]);
      assert s[i..|s| - j][|rest| - j - 1] == rest[|rest| - j - 1];
    } else {
      assert AllSpace(s) by {
        forall k | 0 <= k < |s| ensures IsSpace(s[k]) {
        }
      }
    }
  }

  /** Every character before `i` is whitespace. */
  lemma SpacePrefix(s: string, i: nat)
    requires i <= |s| && AllSpace(s[..i])
    ensures forall p :: 0 <= p < i ==> IsSpace(s[p])
  {
    forall p | 0 <= p < i
      ensures IsSpace(s[p])
    {
      assert s[..i][p] == s[p];
    }
  }

  /** Every character from `j` on is whitespace. */
  lemma SpaceSuffix(s: string, j: nat)
    requires j <= |s| && AllSpace(s[j..])
    ensures forall p :: j <= p < |s| ==> IsSpace(s[p])
  {
    forall p | j <= p < |s|
      ensures IsSpace(s[p])
    {
      assert s[j..][p - j] == s[p];
    }
  }

  /**
   Stripping keeps every stretch of `s` that starts and ends with a
   non-whitespace character.
   */
  lemma StripKeepsFramed(s: string, c: string, q: nat)
    requires OccursAt(c, s, q) && c != []
    requires !IsSpace(c[0]) && !IsSpace(c[|c| - 1])
    ensures Occurs(c, Strip(s))
  {
    var r := Strip(s);
    var i :| 0 <= i <= |s| && OccursAt(r, s, i) && AllSpace(s[..i]) && AllSpace(s[i + |r|..]);
    FramedInCut(s, i, i + |r|, c, q);
    assert s[i..i + |r|] == r;
  }

  /** A stretch framed by non-whitespace survives cutting whitespace off both ends. */
  lemma FramedInCut(s: string, i: nat, e: nat, c: string, q: nat)
    requires i <= e <= |s| && AllSpace(s[..i]) && AllSpace(s[e..])
    requires OccursAt(c, s, q) && c != []
    requires !IsSpace(c[0]) && !IsSpace(c[|c| - 1])
    ensures Occurs(c, s[i..e])
  {
    SpacePrefix(s, i);
    SpaceSuffix(s, e);
    assert s[q] == c[0] && s[q + |c| - 1] == c[|c| - 1];
    NonSpaceInside(s, i, e, q, |c|);
    InfixOccurs(s, i, e, c, q);
  }

  /** An occurrence inside `s[i..e]` is an occurrence in that infix. */
  lemma InfixOccurs(s: string, i: nat, e: nat, c: string, q: nat)
    requires i <= q && q + |c| <= e <= |s| && OccursAt(c, s, q)
    ensures OccursAt(c, s[i..e], q - i) && Occurs(c, s[i..e])
  {
    var t := s[i..e];
    forall k | 0 <= k < |c|
      ensures t[q - i + k] == c[k]
    {
      assert t[q - i + k] == s[q + k];
      assert s[q..q + |c|][k] == s[q + k];
    }
    assert t[q - i..q - i + |c|] == c;
    assert 0 <= q - i <= |t| && OccursAt(c, t, q - i);
  }

  /** A stretch framed by non-whitespace lies between a whitespace prefix and a whitespace suffix. */
  lemma NonSpaceInside(s: string, i: nat, e: nat, q: nat, len: nat)
    requires i <= e <= |s| && 0 < len && q + len <= |s|
    requires forall p :: 0 <= p < i ==> IsSpace(s[p])
    requires forall p :: e <= p < |s| ==> IsSpace(s[p])
    requires !IsSpace(s[q]) && !IsSpace(s[q + len - 1])
    ensures i <= q && q + len <= e
  {
  }

  /** `Strip` cuts exactly the whitespace before `i` and from `j` on when `i` and `j - 1` hold no whitespace. */
  lemma StripExact(s: string, i: nat, j: nat)
    requires i < j <= |s|
    requires AllSpace(s[..i]) && AllSpace(s[j..])
    requires !IsSpace(s[i]) && !IsSpace(s[j - 1])
    ensures Strip(s) == s[i..j]
  {
    var r := Strip(s);
    var i' :| 0 <= i' <= |s| && OccursAt(r, s, i') && AllSpace(s[..i']) && AllSpace(s[i' + |r|..]);
    SpacePrefix(s, i);
    SpaceSuffix(s, j);
    SpacePrefix(s, i');
    SpaceSuffix(s, i' + |r|);
    assert !AllSpace(s) by {
      assert !IsSpace(s[i]);
    }
    assert r[0] == s[i'] && r[|r| - 1] == s[i' + |r| - 1];
    assert i' == i && i' + |r| == j;
  }

  /** An infix of a text in which `w` does not occur holds no `w` either. */
  lemma InfixFree(w: string, s: string, r: string, i: int)
    requires OccursAt(r, s, i)
    requires !Occurs(w, s)
    ensures !Occurs(w, r)
  {
    forall j | 0 <= j <= |r| - |w|
      ensures !OccursAt(w, r, j)
    {
      var a := r[j..j + |w|];
      var b := s[i + j..i + j + |w|];
      forall k | 0 <= k < |w|
        ensures a[k] == b[k]
      {
        assert a[k] == s[i..i + |r|][j + k];
      }
      assert a == b;
      assert !OccursAt(w, s, i + j);
    }
  }

  /** An occurrence inside an infix of `s` is an occurrence in `s`. */
  lemma OccursInInfix(w: string, s: string, r: string, i: int)
    requires OccursAt(r, s, i)
    requires Occurs(w, r)
    ensures Occurs(w, s)
  {
    var j :| 0 <= j <= |r| && OccursAt(w, r, j);
    assert r == s[i..i + |r|];
    forall k | 0 <= k < |w|
      ensures s[i + j + k] == w[k]
    {
      assert w[k] == r[j + k];
    }
    assert s[i + j..i + j + |w|] == w;
    assert OccursAt(w, s, i + j);
  }

  lemma OccursInSuffix(w: string, s: string, k: nat)
    requires k <= |s|
    ensures Occurs(w, s[k..]) ==> Occurs(w, s)
  {
    if Occurs(w, s[k..]) {
      assert OccursAt(s[k..], s, k);
      OccursInInfix(w, s, s[k..], k);
    }
  }

  /** Python's `str.split()` (and BeautifulSoup's `\S+` tokenising of multi-valued attributes). */
  function Words(s: string): (ws: seq<string>)
    ensures forall k :: 0 <= k < |ws| ==> ws[k] != [] && forall c :: c in ws[k] ==> !IsSpace(c)
    decreases |s|
  {
    var i := Span(s, IsSpace);
    if i == |s| then []
    else
      var rest := s[i..];
      var n := Span(rest, c => !IsSpace(c));
      [rest[..n]] + Words(rest[n..])
  }

  /** ASCII case folding of one character. */
  function LowerChar(c: char): char {
    if 'A' <= c <= 'Z' then (c as int + 32) as char else c
  }

  /**
   `s.lower().startswith(prefix)` for a lower-case ASCII `prefix`: no
   non-ASCII character lower-cases to an ASCII letter other than `i` and `k`,
   so comparing the folded leading characters decides the test.
   */
  predicate LowerStartsWith(s: string, prefix: string) {
    |prefix| <= |s| && forall k :: 0 <= k < |prefix| ==> LowerChar(s[k]) == prefix[k]
  }

  /** Concatenation of a list of strings, Python's `"".join(parts)`. */
  function Concat(parts: seq<string>): string {
    if parts == [] then [] else Concat(parts[..|parts| - 1]) + parts[|parts| - 1]
  }

  /** A join is empty exactly when every part is. */
  lemma {:induction false} ConcatEmpty(ss: seq<string>)
    ensures Concat(ss) == [] <==> forall k :: 0 <= k < |ss| ==> ss[k] == []
    decreases |ss|
  {
    if ss != [] {
      var init := ss[..|ss| - 1];
      ConcatEmpty(init);
      assert forall k :: 0 <= k < |init| ==> init[k] == ss[k];
      assert (forall k :: 0 <= k < |ss| ==> ss[k] == [])
        <==> (forall k :: 0 <= k < |init| ==> init[k] == []) && ss[|ss| - 1] == [];
    }
  }

  /** Each part sits in the join right after the parts before it. */
  lemma ConcatAt(ss: seq<string>, k: nat)
    requires k < |ss|
    ensures OccursAt(ss[k], Concat(ss), |Concat(ss[..k])|)
  {
    assert ss == ss[..k] + ([ss[k]] + ss[k + 1..]);
    ConcatAppend(ss[..k], [ss[k]] + ss[k + 1..]);
    ConcatAppend([ss[k]], ss[k + 1..]);
    assert Concat([ss[k]]) == Concat([]) + ss[k];
    var c := Concat(ss);
    var a := Concat(ss[..k]);
    assert c == a + ss[k] + Concat(ss[k + 1..]);
    assert c[|a|..|a| + |ss[k]|] == ss[k];
  }

  lemma ConcatAppend(a: seq<string>, b: seq<string>)
    ensures Concat(a + b) == Concat(a) + Concat(b)
    decreases |b|
  {
    if b == [] {
      assert a + b == a;
    } else {
      assert (a + b)[..|a + b| - 1] == a + b[..|b| - 1];
      ConcatAppend(a, b[..|b| - 1]);
    }
  }
}

=== FILE: codespans.dfy ===
/**
 `_reflow`: the raw page text is cut at code spans, either a fenced block
 (three backticks up to the next three backticks, across lines) or an inline
 span (one backtick, no backtick or newline, one backtick), with the fenced
 form tried first at each position. Code spans are copied unchanged; every
 stretch of prose between them goes through the segment clean-up; the
 pieces are joined and the whole is stripped.
 */
module CodeSpans {
  import opened Wrappers
  import opened Chars
  import opened Passes
  import opened Normalize

  const FENCE: string := "```"

  // ---------------------------------------------------------------------
  // The pattern, declaratively

  /** A fenced block ending at the first closing fence after the opening one. */
  predicate IsFenced(c: string) {
    |c| >= 6 && StartsWith(c, FENCE) && EndsWith(c, FENCE)
    && forall j :: 3 <= j < |c| - 3 ==> !OccursAt(FENCE, c, j)
  }

  predicate InInline(c: char) { c != '`' && c != '\n' }

  /** An inline span: backtick, characters other than backtick and newline, backtick. */
  predicate IsInline(c: string) {
    |c| >= 2 && c[0] == '`' && c[|c| - 1] == '`'
    && forall k :: 0 < k < |c| - 1 ==> InInline(c[k])
  }

  // ---------------------------------------------------------------------
  // The pattern, as the regex engine tries it

  /** The first occurrence of `w` in `t` at or after `from`. */
  function FindFrom(t: string, w: string, from: nat): (r: Option<nat>)
    requires w != []
    ensures r.Some? ==> from <= r.value && OccursAt(w, t, r.value)
    ensures r.Some? ==> forall j :: from <= j < r.value ==> !OccursAt(w, t, j)
    ensures r.None? ==> forall j :: from <= j ==> !OccursAt(w, t, j)
    decreases |t| - from
  {
    if from + |w| > |t| then None
    else if t[from..from + |w|] == w then Some(from)
    else FindFrom(t, w, from + 1)
  }

  /** The fenced alternative: the lazy `.*?` stops at the first closing fence. */
  function FencedAt(t: string): Option<nat> {
    if StartsWith(t, FENCE) then
      match FindFrom(t, FENCE, 3)
      case Some(q) => Some(q + 3)
      case None => None
    else None
  }

  /**
   The inline alternative. The greedy run can only be followed by a
   backtick if it is not shortened, since every shorter run is followed by a
   character of the run.
   */
  function InlineAt(t: string): Option<nat> {
    if t != [] && t[0] == '`' then
      var k := Span(t[1..], InInline);
      if 1 + k < |t| && t[1 + k] == '`' then Some(k + 2) else None
    else None
  }

  /**
   The length of the code span starting at the first character of `t`,
   if any: a fenced block when one starts there, else an inline span. The
   result is a span of one of the two kinds; a fenced result is the shortest
   fenced prefix; and `None` means no prefix of either kind exists.
   */
  function CodeAt(t: string): (r: Option<nat>)
    ensures r.Some? ==> 2 <= r.value <= |t| && (IsFenced(t[..r.value]) || IsInline(t[..r.value]))
    ensures (exists n :: 6 <= n <= |t| && IsFenced(t[..n])) ==> r.Some? && IsFenced(t[..r.value])
    ensures r.Some? && IsFenced(t[..r.value]) ==> forall n :: 6 <= n < r.value ==> !IsFenced(t[..n])
    ensures r.None? ==> forall n :: 2 <= n <= |t| ==> !IsFenced(t[..n]) && !IsInline(t[..n])
  {
    FencedSpec(t);
    InlineSpec(t);
    MatchAt(t)
  }

  /** The alternation as the engine runs it: the fenced branch first, then the inline one. */
  function MatchAt(t: string): (r: Option<nat>)
    ensures r.Some? ==> 2 <= r.value <= |t|
  {
    if FencedAt(t).Some? then FencedAt(t) else InlineAt(t)
  }

  lemma FencedSpec(t: string)
    ensures FencedAt(t).Some? ==> 6 <= FencedAt(t).value <= |t| && IsFenced(t[..FencedAt(t).value])
    ensures FencedAt(t).Some? ==> forall n :: 6 <= n < FencedAt(t).value ==> !IsFenced(t[..n])
    ensures FencedAt(t).None? ==> forall n :: 6 <= n <= |t| ==> !IsFenced(t[..n])
  {
    if StartsWith(t, FENCE) {
      var f := FindFrom(t, FENCE, 3);
      match f
      case Some(q) =>
        var c := t[..q + 3];
        assert c[q..] == FENCE;
        assert c[..3] == t[..3];
        forall j | 3 <= j < |c| - 3
          ensures !OccursAt(FENCE, c, j)
        {
          assert !OccursAt(FENCE, t, j);
          assert c[j..j + 3] == t[j..j + 3];
        }
        forall n | 6 <= n < q + 3
          ensures !IsFenced(t[..n])
        {
          assert !OccursAt(FENCE, t, n - 3);
          assert t[..n][n - 3..] == t[n - 3..n];
        }
      case None =>
        forall n | 6 <= n <= |t|
          ensures !IsFenced(t[..n])
        {
          assert !OccursAt(FENCE, t, n - 3);
          assert t[..n][n - 3..] == t[n - 3..n];
        }
    } else {
      forall n | 6 <= n <= |t|
        ensures !IsFenced(t[..n])
      {
        assert t[..n][..3] == t[..3];
      }
    }
  }

  lemma InlineSpec(t: string)
    ensures InlineAt(t).Some? ==> 2 <= InlineAt(t).value <= |t| && IsInline(t[..InlineAt(t).value])
    ensures InlineAt(t).None? ==> forall n :: 2 <= n <= |t| ==> !IsInline(t[..n])
  {
    if t != [] && t[0] == '`' {
      var u := t[1..];
      var k := Span(u, InInline);
      if 1 + k < |t| && t[1 + k] == '`' {
        var c := t[..k + 2];
        forall j | 0 < j < |c| - 1
          ensures InInline(c[j])
        {
          assert c[j] == u[j - 1];
        }
      } else {
        forall n | 2 <= n <= |t|
          ensures !IsInline(t[..n])
        {
          var c := t[..n];
          if n - 2 < k {
            assert c[n - 1] == u[n - 2];
          } else if n - 2 > k {
            assert c[1 + k] == u[k];
          }
        }
      }
    } else {
      forall n | 2 <= n <= |t|
        ensures !IsInline(t[..n])
      {
        assert t[..n][0] == t[0];
      }
    }
  }

  /**
   An opening fence with no closing fence is not a fenced block; the
   inline alternative then matches its first two backticks as an empty span.
   */
  lemma UnclosedFenceIsEmptySpan(t: string)
    requires StartsWith(t, FENCE)
    requires forall j :: 3 <= j ==> !OccursAt(FENCE, t, j)
    ensures CodeAt(t) == Some(2)
    ensures IsInline(t[..2])
  {
    assert t[0] == t[..3][0] && t[1] == t[..3][1];
    assert FindFrom(t, FENCE, 3).None?;
    assert Span(t[1..], InInline) == 0;
  }

  // ---------------------------------------------------------------------
  // Cutting the text

  datatype Piece = Prose(text: string) | Code(text: string)

  /**
   The left-to-right scan of `finditer`: `gap` is the prose collected since
   the last code span. The result alternates prose and code, starting and
   ending with prose (possibly empty).
   */
  function Scan(s: string, gap: string): seq<Piece>
    decreases |s|
  {
    if s == [] then [Prose(gap)]
    else match MatchAt(s)
      case Some(n) => [Prose(gap), Code(s[..n])] + Scan(s[n..], [])
      case None => Scan(s[1..], gap + [s[0]])
  }

  function Split(s: string): seq<Piece> {
    Scan(s, [])
  }

  function Texts(ps: seq<Piece>): seq<string> {
    seq(|ps|, k requires 0 <= k < |ps| => ps[k].text)
  }

  /** Prose at even positions, code at odd ones, prose first and last. */
  predicate Alternates(ps: seq<Piece>) {
    |ps| % 2 == 1 && forall k :: 0 <= k < |ps| ==> (ps[k].Prose? <==> k % 2 == 0)
  }

  lemma {:induction false} ScanJoins(s: string, gap: string)
    ensures Concat(Texts(Scan(s, gap))) == gap + s
    decreases |s|
  {
    if s == [] {
      JoinOne(gap);
    } else if MatchAt(s).None? {
      ScanMiss(s, gap);
      ScanJoins(s[1..], gap + [s[0]]);
      MoveHead(gap, s);
    } else {
      var n := MatchAt(s).value;
      ScanHit(s, gap);
      ScanJoins(s[n..], []);
      JoinHit(gap, s, n, Scan(s[n..], []));
    }
  }

  lemma JoinOne(gap: string)
    ensures Concat(Texts([Prose(gap)])) == gap + []
  {
    assert Texts([Prose(gap)]) == [gap];
    assert Concat([gap]) == Concat([]) + gap;
  }

  lemma MoveHead(gap: string, s: string)
    requires s != []
    ensures gap + [s[0]] + s[1..] == gap + s
  {
  }

  lemma JoinHit(gap: string, s: string, n: nat, rest: seq<Piece>)
    requires n <= |s|
    requires Concat(Texts(rest)) == [] + s[n..]
    ensures Concat(Texts([Prose(gap), Code(s[..n])] + rest)) == gap + s
  {
    TextsHit(gap, s[..n], rest);
    ConcatAppend([gap, s[..n]], Texts(rest));
    ConcatPair(gap, s[..n]);
    SplitAt(gap, s, n);
  }

  lemma TextsHit(gap: string, c: string, rest: seq<Piece>)
    ensures Texts([Prose(gap), Code(c)] + rest) == [gap, c] + Texts(rest)
  {
  }

  lemma ConcatPair(a: string, b: string)
    ensures Concat([a, b]) == a + b
  {
    assert [a, b][..1] == [a];
    assert Concat([a]) == Concat([]) + a;
  }

  lemma SplitAt(gap: string, s: string, n: nat)
    requires n <= |s|
    ensures gap + s[..n] + ([] + s[n..]) == gap + s
  {
    assert [] + s[n..] == s[n..];
    assert s == s[..n] + s[n..];
  }

  lemma {:induction false} ScanAlternates(s: string, gap: string)
    ensures Alternates(Scan(s, gap))
    decreases |s|
  {
    if s != [] {
      if MatchAt(s).None? {
        ScanMiss(s, gap);
        ScanAlternates(s[1..], gap + [s[0]]);
      } else {
        var n := MatchAt(s).value;
        var rest := Scan(s[n..], []);
        ScanHit(s, gap);
        ScanAlternates(s[n..], []);
        var ps := [Prose(gap), Code(s[..n])] + rest;
        forall k | 0 <= k < |ps|
          ensures ps[k].Prose? <==> k % 2 == 0
        {
          if k >= 2 {
            assert ps[k] == rest[k - 2];
          }
        }
      }
    }
  }

  /** Every code piece is a fenced block or an inline span. */
  predicate CodeWellFormed(ps: seq<Piece>) {
    forall k :: 0 <= k < |ps| && ps[k].Code? ==> IsFenced(ps[k].text) || IsInline(ps[k].text)
  }

  lemma {:induction false} ScanCodeWellFormed(s: string, gap: string)
    ensures CodeWellFormed(Scan(s, gap))
    decreases |s|
  {
    if s != [] {
      if MatchAt(s).None? {
        ScanMiss(s, gap);
        ScanCodeWellFormed(s[1..], gap + [s[0]]);
      } else {
        var n := CodeAt(s).value;
        var rest := Scan(s[n..], []);
        ScanHit(s, gap);
        ScanCodeWellFormed(s[n..], []);
        assert IsFenced(s[..n]) || IsInline(s[..n]);
        var ps := [Prose(gap), Code(s[..n])] + rest;
        forall k | 0 <= k < |ps| && ps[k].Code?
          ensures IsFenced(ps[k].text) || IsInline(ps[k].text)
        {
          if k >= 2 {
            assert ps[k] == rest[k - 2];
          }
        }
      }
    }
  }

  /**
   Cutting loses and reorders nothing: the pieces join back to the raw
   text, alternate between prose and code, and every code piece is a span
   of one of the two kinds.
   */
  lemma SplitCovers(s: string)
    ensures Concat(Texts(Split(s))) == s
    ensures Alternates(Split(s))
    ensures CodeWellFormed(Split(s))
  {
    ScanJoins(s, []);
    assert [] + s == s;
    ScanAlternates(s, []);
    ScanCodeWellFormed(s, []);
  }

  /**
   The scan is leftmost: across positions where no code span starts, the
   characters are only collected into the pending prose; where one starts,
   it is cut off whole.
   */
  lemma ScanSkips(s: string, gap: string, m: nat)
    requires m <= |s|
    requires forall i :: 0 <= i < m ==> CodeAt(s[i..]).None?
    ensures Scan(s, gap) == Scan(s[m..], gap + s[..m])
  {
    forall i | 0 <= i < m
      ensures MatchAt(s[i..]).None?
    {
      assert CodeAt(s[i..]) == MatchAt(s[i..]);
    }
    MissesSkip(s, gap, m);
  }

  lemma {:induction false} MissesSkip(s: string, gap: string, m: nat)
    requires m <= |s|
    requires forall i :: 0 <= i < m ==> MatchAt(s[i..]).None?
    ensures Scan(s, gap) == Scan(s[m..], gap + s[..m])
    decreases m
  {
    if m == 0 {
      SkipNothing(s, gap);
    } else {
      MissesShift(s, m);
      ScanMiss(s, gap);
      MissesSkip(s[1..], gap + [s[0]], m - 1);
      SkipOne(s, gap, m);
    }
  }

  lemma SkipNothing(s: string, gap: string)
    ensures s[0..] == s && gap + s[..0] == gap
  {
  }

  lemma MissesShift(s: string, m: nat)
    requires 0 < m <= |s|
    requires forall i :: 0 <= i < m ==> MatchAt(s[i..]).None?
    ensures MatchAt(s).None?
    ensures forall i :: 0 <= i < m - 1 ==> MatchAt(s[1..][i..]).None?
  {
    assert s[0..] == s;
    forall i | 0 <= i < m - 1
      ensures MatchAt(s[1..][i..]).None?
    {
      assert s[1..][i..] == s[i + 1..];
    }
  }

  lemma SkipOne(s: string, gap: string, m: nat)
    requires 0 < m <= |s|
    ensures s[1..][m - 1..] == s[m..]
    ensures gap + [s[0]] + s[1..][..m - 1] == gap + s[..m]
  {
  }

  lemma ScanMiss(s: string, gap: string)
    requires s != [] && MatchAt(s).None?
    ensures Scan(s, gap) == Scan(s[1..], gap + [s[0]])
  {
  }

  lemma ScanHit(s: string, gap: string)
    requires MatchAt(s).Some?
    ensures Scan(s, gap) == [Prose(gap), Code(s[..MatchAt(s).value])] + Scan(s[MatchAt(s).value..], [])
  {
  }

  // ---------------------------------------------------------------------
  // Reflowing

  /** One piece as it appears in the output. */
  function RenderPiece(codec: Codec, p: Piece): string {
    if p.Code? then p.text else ReflowSegment(codec, p.text)
  }

  /**
   The pieces rendered left to right, one output string per piece: code
   pieces verbatim, each prose piece cleaned on its own.
   */
  function Render(codec: Codec, ps: seq<Piece>): (out: seq<string>)
    ensures |out| == |ps|
    ensures forall k :: 0 <= k < |ps| && ps[k].Code? ==> out[k] == ps[k].text
    ensures forall k :: 0 <= k < |ps| && ps[k].Prose? ==> out[k] == ReflowSegment(codec, ps[k].text)
    decreases |ps|
  {
    if ps == [] then [] else [RenderPiece(codec, ps[0])] + Render(codec, ps[1..])
  }

  /**
   `_reflow`: the joined pieces, stripped. Cleaning prose never introduces
   the line-wrap sentinel and code spans are copied from the raw text, so
   text without a sentinel reflows to text without one.
   */
  function Reflow(codec: Codec, raw: string): (r: string)
    ensures r == [] || (!IsSpace(r[0]) && !IsSpace(r[|r| - 1]))
    ensures !HasSentinel(raw) ==> !HasSentinel(r)
  {
    RenderedSentinel(codec, raw);
    Strip(Concat(Render(codec, Split(raw))))
  }

  /** Every code span cut from the raw text appears, unchanged, in its reflow. */
  lemma ReflowKeepsCode(codec: Codec, raw: string)
    ensures forall k :: 0 <= k < |Split(raw)| && Split(raw)[k].Code? ==>
      Occurs(Split(raw)[k].text, Reflow(codec, raw))
  {
    forall k | 0 <= k < |Split(raw)| && Split(raw)[k].Code?
      ensures Occurs(Split(raw)[k].text, Reflow(codec, raw))
    {
      CodeKept(codec, raw, k);
    }
  }

  lemma CodeKept(codec: Codec, raw: string, k: nat)
    requires k < |Split(raw)| && Split(raw)[k].Code?
    ensures Occurs(Split(raw)[k].text, Strip(Concat(Render(codec, Split(raw)))))
  {
    var ps := Split(raw);
    var out := Render(codec, ps);
    var c := ps[k].text;
    SplitCovers(raw);
    assert IsFenced(c) || IsInline(c);
    CodeIsFramed(c);
    assert out[k] == c;
    ConcatAt(out, k);
    StripKeepsFramed(Concat(out), c, |Concat(out[..k])|);
  }

  /** Both kinds of code span open and close with a backtick. */
  lemma CodeIsFramed(c: string)
    requires IsFenced(c) || IsInline(c)
    ensures |c| >= 2 && c[0] == '`' && c[|c| - 1] == '`'
  {
    if IsFenced(c) {
      assert c[..3][0] == c[0];
      assert c[|c| - 3..][2] == c[|c| - 1];
    }
  }

  // ---------------------------------------------------------------------
  // The sentinel

  /** Every odd-position part opens and closes with a backtick. */
  predicate CodeFramed(out: seq<string>) {
    forall k :: 0 <= k < |out| && k % 2 == 1 ==> |out[k]| >= 2 && out[k][0] == '`' && out[k][|out[k]| - 1] == '`'
  }

  lemma RenderedSentinel(codec: Codec, raw: string)
    ensures !HasSentinel(raw) ==> !HasSentinel(Strip(Concat(Render(codec, Split(raw)))))
  {
    if !HasSentinel(raw) {
      var out := Render(codec, Split(raw));
      RenderFramedAndFree(codec, raw);
      ConcatSentinelFree(out);
      StripSentinelFree(Concat(out));
    }
  }

  lemma StripSentinelFree(s: string)
    requires !HasSentinel(s)
    ensures !HasSentinel(Strip(s))
  {
    var r := Strip(s);
    var i :| 0 <= i <= |s| && OccursAt(r, s, i) && AllSpace(s[..i]) && AllSpace(s[i + |r|..]);
    InfixFree(WRAP, s, r, i);
  }

  lemma RenderFramedAndFree(codec: Codec, raw: string)
    requires !HasSentinel(raw)
    ensures CodeFramed(Render(codec, Split(raw)))
    ensures forall k :: 0 <= k < |Split(raw)| ==> !HasSentinel(Render(codec, Split(raw))[k])
  {
    var ps := Split(raw);
    var out := Render(codec, ps);
    SplitCovers(raw);
    RenderCodeFramed(codec, ps);
    forall k | 0 <= k < |ps|
      ensures !HasSentinel(out[k])
    {
      PieceSentinelFree(codec, raw, k);
    }
  }

  /** Code sits at the odd positions and is kept verbatim, backticks and all. */
  lemma RenderCodeFramed(codec: Codec, ps: seq<Piece>)
    requires Alternates(ps) && CodeWellFormed(ps)
    ensures CodeFramed(Render(codec, ps))
  {
    var out := Render(codec, ps);
    forall k | 0 <= k < |out| && k % 2 == 1
      ensures |out[k]| >= 2 && out[k][0] == '`' && out[k][|out[k]| - 1] == '`'
    {
      assert ps[k].Code?;
      CodeIsFramed(ps[k].text);
    }
  }

  lemma PieceSentinelFree(codec: Codec, raw: string, k: nat)
    requires !HasSentinel(raw) && k < |Split(raw)|
    ensures !HasSentinel(Render(codec, Split(raw))[k])
  {
    var ps := Split(raw);
    if ps[k].Code? {
      SplitCovers(raw);
      assert Texts(ps)[k] == ps[k].text;
      ConcatAt(Texts(ps), k);
      InfixFree(WRAP, raw, ps[k].text, |Concat(Texts(ps)[..k])|);
    }
  }

  /**
   Joining sentinel-free parts makes no sentinel when a backtick sits at
   every seam, since the sentinel holds no backtick.
   */
  lemma {:induction false} ConcatSentinelFree(out: seq<string>)
    requires CodeFramed(out)
    requires forall k :: 0 <= k < |out| ==> !HasSentinel(out[k])
    ensures !HasSentinel(Concat(out))
  {
    if out != [] {
      var n := |out|;
      var init := out[..n - 1];
      assert CodeFramed(init) by {
        forall k | 0 <= k < |init| && k % 2 == 1
          ensures |init[k]| >= 2 && init[k][0] == '`' && init[k][|init[k]| - 1] == '`'
        {
          assert init[k] == out[k];
        }
      }
      ConcatSentinelFree(init);
      assert !HasSentinel(out[n - 1]);
      if n % 2 == 1 && n >= 2 {
        assert Concat(init) == Concat(init[..n - 2]) + init[n - 2];
        assert init[n - 2] == out[n - 2];
      }
      SentinelAcross(Concat(init), out[n - 1]);
    }
  }

  /** A sentinel in `u + v` lies in `u` or in `v` when a backtick sits at the seam. */
  lemma SentinelAcross(u: string, v: string)
    requires u == [] || u[|u| - 1] == '`' || (v != [] && v[0] == '`')
    requires !HasSentinel(u) && !HasSentinel(v)
    ensures !HasSentinel(u + v)
  {
    forall p | 0 <= p <= |u + v|
      ensures !OccursAt(WRAP, u + v, p)
    {
      SentinelNotAt(u, v, p);
    }
  }

  lemma SentinelNotAt(u: string, v: string, p: nat)
    requires u == [] || u[|u| - 1] == '`' || (v != [] && v[0] == '`')
    requires !HasSentinel(u) && !HasSentinel(v)
    ensures !OccursAt(WRAP, u + v, p)
  {
    var w := u + v;
    if p + 6 <= |w| {
      if p + 6 <= |u| {
        assert w[p..p + 6] == u[p..p + 6];
        assert !OccursAt(WRAP, u, p);
      } else if |u| <= p {
        assert w[p..p + 6] == v[p - |u|..p - |u| + 6];
        assert !OccursAt(WRAP, v, p - |u|);
      } else {
        assert w[p..p + 6][|u| - 1 - p] == u[|u| - 1];
        assert w[p..p + 6][|u| - p] == v[0];
        assert WRAP[|u| - 1 - p] != '`' && WRAP[|u| - p] != '`';
      }
    }
  }

  /**
   The invariant has an exception: a code span is copied whole, so a
   sentinel written inside one survives the reflow.
   */
  lemma CodeSpanKeepsSentinel(codec: Codec)
    ensures HasSentinel(Reflow(codec, "`" + WRAP + "`"))
  {
    var raw := "`" + WRAP + "`";
    assert IsInline(raw[..8]);
    var n := CodeAt(raw).value;
    assert !IsFenced(raw[..n]) by {
      assert raw[..n][..3][1] == raw[1];
    }
    assert raw[..n][n - 1] == raw[n - 1];
    assert n == 8;
    assert raw[..8] == raw;
    ScanHit(raw, []);
    assert Split(raw)[1] == Code(raw);
    ReflowKeepsCode(codec, raw);
    var r := Reflow(codec, raw);
    assert Occurs(raw, r);
    var j :| 0 <= j <= |r| && OccursAt(raw, r, j);
    assert raw[1..7] == WRAP;
    assert OccursAt(WRAP, raw, 1);
    OccursInInfix(WRAP, r, raw, j);
  }

  /** Text without a backtick is one prose segment. */
  lemma NoBacktickIsOneSegment(raw: string)
    requires '`' !in raw
    ensures Split(raw) == [Prose(raw)]
  {
    NoBacktickScan(raw, []);
    assert [] + raw == raw;
  }

  /** ... so its reflow is just the segment clean-up, stripped. */
  lemma NoBacktickReflow(codec: Codec, raw: string)
    requires '`' !in raw
    ensures Reflow(codec, raw) == Strip(ReflowSegment(codec, raw))
  {
    NoBacktickIsOneSegment(raw);
    RenderOne(codec, raw);
  }

  lemma RenderOne(codec: Codec, t: string)
    ensures Concat(Render(codec, [Prose(t)])) == ReflowSegment(codec, t)
  {
    var out := Render(codec, [Prose(t)]);
    assert out == [ReflowSegment(codec, t)];
    assert Concat(out) == Concat([]) + out[0];
  }

  lemma {:induction false} NoBacktickScan(s: string, gap: string)
    requires '`' !in s
    ensures Scan(s, gap) == [Prose(gap + s)]
    decreases |s|
  {
    if s == [] {
      assert gap + s == gap;
    } else {
      assert s[0] in s;
      assert s[0] != '`';
      assert FencedAt(s).None? by {
        if |s| >= 3 {
          assert s[..3][0] == s[0];
        }
      }
      assert MatchAt(s).None?;
      ScanMiss(s, gap);
      assert forall c :: c in s[1..] ==> c in s;
      NoBacktickScan(s[1..], gap + [s[0]]);
      assert gap + [s[0]] + s[1..] == gap + s;
    }
  }
}

=== FILE: dom.dfy ===
/**
 The parsed page, as the scraper sees it through BeautifulSoup: a tree of
 text strings, comments and elements. Element names are the lower-case
 names the HTML parsers produce; attribute values are the raw strings, and
 the multi-valued ones (`class`, `rel`) are read as their whitespace-separated
 words, the way the library splits them.
 */
module Dom {
  import opened Wrappers
  import opened Chars

  datatype Node =
    | Text(text: string)
    | Comment(text: string)
    | Elem(name: string, attrs: map<string, string>, children: seq<Node>)

  predicate Named(n: Node, name: string) {
    n.Elem? && n.name == name
  }

  /** `tag.get(key)`: the attribute's value, `None` when it is absent. */
  function Attr(n: Node, key: string): Option<string> {
    if n.Elem? && key in n.attrs then Some(n.attrs[key]) else None
  }

  /** `tag.get(key)` is truthy: the attribute is present and not empty. */
  predicate HasValue(n: Node, key: string) {
    Attr(n, key).Some? && Attr(n, key).value != []
  }

  /** A multi-valued attribute as a list of words; no words when absent. */
  function AttrWords(n: Node, key: string): seq<string> {
    match Attr(n, key)
    case Some(v) => Words(v)
    case None => []
  }

  function Classes(n: Node): seq<string> {
    AttrWords(n, "class")
  }

  // ---------------------------------------------------------------------
  // Text content

  /**
   When the parser builds the tree it gives every string a type. Inside one
   of these elements a string takes that element's own type (ruby
   annotations `rt`, ruby parentheses `rp`, scripts, style sheets and
   templates); the innermost such element wins. Every other string is a
   plain text string.
   */
  const HIDDEN_STRINGS: set<string> := {"rt", "rp", "script", "style", "template"}

  predicate IsHidden(n: Node) {
    n.Elem? && n.name in HIDDEN_STRINGS
  }

  /**
   The type an element hands on to the strings below it. A string type is
   named by its element (`Some(name)`); `None` stands for plain text.
   */
  function Container(name: string, ctx: Option<string>): Option<string> {
    if name in HIDDEN_STRINGS then Some(name) else ctx
  }

  /**
   The string type at a place in the tree: the one named by the innermost
   hidden element among the enclosing elements `above` (outermost first),
   plain text when there is none.
   */
  function Context(above: seq<Node>): (c: Option<string>)
    ensures c.None? <==> forall k :: 0 <= k < |above| ==> !IsHidden(above[k])
    ensures c.Some? ==> exists k :: 0 <= k < |above| && IsHidden(above[k]) && above[k].name == c.value
                                    && forall j :: k < j < |above| ==> !IsHidden(above[j])
    decreases |above|
  {
    if above == [] then None
    else if IsHidden(above[|above| - 1]) then Some(above[|above| - 1].name)
    else
      var c := Context(above[..|above| - 1]);
      ContextPast(above, above[..|above| - 1], c);
      c
  }

  /** An ordinary innermost element leaves the string type of the places around it. */
  lemma ContextPast(above: seq<Node>, init: seq<Node>, c: Option<string>)
    requires above != [] && init == above[..|above| - 1] && !IsHidden(above[|above| - 1])
    requires c.None? <==> forall k :: 0 <= k < |init| ==> !IsHidden(init[k])
    requires c.Some? ==> exists k :: 0 <= k < |init| && IsHidden(init[k]) && init[k].name == c.value
                                     && forall j :: k < j < |init| ==> !IsHidden(init[j])
    ensures c.None? <==> forall k :: 0 <= k < |above| ==> !IsHidden(above[k])
    ensures c.Some? ==> exists k :: 0 <= k < |above| && IsHidden(above[k]) && above[k].name == c.value
                                    && forall j :: k < j < |above| ==> !IsHidden(above[j])
  {
    var n := |above| - 1;
    assert forall k :: 0 <= k < n ==> init[k] == above[k];
    if c.Some? {
      var k :| 0 <= k < |init| && IsHidden(init[k]) && init[k].name == c.value
               && forall j :: k < j < |init| ==> !IsHidden(init[j]);
      forall j | k < j < |above|
        ensures !IsHidden(above[j])
      {
        if j < n {
          assert !IsHidden(init[j]);
        }
      }
      assert IsHidden(above[k]) && above[k].name == c.value;
    } else {
      forall j | 0 <= j < |above|
        ensures !IsHidden(above[j])
      {
        if j < n {
          assert !IsHidden(init[j]);
        }
      }
    }
  }

  /**
   The strings below `n` whose type is `want`, in document order, when `n`
   sits where strings get the type `ctx`. Comments have a type of their own
   and are never collected.
   */
  function TypedStrings(n: Node, ctx: Option<string>, want: Option<string>): seq<string>
    decreases n
  {
    match n
    case Text(s) => if ctx == want then [s] else []
    case Comment(_) => []
    case Elem(name, _, cs) => TypedStringsOf(cs, Container(name, ctx), want)
  }

  function TypedStringsOf(ns: seq<Node>, ctx: Option<string>, want: Option<string>): seq<string>
    decreases ns
  {
    if ns == [] then [] else TypedStrings(ns[0], ctx, want) + TypedStringsOf(ns[1..], ctx, want)
  }

  /**
   The plain text strings below a node outside every hidden element, in
   document order: every text string except those inside an element of
   `HIDDEN_STRINGS`; comments never.
   */
  function Strings(n: Node): seq<string>
    decreases n
  {
    match n
    case Text(s) => [s]
    case Comment(_) => []
    case Elem(name, _, cs) => if name in HIDDEN_STRINGS then [] else StringsOf(cs)
  }

  function StringsOf(ns: seq<Node>): seq<string>
    decreases ns
  {
    if ns == [] then [] else Strings(ns[0]) + StringsOf(ns[1..])
  }

  /** Once inside a hidden element, no string below is plain. */
  lemma {:induction false} TypedNotPlain(n: Node, ctx: Option<string>)
    requires ctx.Some?
    ensures TypedStrings(n, ctx, None) == []
    decreases n
  {
    match n
    case Text(_) =>
    case Comment(_) =>
    case Elem(name, _, cs) => TypedNotPlainOf(cs, Container(name, ctx));
  }

  lemma {:induction false} TypedNotPlainOf(ns: seq<Node>, ctx: Option<string>)
    requires ctx.Some?
    ensures TypedStringsOf(ns, ctx, None) == []
    decreases ns
  {
    if ns != [] {
      TypedNotPlain(ns[0], ctx);
      TypedNotPlainOf(ns[1..], ctx);
    }
  }

  /** `Strings` collects exactly the plain strings of a node outside every hidden element. */
  lemma {:induction false} PlainStrings(n: Node)
    ensures Strings(n) == TypedStrings(n, None, None)
    decreases n
  {
    match n
    case Text(_) =>
    case Comment(_) =>
    case Elem(name, _, cs) =>
      if name in HIDDEN_STRINGS {
        TypedNotPlainOf(cs, Some(name));
      } else {
        PlainStringsOf(cs);
      }
  }

  lemma {:induction false} PlainStringsOf(ns: seq<Node>)
    ensures StringsOf(ns) == TypedStringsOf(ns, None, None)
    decreases ns
  {
    if ns != [] {
      PlainStrings(ns[0]);
      PlainStringsOf(ns[1..]);
    }
  }

  /**
   The strings `get_text` collects from an element that sits where strings
   get the type `ctx`: those below it whose type is the element's own. A
   hidden element collects its own kind. An ordinary element collects plain
   text strings, and inside a hidden element there are none.
   */
  function OwnStrings(n: Node, ctx: Option<string>): seq<string> {
    if !n.Elem? then Strings(n)
    else if n.name in HIDDEN_STRINGS then TypedStringsOf(n.children, Some(n.name), Some(n.name))
    else if ctx.Some? then []
    else StringsOf(n.children)
  }

  /** The type `get_text` looks for on an element: its own. */
  function OwnType(n: Node): Option<string>
    requires n.Elem?
  {
    if n.name in HIDDEN_STRINGS then Some(n.name) else None
  }

  /**
   `OwnStrings` agrees with the rule stated once for all elements: below an
   element, the strings typed as the element itself.
   */
  lemma OwnStringsTyped(n: Node, ctx: Option<string>)
    requires n.Elem?
    ensures OwnStrings(n, ctx) == TypedStringsOf(n.children, Container(n.name, ctx), OwnType(n))
  {
    if n.name !in HIDDEN_STRINGS {
      if ctx.Some? {
        TypedNotPlainOf(n.children, ctx);
      } else {
        PlainStringsOf(n.children);
      }
    }
  }

  /** `get_text()`: the collected strings, joined. */
  function GetText(n: Node, ctx: Option<string>): string {
    Concat(OwnStrings(n, ctx))
  }

  /** Each string stripped; the empty ones the library drops add nothing to the join. */
  function StripEach(ss: seq<string>): (r: seq<string>)
    ensures |r| == |ss|
    ensures forall k :: 0 <= k < |ss| ==> r[k] == Strip(ss[k])
  {
    seq(|ss|, k requires 0 <= k < |ss| => Strip(ss[k]))
  }

  /**
   `get_text(strip=True)`: the stripped strings, joined without a
   separator. The result is trimmed; it is empty exactly when every
   collected string is whitespace; and each collected string, stripped,
   appears in it.
   */
  function StrippedText(n: Node, ctx: Option<string>): (r: string)
    ensures r == [] || (!IsSpace(r[0]) && !IsSpace(r[|r| - 1]))
    ensures r == [] <==> forall k :: 0 <= k < |OwnStrings(n, ctx)| ==> AllSpace(OwnStrings(n, ctx)[k])
    ensures forall k :: 0 <= k < |OwnStrings(n, ctx)| ==> Occurs(Strip(OwnStrings(n, ctx)[k]), r)
  {
    StrippedFacts(OwnStrings(n, ctx));
    JoinStripped(OwnStrings(n, ctx))
  }

  /** The stripped text of the node at a site, read in the site's own context. */
  function SiteText(s: Site): string {
    StrippedText(s.node, Context(s.above))
  }

  function JoinStripped(ss: seq<string>): string {
    Concat(StripEach(ss))
  }

  lemma StrippedFacts(ss: seq<string>)
    ensures Trimmed(JoinStripped(ss))
    ensures JoinStripped(ss) == [] <==> forall k :: 0 <= k < |ss| ==> AllSpace(ss[k])
    ensures forall k :: 0 <= k < |ss| ==> Occurs(Strip(ss[k]), JoinStripped(ss))
  {
    var t := StripEach(ss);
    StrippedJoin(t);
    StrippedBlank(ss, t);
    StrippedPieces(t);
  }

  /** The stripped join is empty exactly when every string is whitespace. */
  lemma StrippedBlank(ss: seq<string>, t: seq<string>)
    requires t == StripEach(ss)
    ensures Concat(t) == [] <==> forall k :: 0 <= k < |ss| ==> AllSpace(ss[k])
  {
    ConcatEmpty(t);
    forall k | 0 <= k < |ss|
      ensures t[k] == [] <==> AllSpace(ss[k])
    {
      assert t[k] == Strip(ss[k]);
    }
  }

  /** Every part occurs in the join. */
  lemma StrippedPieces(ss: seq<string>)
    ensures forall k :: 0 <= k < |ss| ==> Occurs(ss[k], Concat(ss))
  {
    forall k | 0 <= k < |ss|
      ensures Occurs(ss[k], Concat(ss))
    {
      ConcatAt(ss, k);
    }
  }

  lemma {:induction false} StringsOfAppend(a: seq<Node>, b: seq<Node>)
    ensures StringsOf(a + b) == StringsOf(a) + StringsOf(b)
    decreases |a|
  {
    if a == [] {
      assert a + b == b;
    } else {
      assert (a + b)[0] == a[0];
      assert (a + b)[1..] == a[1..] + b;
      StringsOfAppend(a[1..], b);
    }
  }

  /**
   A hidden child (a ruby annotation or parenthesis, a script, a style sheet
   or a template) adds nothing to the text of an ordinary element around it,
   wherever that element sits.
   */
  lemma HiddenChildIgnored(name: string, attrs: map<string, string>, ctx: Option<string>, before: seq<Node>, h: Node, after: seq<Node>)
    requires name !in HIDDEN_STRINGS && IsHidden(h)
    ensures StrippedText(Elem(name, attrs, before + [h] + after), ctx) == StrippedText(Elem(name, attrs, before + after), ctx)
    ensures GetText(Elem(name, attrs, before + [h] + after), ctx) == GetText(Elem(name, attrs, before + after), ctx)
  {
    HiddenChildStrings(before, h, after);
  }

  lemma HiddenChildStrings(before: seq<Node>, h: Node, after: seq<Node>)
    requires IsHidden(h)
    ensures StringsOf(before + [h] + after) == StringsOf(before + after)
  {
    StringsOfAppend(before + [h], after);
    StringsOfAppend(before, [h]);
    StringsOfAppend(before, after);
    assert StringsOf([h]) == Strings(h) + StringsOf([]);
  }

  /** Strings that neither start nor end with whitespace. */
  predicate Trimmed(s: string) {
    s == [] || (!IsSpace(s[0]) && !IsSpace(s[|s| - 1]))
  }

  /** Joining trimmed strings gives a trimmed string. */
  lemma {:induction false} StrippedJoin(ss: seq<string>)
    requires forall k :: 0 <= k < |ss| ==> Trimmed(ss[k])
    ensures Trimmed(Concat(ss))
    decreases |ss|
  {
    if ss != [] {
      var init := ss[..|ss| - 1];
      var last := ss[|ss| - 1];
      StrippedJoin(init);
      var c := Concat(init);
      assert Concat(ss) == c + last;
      if c != [] && last != [] {
        assert (c + last)[0] == c[0];
        assert (c + last)[|c + last| - 1] == last[|last| - 1];
      } else if c == [] {
        assert c + last == last;
      } else {
        assert c + last == c;
      }
    }
  }

  /**
   `tag.string`: defined only when the element has exactly one child; a
   string child (comments included) is the answer, an element child is
   asked in turn.
   */
  function SoleString(n: Node): (r: Option<string>)
    ensures r.Some? ==> n.Elem? && |n.children| == 1
    decreases n
  {
    if !n.Elem? || |n.children| != 1 then None
    else
      match n.children[0]
      case Text(s) => Some(s)
      case Comment(s) => Some(s)
      case Elem(_, _, _) => SoleString(n.children[0])
  }

  // ---------------------------------------------------------------------
  // Document order

  /** A node together with the elements enclosing it, outermost first. */
  datatype Site = Site(node: Node, above: seq<Node>)

  /** Every node of a forest in document order (preorder), with its enclosing elements. */
  function Flat(ns: seq<Node>, above: seq<Node>): seq<Site>
    decreases ns
  {
    if ns == [] then [] else FlatOne(ns[0], above) + Flat(ns[1..], above)
  }

  function FlatOne(n: Node, above: seq<Node>): (r: seq<Site>)
    ensures r != [] && r[0] == Site(n, above)
    decreases n
  {
    [Site(n, above)] + (if n.Elem? then Flat(n.children, above + [n]) else [])
  }

  /** The page's descendants, in document order. */
  function Descendants(doc: seq<Node>): seq<Site> {
    Flat(doc, [])
  }

  /** The position of the first site satisfying `p`. */
  function FirstWhere(sites: seq<Site>, p: Site -> bool): (r: Option<nat>)
    ensures r.Some? ==> r.value < |sites| && p(sites[r.value])
    ensures r.Some? ==> forall j :: 0 <= j < r.value ==> !p(sites[j])
    ensures r.None? ==> forall j :: 0 <= j < |sites| ==> !p(sites[j])
  {
    if sites == [] then None
    else if p(sites[0]) then Some(0)
    else match FirstWhere(sites[1..], p)
      case Some(i) => Some(i + 1)
      case None => None
  }

  /**
   `select_one`: the tree is searched depth-first, each node before its
   children and the children left to right, and the first node satisfying
   `p` is the answer.
   */
  function Find(ns: seq<Node>, above: seq<Node>, p: Site -> bool): Option<Site>
    decreases ns
  {
    if ns == [] then None
    else match FindOne(ns[0], above, p)
      case Some(s) => Some(s)
      case None => Find(ns[1..], above, p)
  }

  function FindOne(n: Node, above: seq<Node>, p: Site -> bool): Option<Site>
    decreases n
  {
    if p(Site(n, above)) then Some(Site(n, above))
    else if n.Elem? then Find(n.children, above + [n], p)
    else None
  }

  function SelectOne(doc: seq<Node>, p: Site -> bool): Option<Site> {
    Find(doc, [], p)
  }

  /** The first site of a sequence satisfying `p`, as an `Option`. */
  function FirstOf(sites: seq<Site>, p: Site -> bool): Option<Site> {
    match FirstWhere(sites, p)
    case Some(i) => Some(sites[i])
    case None => None
  }

  lemma FirstOfAppend(a: seq<Site>, b: seq<Site>, p: Site -> bool)
    ensures FirstOf(a + b, p) == if FirstOf(a, p).Some? then FirstOf(a, p) else FirstOf(b, p)
  {
    forall j | 0 <= j < |a|
      ensures (a + b)[j] == a[j]
    {
    }
    forall j | 0 <= j < |b|
      ensures (a + b)[|a| + j] == b[j]
    {
    }
    if FirstWhere(a, p).Some? {
      var i := FirstWhere(a, p).value;
      assert p((a + b)[i]);
    } else if FirstWhere(b, p).Some? {
      var i := FirstWhere(b, p).value;
      assert p((a + b)[|a| + i]);
      forall j | 0 <= j < |a| + i
        ensures !p((a + b)[j])
      {
        if j >= |a| {
          assert (a + b)[j] == b[j - |a|];
        }
      }
    } else {
      forall j | 0 <= j < |a + b|
        ensures !p((a + b)[j])
      {
        if j >= |a| {
          assert (a + b)[j] == b[j - |a|];
        }
      }
    }
  }

  /** The depth-first search returns exactly the first match in document order. */
  lemma {:induction false} FindIsFirst(ns: seq<Node>, above: seq<Node>, p: Site -> bool)
    ensures Find(ns, above, p) == FirstOf(Flat(ns, above), p)
    decreases ns
  {
    if ns != [] {
      FindOneIsFirst(ns[0], above, p);
      FindIsFirst(ns[1..], above, p);
      FirstOfAppend(FlatOne(ns[0], above), Flat(ns[1..], above), p);
    }
  }

  lemma {:induction false} FindOneIsFirst(n: Node, above: seq<Node>, p: Site -> bool)
    ensures FindOne(n, above, p) == FirstOf(FlatOne(n, above), p)
    decreases n
  {
    var rest := if n.Elem? then Flat(n.children, above + [n]) else [];
    FirstOfAppend([Site(n, above)], rest, p);
    if n.Elem? {
      FindIsFirst(n.children, above + [n], p);
    }
  }

  /**
   `select_one` picks the first element of the page, in document order, that
   satisfies the selector: it is one of the page's descendants, it matches,
   and no earlier descendant does.
   */
  lemma SelectOneSpec(doc: seq<Node>, p: Site -> bool)
    ensures SelectOne(doc, p).Some? ==>
      exists i :: 0 <= i < |Descendants(doc)| && Descendants(doc)[i] == SelectOne(doc, p).value
        && p(Descendants(doc)[i]) && forall j :: 0 <= j < i ==> !p(Descendants(doc)[j])
    ensures SelectOne(doc, p).None? ==> forall j :: 0 <= j < |Descendants(doc)| ==> !p(Descendants(doc)[j])
  {
    FindIsFirst(doc, [], p);
    var f := FirstWhere(Descendants(doc), p);
    if f.Some? {
      assert Descendants(doc)[f.value] == SelectOne(doc, p).value;
    }
  }

  // ---------------------------------------------------------------------
  // Selectors

  /** Some enclosing element satisfies `q`: the CSS descendant combinator. */
  predicate Inside(s: Site, q: Node -> bool) {
    exists k :: 0 <= k < |s.above| && q(s.above[k])
  }

  predicate IsArticle(n: Node) { Named(n, "article") }

  predicate HasClass(n: Node, c: string) { n.Elem? && c in Classes(n) }
}

=== FILE: driver.dfy ===
/**
 `proofRead`: the page loop. Starting from the given address it checks one
 page per iteration until the depth limit is reached (checked at the top of
 each iteration) or there is no next page (checked after moving on). The
 scraper, the language-model checker and the log are oracles; what the loop
 does is recorded as a list of events.
 */
module Driver {
  import opened Wrappers

  /**
   The collaborators, as functions of their arguments: the cleaned text of
   a page, the errors the checker reports for a text, the title of a page
   and the address of the page after it.
   */
  datatype Oracles = Oracles(
    content: string -> string,
    errors: string -> seq<string>,
    title: string -> Option<string>,
    next: string -> Option<string>)

  datatype Event =
    | Logged(url: string, title: Option<string>, errors: seq<string>)  // errors found, title fetched, logged
    | Clean(url: string)                                               // no errors on the page
    | Finished(depthLimit: bool)                                       // `reportFinish(depthLimit)`

  /** Python truthiness of the address: present and not empty. */
  predicate Truthy(url: Option<string>) {
    url.Some? && url.value != []
  }

  /** What checking one page records. The title is asked for only when there are errors. */
  function Check(o: Oracles, url: string): (e: Event)
    ensures e.Logged? <==> o.errors(o.content(url)) != []
    ensures e.Logged? ==> e.url == url && e.title == o.title(url) && e.errors == o.errors(o.content(url))
    ensures e.Clean? ==> e.url == url
    ensures !e.Finished?
  {
    var errors := o.errors(o.content(url));
    if |errors| > 0 then Logged(url, o.title(url), errors) else Clean(url)
  }

  /**
   The loop from address `url` with `count` pages checked so far.
   `maxdepth == None` is a limit the count never equals. The loop need not
   terminate (the next-page chain may cycle), so `fuel` bounds the number
   of iterations modelled; when it runs out the events so far are returned.
   */
  function Loop(o: Oracles, url: Option<string>, count: nat, maxdepth: Option<nat>, fuel: nat): seq<Event>
    decreases fuel
  {
    if !Truthy(url) || fuel == 0 then []
    else if maxdepth == Some(count) then [Finished(true)]
    else
      var e := Check(o, url.value);
      var next := o.next(url.value);
      if !Truthy(next) then [e, Finished(false)]
      else [e] + Loop(o, next, count + 1, maxdepth, fuel - 1)
  }

  /** The pages checked, in order. */
  function Checked(events: seq<Event>): (urls: seq<string>)
    ensures |urls| <= |events|
  {
    if events == [] then []
    else (if events[0].Finished? then [] else [events[0].url]) + Checked(events[1..])
  }

  /**
   `proofRead` as the loop it is: the address and the count are the only
   state, the count goes up by one per page checked, and the loop stops on
   the depth limit at the top or on a missing next page at the bottom.
   */
  method ProofRead(o: Oracles, start: Option<string>, maxdepth: Option<nat>, fuel: nat)
    returns (events: seq<Event>, count: nat)
    ensures events == Loop(o, start, 0, maxdepth, fuel)
    ensures count == |Checked(events)|
    ensures maxdepth.Some? ==> count <= maxdepth.value
  {
    var url := start;
    count := 0;
    events := [];
    var left: nat := fuel;
    var done := false;
    while Truthy(url) && left > 0 && !done
      invariant left <= fuel
      invariant count == |Checked(events)|
      invariant maxdepth.Some? ==> count <= maxdepth.value
      invariant done ==> events == Loop(o, start, 0, maxdepth, fuel)
      invariant !done ==> events + Loop(o, url, count, maxdepth, left) == Loop(o, start, 0, maxdepth, fuel)
      decreases left, if done then 0 else 1
    {
      if maxdepth == Some(count) {
        CheckedAppend(events, [Finished(true)]);
        events := events + [Finished(true)];
        done := true;
      } else {
        var e := Check(o, url.value);
        LoopStep(o, url.value, count, maxdepth, left);
        Regroup(events, e, if !Truthy(o.next(url.value)) then [Finished(false)] else Loop(o, o.next(url.value), count + 1, maxdepth, left - 1));
        CheckedAppend(events, [e]);
        events := events + [e];
        url := o.next(url.value);
        count := count + 1;
        left := left - 1;
        if !Truthy(url) {
          CheckedAppend(events, [Finished(false)]);
          events := events + [Finished(false)];
          done := true;
        }
      }
    }
    if !done {
      assert Loop(o, url, count, maxdepth, left) == [];
      assert events + [] == events;
    }
  }

  /** One iteration that checks a page, unfolded. */
  lemma LoopStep(o: Oracles, url: string, count: nat, maxdepth: Option<nat>, fuel: nat)
    requires url != [] && fuel > 0 && maxdepth != Some(count)
    ensures Loop(o, Some(url), count, maxdepth, fuel) ==
      [Check(o, url)] + (if !Truthy(o.next(url)) then [Finished(false)] else Loop(o, o.next(url), count + 1, maxdepth, fuel - 1))
  {
  }

  lemma Regroup(a: seq<Event>, e: Event, b: seq<Event>)
    ensures a + ([e] + b) == (a + [e]) + b
  {
  }

  lemma CheckedAppend(a: seq<Event>, b: seq<Event>)
    ensures Checked(a + b) == Checked(a) + Checked(b)
    decreases |a|
  {
    if a == [] {
      assert a + b == b;
    } else {
      assert (a + b)[1..] == a[1..] + b;
      CheckedAppend(a[1..], b);
    }
  }

  // ---------------------------------------------------------------------
  // The loop's behaviour

  /** A falsy start address checks nothing and reports nothing. */
  lemma FalsyStartDoesNothing(o: Oracles, start: Option<string>, maxdepth: Option<nat>, fuel: nat)
    requires !Truthy(start)
    ensures Loop(o, start, 0, maxdepth, fuel) == []
  {
  }

  /**
   The depth check comes first: when the count already equals the limit,
   the loop reports the depth limit and checks no page, so a limit of 0
   checks nothing at all.
   */
  lemma DepthCheckedFirst(o: Oracles, url: Option<string>, count: nat, fuel: nat)
    requires Truthy(url) && fuel > 0
    ensures Loop(o, url, count, Some(count), fuel) == [Finished(true)]
    ensures Checked(Loop(o, url, count, Some(count), fuel)) == []
  {
  }

  lemma ZeroDepthChecksNothing(o: Oracles, start: Option<string>, fuel: nat)
    ensures Checked(Loop(o, start, 0, Some(0), fuel)) == []
    ensures Loop(o, start, 0, Some(0), fuel) == [] || Loop(o, start, 0, Some(0), fuel) == [Finished(true)]
  {
  }

  /** A page is logged only when the checker found errors in it, and then with its title. */
  lemma {:induction false} LoggedOnlyWithErrors(o: Oracles, url: Option<string>, count: nat, maxdepth: Option<nat>, fuel: nat)
    ensures forall k :: 0 <= k < |Loop(o, url, count, maxdepth, fuel)| ==>
      var e := Loop(o, url, count, maxdepth, fuel)[k];
      (e.Logged? ==> e.errors != [] && e.errors == o.errors(o.content(e.url)) && e.title == o.title(e.url))
      && (e.Clean? ==> o.errors(o.content(e.url)) == [])
    decreases fuel
  {
    if Truthy(url) && fuel > 0 && maxdepth != Some(count) && Truthy(o.next(url.value)) {
      LoggedOnlyWithErrors(o, o.next(url.value), count + 1, maxdepth, fuel - 1);
      var rest := Loop(o, o.next(url.value), count + 1, maxdepth, fuel - 1);
      var all := Loop(o, url, count, maxdepth, fuel);
      assert all == [Check(o, url.value)] + rest;
      forall k | 1 <= k < |all|
        ensures all[k] == rest[k - 1]
      {
      }
    }
  }

  /** The finish report, when there is one, is the last event, and there is only one. */
  lemma {:induction false} FinishIsLast(o: Oracles, url: Option<string>, count: nat, maxdepth: Option<nat>, fuel: nat)
    ensures forall k :: 0 <= k < |Loop(o, url, count, maxdepth, fuel)| - 1 ==> !Loop(o, url, count, maxdepth, fuel)[k].Finished?
    decreases fuel
  {
    if Truthy(url) && fuel > 0 && maxdepth != Some(count) && Truthy(o.next(url.value)) {
      FinishIsLast(o, o.next(url.value), count + 1, maxdepth, fuel - 1);
      var rest := Loop(o, o.next(url.value), count + 1, maxdepth, fuel - 1);
      var all := Loop(o, url, count, maxdepth, fuel);
      assert all == [Check(o, url.value)] + rest;
      forall k | 1 <= k < |all|
        ensures all[k] == rest[k - 1]
      {
      }
    }
  }

  /**
   The count goes up by exactly one per checked page, so no more pages are
   checked than the limit allows.
   */
  lemma {:induction false} CheckedWithinLimit(o: Oracles, url: Option<string>, count: nat, limit: nat, fuel: nat)
    requires count <= limit
    ensures |Checked(Loop(o, url, count, Some(limit), fuel))| <= limit - count
    decreases fuel
  {
    if Truthy(url) && fuel > 0 && count != limit {
      var e := Check(o, url.value);
      if Truthy(o.next(url.value)) {
        var rest := Loop(o, o.next(url.value), count + 1, Some(limit), fuel - 1);
        CheckedWithinLimit(o, o.next(url.value), count + 1, limit, fuel - 1);
        CheckedAppend([e], rest);
      } else {
        CheckedAppend([e], [Finished(false)]);
      }
    }
  }

  // ---------------------------------------------------------------------
  // Runs over a known chain of pages

  /** The first `n` pages of the chain from `url`, or fewer when it ends first. */
  function Chain(o: Oracles, url: string, n: nat): (pages: seq<string>)
    ensures |pages| <= n
    ensures n > 0 ==> pages != [] && pages[0] == url
    decreases n
  {
    if n == 0 then []
    else [url] + (if Truthy(o.next(url)) then Chain(o, o.next(url).value, n - 1) else [])
  }

  /** `url` is followed by at least `n` further pages. */
  predicate Continues(o: Oracles, url: string, n: nat)
    decreases n
  {
    n == 0 || (Truthy(o.next(url)) && Continues(o, o.next(url).value, n - 1))
  }

  /** The chain from `url` has exactly `n` pages: the `n`-th has no next page. */
  predicate Book(o: Oracles, url: string, n: nat)
    decreases n
  {
    n >= 1 && (if n == 1 then !Truthy(o.next(url)) else Truthy(o.next(url)) && Book(o, o.next(url).value, n - 1))
  }

  /** The events of checking the given pages in order. */
  function Checks(o: Oracles, pages: seq<string>): (es: seq<Event>)
    ensures |es| == |pages|
    ensures forall k :: 0 <= k < |pages| ==> es[k] == Check(o, pages[k])
  {
    seq(|pages|, k requires 0 <= k < |pages| => Check(o, pages[k]))
  }

  lemma ChecksCons(o: Oracles, url: string, pages: seq<string>)
    ensures Checks(o, [url] + pages) == [Check(o, url)] + Checks(o, pages)
  {
    assert Checks(o, [url] + pages)[0] == Check(o, url);
    forall k | 1 <= k < 1 + |pages|
      ensures Checks(o, [url] + pages)[k] == Checks(o, pages)[k - 1]
    {
      assert ([url] + pages)[k] == pages[k - 1];
    }
  }

  /**
   When at least `limit - count` pages lie ahead, exactly that many are
   checked, in chain order, and the loop reports the depth limit.
   */
  lemma {:induction false} StopsAtDepth(o: Oracles, url: string, count: nat, limit: nat, fuel: nat)
    requires url != [] && count <= limit && fuel > limit - count
    requires Continues(o, url, limit - count)
    ensures Loop(o, Some(url), count, Some(limit), fuel) == Checks(o, Chain(o, url, limit - count)) + [Finished(true)]
    decreases limit - count
  {
    if count == limit {
      assert Chain(o, url, 0) == [];
    } else {
      var next := o.next(url);
      StopsAtDepth(o, next.value, count + 1, limit, fuel - 1);
      LoopStep(o, url, count, Some(limit), fuel);
      ChecksCons(o, url, Chain(o, next.value, limit - count - 1));
    }
  }

  /**
   When the chain ends after `n` pages before the limit is reached, all of
   them are checked, in chain order, and the loop reports the end of the
   book; in particular a chain of exactly `maxdepth` pages ends that way.
   */
  lemma {:induction false} StopsAtEnd(o: Oracles, url: string, n: nat, count: nat, maxdepth: Option<nat>, fuel: nat)
    requires url != [] && Book(o, url, n) && fuel >= n
    requires maxdepth.Some? ==> count + n <= maxdepth.value
    ensures Loop(o, Some(url), count, maxdepth, fuel) == Checks(o, Chain(o, url, n)) + [Finished(false)]
    decreases n
  {
    LoopStep(o, url, count, maxdepth, fuel);
    if n == 1 {
      assert Chain(o, url, 1) == [url];
    } else {
      var next := o.next(url);
      StopsAtEnd(o, next.value, n - 1, count + 1, maxdepth, fuel - 1);
      ChecksCons(o, url, Chain(o, next.value, n - 1));
    }
  }

  lemma {:induction false} BookContinues(o: Oracles, url: string, n: nat, k: nat)
    requires Book(o, url, n) && k < n
    ensures Continues(o, url, k)
    decreases k
  {
    if k > 0 {
      BookContinues(o, o.next(url).value, n - 1, k - 1);
    }
  }

  /**
   A book of `n` pages read with limit `k` from its first page: the first
   `min(n, k)` pages are checked in order, and the report says depth limit
   exactly when the book is longer than the limit.
   */
  lemma BookRun(o: Oracles, url: string, n: nat, k: nat, fuel: nat)
    requires url != [] && Book(o, url, n) && fuel > n
    ensures Loop(o, Some(url), 0, Some(k), fuel) ==
      Checks(o, Chain(o, url, if n <= k then n else k)) + [Finished(n > k)]
  {
    if n <= k {
      StopsAtEnd(o, url, n, 0, Some(k), fuel);
    } else {
      BookContinues(o, url, n, k);
      StopsAtDepth(o, url, 0, k, fuel);
    }
  }
}

=== FILE: extract.dfy ===
/**
 `_text_from_dom`: the content region is walked in document order and
 turned into one string. Strings are copied as they are (comments too:
 they are strings of the tree), `script` and `style` are dropped, `br`
 is a line break, block elements are set apart by blank lines, `code`
 becomes an inline span and `pre` a fenced block carrying the language
 named by its class. Runs of blank lines are then collapsed and the
 result is stripped. The walk carries the string type of the place it has
 reached (see `Dom.Context`), which decides what `get_text` finds in a
 `code` or `pre` element.
 */
module Extract {
  import opened Wrappers
  import opened Chars
  import opened Passes
  import opened Dom

  /** Elements set apart from their neighbours by a blank line. */
  const BLOCK_LIKE: set<string> := {
    "p", "div", "section", "article", "header", "footer", "h1", "h2", "h3", "h4", "h5", "h6",
    "ul", "ol", "li", "table", "thead", "tbody", "tfoot", "tr", "td", "th",
    "blockquote", "pre", "figure", "figcaption", "hr"
  }

  /** Elements whose whole subtree contributes nothing. */
  const SKIPPED: set<string> := {"script", "style"}

  const BLANK_LINE: string := "\n\n"

  // ---------------------------------------------------------------------
  // The language of a `pre` block

  /**
   The `\w+` group after `prefix` at the start of `cls`, when the prefix is
   there and at least one word character follows it.
   */
  function LangAfter(cls: string, prefix: string): (r: Option<string>)
    ensures r.Some? ==> r.value != [] && StartsWith(cls, prefix + r.value)
    ensures r.Some? ==> forall c :: c in r.value ==> IsWordChar(c)
    ensures r.Some? && |prefix| + |r.value| < |cls| ==> !IsWordChar(cls[|prefix| + |r.value|])
  {
    if StartsWith(cls, prefix) then
      var rest := cls[|prefix|..];
      var k := Span(rest, IsWordChar);
      if k > 0 then
        assert cls[..|prefix| + k] == prefix + rest[..k];
        Some(rest[..k])
      else None
    else None
  }

  /**
   The class pattern, anchored at the start of the class: the longer
   alternative `language-` is tried before `lang-`.
   */
  function ClassLang(cls: string): Option<string> {
    var l := LangAfter(cls, "language-");
    if l.Some? then l else LangAfter(cls, "lang-")
  }

  /** The language of the first class that names one. */
  function LangOf(classes: seq<string>): (r: Option<string>)
    ensures r.Some? ==>
      exists k :: 0 <= k < |classes| && ClassLang(classes[k]) == r && forall j :: 0 <= j < k ==> ClassLang(classes[j]).None?
    ensures r.None? ==> forall k :: 0 <= k < |classes| ==> ClassLang(classes[k]).None?
  {
    if classes == [] then None
    else if ClassLang(classes[0]).Some? then ClassLang(classes[0])
    else
      var r := LangOf(classes[1..]);
      LangOfShift(classes, r);
      r
  }

  lemma LangOfShift(classes: seq<string>, r: Option<string>)
    requires classes != [] && ClassLang(classes[0]).None?
    requires r.Some? ==>
      exists k :: 0 <= k < |classes[1..]| && ClassLang(classes[1..][k]) == r && forall j :: 0 <= j < k ==> ClassLang(classes[1..][j]).None?
    ensures r.Some? ==>
      exists k :: 0 <= k < |classes| && ClassLang(classes[k]) == r && forall j :: 0 <= j < k ==> ClassLang(classes[j]).None?
  {
    if r.Some? {
      var k :| 0 <= k < |classes[1..]| && ClassLang(classes[1..][k]) == r
        && forall j :: 0 <= j < k ==> ClassLang(classes[1..][j]).None?;
      assert ClassLang(classes[k + 1]) == r;
      forall j | 0 <= j < k + 1
        ensures ClassLang(classes[j]).None?
      {
        if j > 0 {
          assert classes[j] == classes[1..][j - 1];
        }
      }
    }
  }

  /** The opening fence line: three backticks, the language if any, a newline. */
  function OpenFence(lang: Option<string>): string {
    match lang
    case Some(l) => "```" + l + "\n"
    case None => "```\n"
  }

  // ---------------------------------------------------------------------
  // The walk

  /** `r` continues `parts`: everything emitted before is still there, unchanged. */
  predicate Extends(r: seq<string>, parts: seq<string>) {
    |parts| <= |r| && r[..|parts|] == parts
  }

  /** Appending keeps what was emitted before. */
  lemma AppendExtends(parts: seq<string>, more: seq<string>)
    ensures Extends(parts + more, parts)
  {
    assert (parts + more)[..|parts|] == parts;
  }

  /** The last part emitted already ends in a blank line. */
  predicate EndsInBlankLine(parts: seq<string>) {
    parts != [] && EndsWith(parts[|parts| - 1], BLANK_LINE)
  }

  /** The separator emitted before a block: only when something precedes it. */
  function OpenBlock(parts: seq<string>): (r: seq<string>)
    ensures Extends(r, parts)
    ensures parts != [] ==> EndsInBlankLine(r)
  {
    AppendExtends(parts, [BLANK_LINE]);
    if parts != [] && !EndsInBlankLine(parts) then parts + [BLANK_LINE] else parts
  }

  /** The separator emitted after a block: also when nothing precedes it. */
  function CloseBlock(parts: seq<string>): (r: seq<string>)
    ensures Extends(r, parts)
    ensures EndsInBlankLine(r)
  {
    AppendExtends(parts, [BLANK_LINE]);
    if !EndsInBlankLine(parts) then parts + [BLANK_LINE] else parts
  }

  /** What the walk does with an element's contents. */
  datatype Body = InlineCode | Fenced | Children

  /** How the walk treats an element, decided by its name alone. */
  datatype Kind = Skip | Break | Content(block: bool, body: Body)

  /**
   The tests of the walk in their order: skipped names first, then `br`;
   any other element is a block or not, and its contents are an inline
   code span, a fenced block or its children walked in turn.
   */
  function KindOf(name: string): Kind {
    if name in SKIPPED then Skip
    else if name == "br" then Break
    else Content(name in BLOCK_LIKE, if name == "code" then InlineCode else if name == "pre" then Fenced else Children)
  }

  /**
   One node of the walk, appending its parts to those emitted so far; the
   parts already emitted are never changed. `ctx` is the string type where
   `n` sits.
   */
  function Walk(parts: seq<string>, n: Node, ctx: Option<string>): (r: seq<string>)
    ensures Extends(r, parts)
    decreases n, 1
  {
    match n
    case Text(s) => AppendExtends(parts, [s]); parts + [s]
    case Comment(s) => AppendExtends(parts, [s]); parts + [s]
    case Elem(name, _, cs) =>
      match KindOf(name)
      case Skip => parts
      case Break => AppendExtends(parts, ["\n"]); parts + ["\n"]
      case Content(block, body) =>
        var before := if block then OpenBlock(parts) else parts;
        var inner := Inner(before, n, body, ctx);
        if block then CloseBlock(inner) else inner
  }

  /** The contents of an element, emitted after `before`. */
  function Inner(before: seq<string>, n: Node, body: Body, ctx: Option<string>): (r: seq<string>)
    requires n.Elem?
    ensures Extends(r, before)
    decreases n, 0
  {
    match body
    case InlineCode =>
      AppendExtends(before, ["`" + GetText(n, ctx) + "`"]);
      before + ["`" + GetText(n, ctx) + "`"]
    case Fenced =>
      AppendExtends(before, [OpenFence(LangOf(Classes(n))) + GetText(n, ctx) + "\n```"]);
      before + [OpenFence(LangOf(Classes(n))) + GetText(n, ctx) + "\n```"]
    case Children => WalkAll(before, n.children, Container(n.name, ctx))
  }

  /** The children of a node, left to right. */
  function WalkAll(parts: seq<string>, ns: seq<Node>, ctx: Option<string>): (r: seq<string>)
    ensures Extends(r, parts)
    decreases ns
  {
    if ns == [] then parts
    else
      var mid := Walk(parts, ns[0], ctx);
      var r := WalkAll(mid, ns[1..], ctx);
      assert r[..|parts|] == mid[..|parts|];
      r
  }

  /**
   `_text_from_dom`: the joined parts, blank-line runs collapsed, stripped;
   `ctx` is the string type where the root sits.
   */
  function TextFromDom(root: Node, ctx: Option<string>): (r: string)
    ensures NoTripleNewline(r)
    ensures Trimmed(r)
  {
    var joined := CollapseBlankLines(Concat(Walk([], root, ctx)));
    CollapseBlankLinesSpec(Concat(Walk([], root, ctx)));
    StripKeepsNoTriple(joined);
    Strip(joined)
  }

  /** Stripping cuts an infix, so it cannot create a run of three newlines. */
  lemma StripKeepsNoTriple(s: string)
    requires NoTripleNewline(s)
    ensures NoTripleNewline(Strip(s)) && Trimmed(Strip(s))
  {
    var i := StripOffset(s);
    NoTripleNewlineInfix(s, Strip(s), i);
  }

  /** Where the stripped string starts in the original. */
  lemma StripOffset(s: string) returns (i: nat)
    ensures i <= |s| && OccursAt(Strip(s), s, i)
  {
    var r := Strip(s);
    i :| 0 <= i <= |s| && OccursAt(r, s, i) && AllSpace(s[..i]) && AllSpace(s[i + |r|..]);
  }

  lemma NoTripleNewlineInfix(s: string, r: string, i: nat)
    requires NoTripleNewline(s) && OccursAt(r, s, i)
    ensures NoTripleNewline(r)
  {
    forall k | 0 <= k < |r| - 2
      ensures !(r[k] == '\n' && r[k + 1] == '\n' && r[k + 2] == '\n')
    {
      assert r[k] == s[i + k] && r[k + 1] == s[i + k + 1] && r[k + 2] == s[i + k + 2];
    }
  }

  // ---------------------------------------------------------------------
  // What each kind of node contributes

  /** `code` is an inline element: no block, not skipped, not a break. */
  lemma CodeKind()
    ensures KindOf("code") == Content(false, InlineCode)
  {
    assert |"code"| == 4;
    forall b | b in BLOCK_LIKE
      ensures |b| != 4
    {
    }
  }

  /** `pre` is a block holding a fenced code block. */
  lemma PreKind()
    ensures KindOf("pre") == Content(true, Fenced)
  {
    assert "pre" in BLOCK_LIKE;
    assert "pre" !in SKIPPED;
  }

  /** Every block name is walked as a block: none is skipped or a break. */
  lemma BlockKinds()
    ensures forall b :: b in BLOCK_LIKE ==> KindOf(b).Content? && KindOf(b).block
  {
    forall b | b in BLOCK_LIKE
      ensures b !in SKIPPED && b != "br"
    {
      assert b[0] != 's' || |b| == 7;
    }
  }

  /** The walk over an element that is neither skipped nor a break, by its kind. */
  lemma WalkContent(parts: seq<string>, n: Node, block: bool, body: Body, ctx: Option<string>)
    requires n.Elem? && KindOf(n.name) == Content(block, body)
    ensures Walk(parts, n, ctx) ==
      var before := if block then OpenBlock(parts) else parts;
      var inner := Inner(before, n, body, ctx);
      if block then CloseBlock(inner) else inner
  {
  }

  lemma ExtendsTrans(a: seq<string>, b: seq<string>, c: seq<string>)
    requires Extends(a, b) && Extends(b, c)
    ensures Extends(a, c)
  {
    assert a[..|c|] == a[..|b|][..|c|];
  }

  /** `script` and `style` add nothing, whatever they contain. */
  lemma SkippedAddsNothing(parts: seq<string>, name: string, attrs: map<string, string>, cs: seq<Node>, ctx: Option<string>)
    requires name in SKIPPED
    ensures Walk(parts, Elem(name, attrs, cs), ctx) == parts
  {
  }

  /** `br` adds exactly one line break. */
  lemma BreakAddsNewline(parts: seq<string>, attrs: map<string, string>, cs: seq<Node>, ctx: Option<string>)
    ensures Walk(parts, Elem("br", attrs, cs), ctx) == parts + ["\n"]
  {
  }

  /**
   `code` adds its text, comments and hidden strings left out, between
   single backticks. Inside a hidden element it has no text of its own, so
   the span is empty.
   */
  lemma CodeAddsInlineSpan(parts: seq<string>, attrs: map<string, string>, cs: seq<Node>, ctx: Option<string>)
    ensures ctx.None? ==> Walk(parts, Elem("code", attrs, cs), ctx) == parts + ["`" + Concat(StringsOf(cs)) + "`"]
    ensures ctx.Some? ==> Walk(parts, Elem("code", attrs, cs), ctx) == parts + ["``"]
  {
    CodeKind();
    assert "code" !in HIDDEN_STRINGS;
    if ctx.Some? {
      var e: string := [];
      assert GetText(Elem("code", attrs, cs), ctx) == e;
      assert "`" + e + "`" == "``";
    }
  }

  /**
   `pre` adds a fenced block, set apart by blank lines: the separator before
   it only when something was emitted before, the one after it always, since
   the fenced block never ends in a blank line.
   */
  lemma PreAddsFencedBlock(parts: seq<string>, attrs: map<string, string>, cs: seq<Node>, ctx: Option<string>)
    ensures var n := Elem("pre", attrs, cs);
      ctx.None? ==> Walk(parts, n, ctx) == OpenBlock(parts) + [OpenFence(LangOf(Classes(n))) + Concat(StringsOf(cs)) + "\n```", BLANK_LINE]
    ensures var n := Elem("pre", attrs, cs);
      ctx.Some? ==> Walk(parts, n, ctx) == OpenBlock(parts) + [OpenFence(LangOf(Classes(n))) + "\n```", BLANK_LINE]
  {
    PreKind();
    assert "pre" !in HIDDEN_STRINGS;
    FencedWalk(parts, Elem("pre", attrs, cs), ctx);
    if ctx.Some? {
      var e: string := [];
      var open := OpenFence(LangOf(Classes(Elem("pre", attrs, cs))));
      assert GetText(Elem("pre", attrs, cs), ctx) == e;
      assert open + e + "\n```" == open + "\n```";
    }
  }

  /** The walk over any element of the `pre` kind. */
  lemma FencedWalk(parts: seq<string>, n: Node, ctx: Option<string>)
    requires n.Elem? && KindOf(n.name) == Content(true, Fenced)
    ensures Walk(parts, n, ctx) == OpenBlock(parts) + [OpenFence(LangOf(Classes(n))) + GetText(n, ctx) + "\n```", BLANK_LINE]
  {
    var body := OpenFence(LangOf(Classes(n))) + GetText(n, ctx) + "\n```";
    FenceIsNoBlankLine(OpenFence(LangOf(Classes(n))) + GetText(n, ctx));
    WalkContent(parts, n, true, Fenced, ctx);
    FencedInner(OpenBlock(parts), n, ctx);
    CloseAfter(OpenBlock(parts), body);
  }

  lemma FencedInner(before: seq<string>, n: Node, ctx: Option<string>)
    requires n.Elem?
    ensures Inner(before, n, Fenced, ctx) == before + [OpenFence(LangOf(Classes(n))) + GetText(n, ctx) + "\n```"]
  {
  }

  /** Closing a block after a part that does not end in a blank line adds one. */
  lemma CloseAfter(x: seq<string>, last: string)
    requires !EndsWith(last, BLANK_LINE)
    ensures CloseBlock(x + [last]) == x + [last, BLANK_LINE]
  {
    assert (x + [last])[|x + [last]| - 1] == last;
    assert x + [last] + [BLANK_LINE] == x + [last, BLANK_LINE];
  }

  lemma FenceIsNoBlankLine(x: string)
    ensures !EndsWith(x + "\n```", BLANK_LINE)
  {
    var y := x + "\n```";
    assert y[|y| - 1] == '`';
    if EndsWith(y, BLANK_LINE) {
      assert y[|y| - 2..][1] == y[|y| - 1];
    }
  }

  /**
   A block element starts after a blank line, unless it opens the output,
   and leaves the output ending in a blank line.
   */
  lemma BlockIsSetApart(parts: seq<string>, n: Node, ctx: Option<string>)
    requires n.Elem? && n.name in BLOCK_LIKE
    ensures EndsInBlankLine(Walk(parts, n, ctx))
    ensures parts != [] ==> EndsInBlankLine(OpenBlock(parts))
    ensures Extends(Walk(parts, n, ctx), OpenBlock(parts))
  {
    BlockKinds();
    var k := KindOf(n.name);
    var inner := Inner(OpenBlock(parts), n, k.body, ctx);
    WalkContent(parts, n, true, k.body, ctx);
    ExtendsTrans(CloseBlock(inner), inner, OpenBlock(parts));
  }

  /**
   Blocks are set apart part by part, not line by line: a whitespace string
   between two paragraphs gets a separator on each side, so the page text
   keeps two blank lines there.
   */
  lemma SpacedBlocksKeepTwoBlankLines(da: map<string, string>, pa: map<string, string>, qa: map<string, string>)
    ensures var d := Elem("div", da, [Elem("p", pa, [Text("a")]), Text(" "), Elem("p", qa, [Text("b")])]);
      Walk([], d, None) == ["a", "\n\n", " ", "\n\n", "b", "\n\n"]
      && TextFromDom(d, None) == "a\n\n \n\nb"
  {
    var p := Elem("p", pa, [Text("a")]);
    var q := Elem("p", qa, [Text("b")]);
    var d := Elem("div", da, [p, Text(" "), q]);
    var w := ["a", "\n\n", " ", "\n\n", "b", "\n\n"];
    SpacedBlocksWalk(da, pa, qa);
    assert Walk([], d, None) == w;
    SpacedBlocksText(w);
  }

  lemma SpacedBlocksWalk(da: map<string, string>, pa: map<string, string>, qa: map<string, string>)
    ensures Walk([], Elem("div", da, [Elem("p", pa, [Text("a")]), Text(" "), Elem("p", qa, [Text("b")])]), None)
      == ["a", "\n\n", " ", "\n\n", "b", "\n\n"]
  {
    var p := Elem("p", pa, [Text("a")]);
    var q := Elem("p", qa, [Text("b")]);
    var d := Elem("div", da, [p, Text(" "), q]);
    var y := ["a", "\n\n", " ", "\n\n", "b", "\n\n"];
    ParagraphKind("div");
    WalkContent([], d, true, Children, None);
    assert OpenBlock([]) == [];
    SpacedChildren(p, q, pa, qa);
    assert Inner([], d, Children, None) == y;
    assert CloseBlock(y) == y by {
      assert EndsWith(y[5], BLANK_LINE);
    }
  }

  lemma SpacedChildren(p: Node, q: Node, pa: map<string, string>, qa: map<string, string>)
    requires p == Elem("p", pa, [Text("a")]) && q == Elem("p", qa, [Text("b")])
    ensures WalkAll([], [p, Text(" "), q], None) == ["a", "\n\n", " ", "\n\n", "b", "\n\n"]
  {
    var x := ["a", "\n\n", " "];
    assert [p, Text(" "), q] == [p] + [Text(" "), q];
    WalkAllCons([], p, [Text(" "), q], None);
    FirstParagraph(pa);
    assert [Text(" "), q] == [Text(" ")] + [q];
    WalkAllCons(["a", "\n\n"], Text(" "), [q], None);
    assert Walk(["a", "\n\n"], Text(" "), None) == x;
    assert [q] == [q] + [];
    WalkAllCons(x, q, [], None);
    SecondParagraph(x, qa);
  }

  lemma FirstParagraph(pa: map<string, string>)
    ensures Walk([], Elem("p", pa, [Text("a")]), None) == ["a", "\n\n"]
  {
    ParagraphWalk([], pa, "a", None);
    assert OpenBlock([]) == [];
  }

  lemma SecondParagraph(x: seq<string>, qa: map<string, string>)
    requires x == ["a", "\n\n", " "]
    ensures WalkAll(Walk(x, Elem("p", qa, [Text("b")]), None), [], None) == ["a", "\n\n", " ", "\n\n", "b", "\n\n"]
  {
    ParagraphWalk(x, qa, "b", None);
    assert !EndsWith(x[2], BLANK_LINE);
    assert OpenBlock(x) == x + [BLANK_LINE];
  }

  lemma SpacedBlocksText(w: seq<string>)
    requires w == ["a", "\n\n", " ", "\n\n", "b", "\n\n"]
    ensures Strip(CollapseBlankLines(Concat(w))) == "a\n\n \n\nb"
  {
    var s := "a\n\n \n\nb\n\n";
    ConcatSix(w);
    SpacedNoTriple(s);
    CollapseBlankLinesSpec(s);
    SpacedStrip(s);
  }

  lemma SpacedNoTriple(s: string)
    requires s == "a\n\n \n\nb\n\n"
    ensures NoTripleNewline(s)
  {
    forall i | 0 <= i < |s| - 2
      ensures !(s[i] == '\n' && s[i + 1] == '\n' && s[i + 2] == '\n')
    {
      assert s[i] != '\n' || s[i + 1] != '\n' || s[i + 2] != '\n';
    }
  }

  lemma SpacedStrip(s: string)
    requires s == "a\n\n \n\nb\n\n"
    ensures Strip(s) == "a\n\n \n\nb"
  {
    assert s[7..] == "\n\n";
    assert AllSpace(s[..0]) && AllSpace(s[7..]);
    assert !IsSpace(s[0]) && !IsSpace(s[6]);
    StripExact(s, 0, 7);
    assert s[0..7] == "a\n\n \n\nb";
  }

  lemma ConcatSix(w: seq<string>)
    requires w == ["a", "\n\n", " ", "\n\n", "b", "\n\n"]
    ensures Concat(w) == "a\n\n \n\nb\n\n"
  {
    assert w[..1] == ["a"] && Concat(["a"]) == Concat([]) + "a";
    assert w[..2][..1] == w[..1];
    assert w[..3][..2] == w[..2];
    assert w[..4][..3] == w[..3];
    assert w[..5][..4] == w[..4];
    assert w[..5] == w[..6][..5];
    assert Concat(w[..2]) == "a\n\n";
    assert Concat(w[..3]) == "a\n\n ";
    assert Concat(w[..4]) == "a\n\n \n\n";
    assert Concat(w[..5]) == "a\n\n \n\nb";
  }

  /** Names walked as plain blocks of children. */
  lemma ParagraphKind(name: string)
    requires name == "p" || name == "div"
    ensures KindOf(name) == Content(true, Children)
  {
    assert name in BLOCK_LIKE;
    assert name !in SKIPPED;
  }

  /** A paragraph holding one string emits the string and a blank line after it. */
  lemma ParagraphWalk(parts: seq<string>, attrs: map<string, string>, s: string, ctx: Option<string>)
    requires !EndsWith(s, BLANK_LINE)
    ensures Walk(parts, Elem("p", attrs, [Text(s)]), ctx) == OpenBlock(parts) + [s, BLANK_LINE]
  {
    var n := Elem("p", attrs, [Text(s)]);
    ParagraphKind("p");
    WalkContent(parts, n, true, Children, ctx);
    var before := OpenBlock(parts);
    assert [Text(s)] == [Text(s)] + [];
    WalkAllCons(before, Text(s), [], Container("p", ctx));
    assert Walk(before, Text(s), Container("p", ctx)) == before + [s];
    assert Inner(before, n, Children, ctx) == before + [s];
    CloseAfter(before, s);
  }

  lemma WalkAllCons(parts: seq<string>, n: Node, ns: seq<Node>, ctx: Option<string>)
    ensures WalkAll(parts, [n] + ns, ctx) == WalkAll(Walk(parts, n, ctx), ns, ctx)
  {
    assert ([n] + ns)[0] == n && ([n] + ns)[1..] == ns;
  }

  // ---------------------------------------------------------------------
  // A reference: text without structure

  /** Every string of the tree in document order, comments included. */
  function AllStrings(n: Node): seq<string>
    decreases n
  {
    match n
    case Text(s) => [s]
    case Comment(s) => [s]
    case Elem(_, _, cs) => AllStringsOf(cs)
  }

  function AllStringsOf(ns: seq<Node>): seq<string>
    decreases ns
  {
    if ns == [] then [] else AllStrings(ns[0]) + AllStringsOf(ns[1..])
  }

  /** No element of the subtree is treated specially by the walk. */
  predicate Unstructured(n: Node)
    decreases n
  {
    match n
    case Elem(name, _, cs) =>
      KindOf(name) == Content(false, Children)
      && forall k :: 0 <= k < |cs| ==> Unstructured(cs[k])
    case _ => true
  }

  /**
   Where no element is treated specially, the walk emits exactly the
   tree's strings in document order, comments included.
   */
  lemma {:induction false} UnstructuredWalk(parts: seq<string>, n: Node, ctx: Option<string>)
    requires Unstructured(n)
    ensures Walk(parts, n, ctx) == parts + AllStrings(n)
    decreases n
  {
    if n.Elem? {
      UnstructuredWalkAll(parts, n.children, Container(n.name, ctx));
    }
  }

  lemma {:induction false} UnstructuredWalkAll(parts: seq<string>, ns: seq<Node>, ctx: Option<string>)
    requires forall k :: 0 <= k < |ns| ==> Unstructured(ns[k])
    ensures WalkAll(parts, ns, ctx) == parts + AllStringsOf(ns)
    decreases ns
  {
    if ns == [] {
      assert parts + [] == parts;
    } else {
      UnstructuredWalk(parts, ns[0], ctx);
      var mid := parts + AllStrings(ns[0]);
      assert forall k :: 0 <= k < |ns[1..]| ==> Unstructured(ns[1..][k]) by {
        forall k | 0 <= k < |ns[1..]|
          ensures Unstructured(ns[1..][k])
        {
          assert ns[1..][k] == ns[k + 1];
        }
      }
      UnstructuredWalkAll(mid, ns[1..], ctx);
      assert mid + AllStringsOf(ns[1..]) == parts + (AllStrings(ns[0]) + AllStringsOf(ns[1..]));
    }
  }

  /** The page text of such a region is its strings joined, collapsed and stripped. */
  lemma UnstructuredText(root: Node, ctx: Option<string>)
    requires Unstructured(root)
    ensures TextFromDom(root, ctx) == Strip(CollapseBlankLines(Concat(AllStrings(root))))
  {
    UnstructuredWalk([], root, ctx);
    assert [] + AllStrings(root) == AllStrings(root);
  }

  /** A region that is itself a `script` or `style` element yields no text. */
  lemma SkippedRootIsEmpty(root: Node, ctx: Option<string>)
    requires root.Elem? && root.name in SKIPPED
    ensures TextFromDom(root, ctx) == []
  {
    assert Walk([], root, ctx) == [];
    assert Concat([]) == [];
  }

  /**
   A template is walked like any inline element, but a `code` element inside
   it has no text of its own: its strings are template strings. The page
   text keeps only the empty span.
   */
  lemma CodeInTemplateIsEmpty(ta: map<string, string>, ca: map<string, string>, x: string)
    ensures TextFromDom(Elem("template", ta, [Elem("code", ca, [Text(x)])]), None) == "``"
  {
    var c := Elem("code", ca, [Text(x)]);
    var t := Elem("template", ta, [c]);
    assert KindOf("template") == Content(false, Children) by {
      assert |"template"| == 8;
      forall b | b in BLOCK_LIKE
        ensures b != "template"
      {
      }
    }
    WalkContent([], t, false, Children, None);
    CodeAddsInlineSpan([], ca, [Text(x)], Some("template"));
    assert [c] == [c] + [];
    WalkAllCons([], c, [], Some("template"));
    assert Walk([], t, None) == ["``"];
    TemplateSpanText(Walk([], t, None));
  }

  lemma TemplateSpanText(w: seq<string>)
    requires w == ["``"]
    ensures Strip(CollapseBlankLines(Concat(w))) == "``"
  {
    var s := "``";
    assert w[..0] == [];
    assert Concat(w) == Concat([]) + s;
    assert Concat(w) == s;
    assert NoTripleNewline(s) by {
      assert |s| - 2 == 0;
    }
    CollapseBlankLinesSpec(s);
    SpanStrip(s);
  }

  lemma SpanStrip(s: string)
    requires s == "``"
    ensures Strip(s) == s
  {
    assert s[..0] == [] && s[2..] == [];
    assert !IsSpace(s[0]) && !IsSpace(s[1]);
    StripExact(s, 0, 2);
    assert s[0..2] == s;
  }
}

=== FILE: locate.dfy ===
/**
 The three page queries of `Scraper`, over the page that was fetched last
 (an explicit document here): the cleaned chapter text, the chapter title
 and the address of the next chapter. Each is a chain of first-match rules;
 the CSS selectors are predicates over a node and its enclosing elements.
 */
module Locate {
  import opened Wrappers
  import opened Chars
  import opened Dom
  import opened Extract
  import opened Passes
  import opened Normalize
  import opened CodeSpans

  // ---------------------------------------------------------------------
  // Selectors

  predicate HasArticleAbove(s: Site) { Inside(s, IsArticle) }

  /** `article .entry-content` */
  predicate EntryContent(s: Site) {
    HasClass(s.node, "entry-content") && HasArticleAbove(s)
  }

  /** `[role="main"]` */
  predicate RoleMain(s: Site) {
    Attr(s.node, "role") == Some("main")
  }

  /** `main` */
  predicate MainElem(s: Site) { Named(s.node, "main") }

  /** `soup.body`: the first `body` element. */
  predicate BodyElem(s: Site) { Named(s.node, "body") }

  /** `article h1.entry-title` */
  predicate EntryTitle(s: Site) {
    Named(s.node, "h1") && HasClass(s.node, "entry-title") && HasArticleAbove(s)
  }

  /** `soup.title`: the first `title` element. */
  predicate TitleElem(s: Site) { Named(s.node, "title") }

  /**
   `link[rel="next"]`: the words of a multi-valued attribute are compared
   joined by single spaces, so the value must be the one word `next`.
   */
  predicate LinkNext(s: Site) {
    Named(s.node, "link") && AttrWords(s.node, "rel") == ["next"]
  }

  /** `a[rel~="next"]`: `next` is one of the words. */
  predicate AnchorRelNext(s: Site) {
    Named(s.node, "a") && "next" in AttrWords(s.node, "rel")
  }

  /** The stripped text, lower-cased, starts with `next`. */
  predicate NextLabel(s: Site) {
    LowerStartsWith(SiteText(s), "next")
  }

  /** An anchor the text scan accepts: labelled "next…" and with an address. */
  predicate NextAnchor(s: Site) {
    Named(s.node, "a") && NextLabel(s) && HasValue(s.node, "href")
  }

  predicate IsNavLinks(n: Node) { HasClass(n, "nav-links") }

  predicate IsNav(n: Node) { Named(n, "nav") }

  /** `.nav-links a, nav a` */
  predicate NavAnchor(s: Site) {
    Named(s.node, "a") && (Inside(s, IsNavLinks) || Inside(s, IsNav))
  }

  /** The `href` value; empty when absent. */
  function Href(n: Node): string {
    Attr(n, "href").GetOr([])
  }

  // ---------------------------------------------------------------------
  // Page content

  /**
   The content region, with its place in the page: the entry content of an
   article, else the element with the main role, else `main`, else `body`.
   Elements are always truthy, so the first query that finds one decides.
   */
  function Region(doc: seq<Node>): Option<Site> {
    var entry := SelectOne(doc, EntryContent);
    if entry.Some? then entry
    else
      var role := SelectOne(doc, RoleMain);
      if role.Some? then role
      else
        var main := SelectOne(doc, MainElem);
        if main.Some? then main
        else SelectOne(doc, BodyElem)
  }

  predicate RegionCandidate(s: Site) {
    EntryContent(s) || RoleMain(s) || MainElem(s) || BodyElem(s)
  }

  /**
   The region is a place in the page matching one of the four rules, the
   first one in document order among those matching the earliest rule that
   matches at all; there is none only when no element matches any rule.
   */
  lemma RegionSpec(doc: seq<Node>)
    ensures Region(doc).Some? ==>
      exists i :: 0 <= i < |Descendants(doc)| && Descendants(doc)[i] == Region(doc).value && RegionCandidate(Descendants(doc)[i])
    ensures Region(doc).None? <==> forall i :: 0 <= i < |Descendants(doc)| ==> !RegionCandidate(Descendants(doc)[i])
    ensures var d := Descendants(doc);
      FirstOf(d, EntryContent).Some? ==> Region(doc) == FirstOf(d, EntryContent)
    ensures var d := Descendants(doc);
      FirstOf(d, EntryContent).None? && FirstOf(d, RoleMain).Some? ==> Region(doc) == FirstOf(d, RoleMain)
    ensures var d := Descendants(doc);
      FirstOf(d, EntryContent).None? && FirstOf(d, RoleMain).None? && FirstOf(d, MainElem).Some? ==>
        Region(doc) == FirstOf(d, MainElem)
    ensures var d := Descendants(doc);
      FirstOf(d, EntryContent).None? && FirstOf(d, RoleMain).None? && FirstOf(d, MainElem).None? ==>
        Region(doc) == FirstOf(d, BodyElem)
  {
    var d := Descendants(doc);
    SelectOneSpec(doc, EntryContent);
    SelectOneSpec(doc, RoleMain);
    SelectOneSpec(doc, MainElem);
    SelectOneSpec(doc, BodyElem);
    FindIsFirst(doc, [], EntryContent);
    FindIsFirst(doc, [], RoleMain);
    FindIsFirst(doc, [], MainElem);
    FindIsFirst(doc, [], BodyElem);
    if Region(doc).None? {
      forall i | 0 <= i < |d|
        ensures !RegionCandidate(d[i])
      {
        assert !EntryContent(d[i]) && !RoleMain(d[i]) && !MainElem(d[i]) && !BodyElem(d[i]);
      }
    }
  }

  /** The text of the region, read where the region sits in the page. */
  function RegionText(region: Site): string {
    TextFromDom(region.node, Context(region.above))
  }

  /**
   `getCurrentPageContent`: the empty string when the page has no content
   region; otherwise the region's text, reflowed. The line-wrap sentinel
   reaches the result only if the region's text already held one.
   */
  function PageContent(codec: Codec, doc: seq<Node>): (r: string)
    ensures Trimmed(r)
    ensures Region(doc).None? ==> r == []
    ensures Region(doc).Some? && !HasSentinel(RegionText(Region(doc).value)) ==> !HasSentinel(r)
  {
    match Region(doc)
    case None => []
    case Some(region) => Reflow(codec, RegionText(region))
  }

  // ---------------------------------------------------------------------
  // Page title

  /**
   `getCurrentPageTitle`: the stripped text of the article's entry title
   when that is not empty; else the stripped string of the `title` element
   when it has a non-empty one; else nothing.
   */
  function PageTitle(doc: seq<Node>): (r: Option<string>)
    ensures r.Some? ==> Trimmed(r.value)
  {
    var h1 := SelectOne(doc, EntryTitle);
    if h1.Some? && SiteText(h1.value) != [] then Some(SiteText(h1.value))
    else
      var title := SelectOne(doc, TitleElem);
      if title.Some? then
        match SoleString(title.value.node)
        case Some(s) => if s != [] then Some(Strip(s)) else None
        case None => None
      else None
  }

  /**
   The title comes from the first entry heading in document order when
   its text is not blank; failing that, it is the stripped string of the
   first `title` element, and only when that element holds exactly one
   string, not empty.
   */
  lemma PageTitleSpec(doc: seq<Node>)
    ensures var h := FirstOf(Descendants(doc), EntryTitle);
      h.Some? && SiteText(h.value) != [] ==> PageTitle(doc) == Some(SiteText(h.value))
    ensures var h := FirstOf(Descendants(doc), EntryTitle);
      var t := FirstOf(Descendants(doc), TitleElem);
      (h.None? || SiteText(h.value) == []) ==>
        PageTitle(doc) ==
          if t.Some? && SoleString(t.value.node).Some? && SoleString(t.value.node).value != []
          then Some(Strip(SoleString(t.value.node).value))
          else None
  {
    FindIsFirst(doc, [], EntryTitle);
    FindIsFirst(doc, [], TitleElem);
  }

  /**
   A `title` element holding only whitespace yields the empty title, not
   `None`: the string is truthy before it is stripped.
   */
  lemma BlankTitleIsEmpty(doc: seq<Node>)
    requires forall i :: 0 <= i < |Descendants(doc)| ==> !EntryTitle(Descendants(doc)[i])
    requires FirstOf(Descendants(doc), TitleElem).Some?
    requires var t := FirstOf(Descendants(doc), TitleElem).value.node;
      SoleString(t).Some? && SoleString(t).value != [] && AllSpace(SoleString(t).value)
    ensures PageTitle(doc) == Some([])
  {
    FindIsFirst(doc, [], EntryTitle);
    FindIsFirst(doc, [], TitleElem);
  }

  // ---------------------------------------------------------------------
  // Next page

  /** Step 1: the first `link[rel="next"]`, when it has an address. */
  function ByLink(doc: seq<Node>, url: string, join: (string, string) -> string): Option<string> {
    var link := SelectOne(doc, LinkNext);
    if link.Some? && HasValue(link.value.node, "href") then Some(join(url, Href(link.value.node))) else None
  }

  /** Step 2: the first `a[rel~="next"]`, when it has an address. */
  function ByRel(doc: seq<Node>, url: string, join: (string, string) -> string): Option<string> {
    var a := SelectOne(doc, AnchorRelNext);
    if a.Some? && HasValue(a.value.node, "href") then Some(join(url, Href(a.value.node))) else None
  }

  /**
   Step 3: the scan over every anchor in document order, stopping at the
   first one labelled "next…" that has an address; a labelled anchor
   without one is passed over.
   */
  function ByLabel(doc: seq<Node>, url: string, join: (string, string) -> string): Option<string> {
    var a := SelectOne(doc, NextAnchor);
    if a.Some? then Some(join(url, Href(a.value.node))) else None
  }

  /** Step 4: the first navigation anchor, when it has an address and a "next…" label. */
  function ByNav(doc: seq<Node>, url: string, join: (string, string) -> string): Option<string> {
    var nav := SelectOne(doc, NavAnchor);
    if nav.Some? && HasValue(nav.value.node, "href") && NextLabel(nav.value) then Some(join(url, Href(nav.value.node))) else None
  }

  /**
   `getCurrentNextPageURL`: the four steps in order, the first that finds an
   address deciding; `join` resolves the address against the page's URL.
   */
  function NextPageUrl(doc: seq<Node>, url: string, join: (string, string) -> string): Option<string> {
    var link := ByLink(doc, url, join);
    if link.Some? then link
    else
      var rel := ByRel(doc, url, join);
      if rel.Some? then rel
      else
        var scanned := ByLabel(doc, url, join);
        if scanned.Some? then scanned else ByNav(doc, url, join)
  }

  /**
   Step 4 never decides: a navigation anchor it would accept is an anchor
   with a "next…" label and an address, which the scan of step 3 reaches no
   later, so step 3 has already returned.
   */
  lemma {:induction false} NavNeverDecides(doc: seq<Node>, url: string, join: (string, string) -> string)
    ensures ByLabel(doc, url, join).None? ==> ByNav(doc, url, join).None?
    ensures NextPageUrl(doc, url, join) ==
      if ByLink(doc, url, join).Some? then ByLink(doc, url, join)
      else if ByRel(doc, url, join).Some? then ByRel(doc, url, join)
      else ByLabel(doc, url, join)
  {
    SelectOneSpec(doc, NextAnchor);
    SelectOneSpec(doc, NavAnchor);
    var d := Descendants(doc);
    var nav := SelectOne(doc, NavAnchor);
    if ByLabel(doc, url, join).None? && nav.Some? {
      var i :| 0 <= i < |d| && d[i] == nav.value && NavAnchor(d[i]);
      assert !NextAnchor(d[i]);
    }
  }

  /**
   Every address returned is `join(url, href)` for the non-empty `href` of
   a `link` or `a` element of the page.
   */
  lemma NextUrlIsJoinedHref(doc: seq<Node>, url: string, join: (string, string) -> string)
    ensures NextPageUrl(doc, url, join).Some? ==>
      exists i :: 0 <= i < |Descendants(doc)| && var n := Descendants(doc)[i].node;
        (Named(n, "link") || Named(n, "a")) && HasValue(n, "href") && NextPageUrl(doc, url, join) == Some(join(url, Href(n)))
  {
    NavNeverDecides(doc, url, join);
    SelectOneSpec(doc, LinkNext);
    SelectOneSpec(doc, AnchorRelNext);
    SelectOneSpec(doc, NextAnchor);
  }

  /**
   The precedence of the rules in document-order terms: the first
   `link[rel="next"]` when it has an address; else the first
   `a[rel~="next"]` when it has one; else the first anchor labelled "next…"
   with an address; else nothing.
   */
  lemma NextUrlPrecedence(doc: seq<Node>, url: string, join: (string, string) -> string)
    ensures var l := FirstOf(Descendants(doc), LinkNext);
      l.Some? && HasValue(l.value.node, "href") ==> NextPageUrl(doc, url, join) == Some(join(url, Href(l.value.node)))
    ensures var l := FirstOf(Descendants(doc), LinkNext);
      var a := FirstOf(Descendants(doc), AnchorRelNext);
      (l.None? || !HasValue(l.value.node, "href")) && a.Some? && HasValue(a.value.node, "href") ==>
        NextPageUrl(doc, url, join) == Some(join(url, Href(a.value.node)))
    ensures var l := FirstOf(Descendants(doc), LinkNext);
      var a := FirstOf(Descendants(doc), AnchorRelNext);
      var t := FirstOf(Descendants(doc), NextAnchor);
      (l.None? || !HasValue(l.value.node, "href")) && (a.None? || !HasValue(a.value.node, "href")) ==>
        NextPageUrl(doc, url, join) == if t.Some? then Some(join(url, Href(t.value.node))) else None
  {
    NavNeverDecides(doc, url, join);
    FindIsFirst(doc, [], LinkNext);
    FindIsFirst(doc, [], AnchorRelNext);
    FindIsFirst(doc, [], NextAnchor);
  }
}

=== FILE: mojibake.dfy ===
// The mojibake gate: text is handed to the Windows-1252 -> UTF-8 repair only
// when one of the telltale signatures of double-encoded UTF-8 occurs in it.

module Mojibake {
  import opened Wrappers
  import opened Chars

  const A_TILDE: char := '\U{C3}'
  const A_CIRCUMFLEX: char := '\U{C2}'
  const A_CIRCUMFLEX_SMALL: char := '\U{E2}'
  const EURO: char := '\U{20AC}'

  /**
   The literal alternatives of the signature pattern that do not end in a
   wildcard: `â€` on its own and followed by `™`, `œ`, `“`, `”`, `¢` or `¦`.
   */
  const LITERAL_SIGNS: seq<string> := [
    [A_CIRCUMFLEX_SMALL, EURO],
    [A_CIRCUMFLEX_SMALL, EURO, '\U{2122}'],
    [A_CIRCUMFLEX_SMALL, EURO, '\U{153}'],
    [A_CIRCUMFLEX_SMALL, EURO, '\U{201C}'],
    [A_CIRCUMFLEX_SMALL, EURO, '\U{201D}'],
    [A_CIRCUMFLEX_SMALL, EURO, '\U{A2}'],
    [A_CIRCUMFLEX_SMALL, EURO, '\U{A6}']
  ]

  /**
   Some alternative of the signature pattern matches at `i`, read literally:
   `Ã` or `Â` followed by any character but a newline (the pattern's `.`),
   or one of the literal alternatives.
   */
  predicate PatternAt(s: string, i: nat) {
    (i + 1 < |s| && (s[i] == A_TILDE || s[i] == A_CIRCUMFLEX) && s[i + 1] != '\n')
    || exists k :: 0 <= k < |LITERAL_SIGNS| && OccursAt(LITERAL_SIGNS[k], s, i)
  }

  /**
   The same test with the longer literal alternatives folded into their
   common two-character prefix `â€`, which is all a search needs.
   */
  predicate SignAt(s: string, i: nat) {
    i + 1 < |s|
    && (((s[i] == A_TILDE || s[i] == A_CIRCUMFLEX) && s[i + 1] != '\n')
        || (s[i] == A_CIRCUMFLEX_SMALL && s[i + 1] == EURO))
  }

  /** A signature occurs somewhere in `s`: the regex search succeeds. */
  predicate HasSign(s: string) {
    exists i :: 0 <= i < |s| && SignAt(s, i)
  }

  /** Folding the literal alternatives into their prefix changes nothing. */
  lemma PatternIsSign(s: string, i: nat)
    ensures PatternAt(s, i) <==> SignAt(s, i)
  {
    if SignAt(s, i) && s[i] == A_CIRCUMFLEX_SMALL {
      assert s[i..i + 2] == LITERAL_SIGNS[0];
      assert OccursAt(LITERAL_SIGNS[0], s, i);
    }
    if PatternAt(s, i) && !(i + 1 < |s| && (s[i] == A_TILDE || s[i] == A_CIRCUMFLEX) && s[i + 1] != '\n') {
      var k :| 0 <= k < |LITERAL_SIGNS| && OccursAt(LITERAL_SIGNS[k], s, i);
      var w := LITERAL_SIGNS[k];
      assert |w| >= 2 && w[0] == A_CIRCUMFLEX_SMALL && w[1] == EURO;
      assert s[i] == s[i..i + |w|][0] && s[i + 1] == s[i..i + |w|][1];
    }
  }

  /**
   The leftmost position where the search finds a signature, scanning the
   way the regex engine does; `None` exactly when the search fails.
   */
  method FindSign(s: string) returns (r: Option<nat>)
    ensures r.None? <==> !HasSign(s)
    ensures r.Some? ==> r.value < |s| && SignAt(s, r.value)
    ensures r.Some? ==> forall j :: 0 <= j < r.value ==> !SignAt(s, j)
  {
    var i := 0;
    while i + 1 < |s|
      invariant 0 <= i <= |s|
      invariant forall j :: 0 <= j < i ==> !SignAt(s, j)
    {
      var c, d := s[i], s[i + 1];
      if ((c == A_TILDE || c == A_CIRCUMFLEX) && d != '\n') || (c == A_CIRCUMFLEX_SMALL && d == EURO) {
        assert SignAt(s, i);
        return Some(i);
      }
      i := i + 1;
    }
    return None;
  }

  /**
   The repair step: `transcode` stands for encoding as Windows-1252 and
   decoding as UTF-8, `None` when either step raises.
   */
  function FixMojibake(transcode: string -> Option<string>, s: string): (r: string)
    ensures r != s ==> HasSign(s) && transcode(s) == Some(r)
  {
    if !HasSign(s) then s
    else match transcode(s)
      case None => s
      case Some(u) => u
  }

  /**
   The input comes back unchanged when no signature occurs and when the
   transcoding fails; otherwise the transcoded text is the result.
   */
  lemma FixMojibakeCases(transcode: string -> Option<string>, s: string)
    ensures !HasSign(s) ==> FixMojibake(transcode, s) == s
    ensures transcode(s).None? ==> FixMojibake(transcode, s) == s
    ensures HasSign(s) && transcode(s).Some? ==> FixMojibake(transcode, s) == transcode(s).value
  {
  }

  /** Plain ASCII text never reaches the transcoder. */
  lemma AsciiIsUntouched(transcode: string -> Option<string>, s: string)
    requires forall k :: 0 <= k < |s| ==> s[k] < '\U{80}'
    ensures !HasSign(s)
    ensures FixMojibake(transcode, s) == s
  {
  }

  /** A typical double-encoded apostrophe opens the gate. */
  lemma CurlyApostropheOpensGate()
    ensures HasSign(['d', 'o', 'n', A_CIRCUMFLEX_SMALL, EURO, '\U{2122}', 't'])
  {
    assert SignAt(['d', 'o', 'n', A_CIRCUMFLEX_SMALL, EURO, '\U{2122}', 't'], 3);
  }

  /** `Ã` at the very end, or right before a newline, is not a signature. */
  lemma LoneTildeBeforeNewlineIsNoSign()
    ensures !HasSign(['a', A_TILDE, '\n', 'b', A_TILDE])
  {
    var s := ['a', A_TILDE, '\n', 'b', A_TILDE];
    forall i | 0 <= i < |s|
      ensures !SignAt(s, i)
    {
    }
  }
}

=== FILE: normalize.dfy ===
/**
 `_reflow_segment`: the clean-up applied to every stretch of prose between
 code spans. The passes of `Passes` run in the order the source applies
 them; Unicode NFKC normalisation and the Windows-1252 round trip are
 parameters, since they rest on tables this model does not carry.
 */
module Normalize {
  import opened Wrappers
  import opened Chars
  import opened Rewrite
  import opened Passes
  import opened Mojibake

  /** The two table-driven text conversions the segment clean-up relies on. */
  datatype Codec = Codec(nfkc: string -> string, transcode: string -> Option<string>)

  /** Steps 2 to 6: spaces, newlines, invisibles, line ends and blank runs. */
  function Prelude(t: string): string {
    CollapseBlankLines(TrimLineEnds(DropInvisibles(UnifyNewlines(ReplaceNbsp(t)))))
  }

  /** Step 7: mark soft wraps, hug punctuation, join `;` and `.`, resolve what is left. */
  function WrapPasses(t: string): string {
    ResolveWraps(JoinSemicolonDot(HugPunctuation(MarkSoftWraps(t))))
  }

  /** The final tidy: blanks before, then after, every newline. */
  function FinalTidy(t: string): string {
    TrimLineStarts(TrimLineEnds(t))
  }

  /**
   Everything after NFKC. Whatever the input, the sentinel never leaks into
   the result and no space or tab touches a newline on either side.
   */
  function Tidy(t: string): (r: string)
    ensures !HasSentinel(r)
    ensures NoBlankBeforeNewline(r) && NoBlankAfterNewline(r)
  {
    var w := WrapPasses(Prelude(t));
    ResolveRemovesSentinels(JoinSemicolonDot(HugPunctuation(MarkSoftWraps(Prelude(t)))));
    TrimsKeepSentinelOut(w);
    TrimsKeepSentinelOut(TrimLineEnds(w));
    TrimLineEndsClean(w);
    TrimLineStartsClean(TrimLineEnds(w));
    FinalTidy(w)
  }

  /** `_reflow_segment`: mojibake repair, NFKC, then the passes. */
  function ReflowSegment(codec: Codec, t: string): (r: string)
    ensures !HasSentinel(r)
    ensures NoBlankBeforeNewline(r) && NoBlankAfterNewline(r)
  {
    Tidy(codec.nfkc(FixMojibake(codec.transcode, t)))
  }

  // ---------------------------------------------------------------------
  // Text the early passes leave alone

  /** No character that one of the prose passes would rewrite on sight. */
  predicate Tame(s: string) {
    NBSP !in s && '\r' !in s && WRAP_OPEN !in s && forall c :: c in s ==> !IsInvisible(c)
  }

  /** A single line of tame text. */
  predicate Plain(s: string) {
    Tame(s) && '\n' !in s
  }

  function Last(s: string): char
    requires s != []
  {
    s[|s| - 1]
  }

  lemma NbspFree(t: string)
    requires NBSP !in t
    ensures ReplaceNbsp(t) == t
  {
    ReplaceNbspPointwise(t);
  }

  lemma InvisibleFree(t: string)
    requires forall k :: 0 <= k < |t| ==> !IsInvisible(t[k])
    ensures DropInvisibles(t) == t
  {
    DropInvisiblesIsFilter(t);
    KeepAll(t, Visible);
  }

  lemma InvisibleFreeByMembership(t: string)
    requires forall c :: c in t ==> !IsInvisible(c)
    ensures forall k :: 0 <= k < |t| ==> !IsInvisible(t[k])
  {
    forall k | 0 <= k < |t|
      ensures !IsInvisible(t[k])
    {
      assert t[k] in t;
    }
  }

  /** Tame text with clean line ends and no blank-line run passes steps 2 to 6 unchanged. */
  lemma PreludeUnchanged(t: string)
    requires Tame(t)
    requires NoBlankBeforeNewline(t) && NoTripleNewline(t)
    ensures Prelude(t) == t
  {
    NbspFree(t);
    CarriageReturnFree(t);
    InvisibleFreeByMembership(t);
    InvisibleFree(t);
    TrimLineEndsUnchanged(t);
    CollapseUnchanged(t);
  }

  lemma OpenFreeHasNoSentinel(t: string)
    requires WRAP_OPEN !in t
    ensures !HasSentinel(t)
  {
    forall i | 0 <= i <= |t|
      ensures !OccursAt(WRAP, t, i)
    {
      if i < |t| {
        assert t[i] in t;
      }
    }
  }

  /** Without a sentinel the three passes after the marking do nothing. */
  lemma SentinelFreePasses(t: string)
    requires WRAP_OPEN !in t
    ensures HugPunctuation(t) == t && JoinSemicolonDot(t) == t && ResolveWraps(t) == t
  {
    OpenFreeHasNoSentinel(t);
    PunctuationPassesNeedSentinel(t);
    ResolveUnchanged(t);
  }

  lemma MarkWithoutNewline(t: string)
    requires '\n' !in t
    ensures MarkSoftWraps(t) == t
  {
    SoftWrapAtOk();
    forall u | SoftWrapAt(u).Some?
      ensures '\n' in u
    {
      assert u[1] == '\n';
    }
    SubUnchangedLacking(t, SoftWrapAt, '\n');
  }

  lemma FinalTidyUnchanged(t: string)
    requires NoBlankBeforeNewline(t) && NoBlankAfterNewline(t)
    ensures FinalTidy(t) == t
  {
    TrimLineEndsUnchanged(t);
    TrimLineStartsUnchanged(t);
  }

  /** One line of tame text comes out of the passes exactly as it went in. */
  lemma SingleLineUnchanged(s: string)
    requires Plain(s)
    ensures Tidy(s) == s
  {
    InvisibleFreeByMembership(s);
    PreludeUnchanged(s);
    MarkWithoutNewline(s);
    SentinelFreePasses(s);
    FinalTidyUnchanged(s);
  }

  /** Text without a newline is left alone by the final tidy. */
  lemma NoNewlineTidy(t: string)
    requires '\n' !in t
    ensures FinalTidy(t) == t
  {
    forall i | 0 <= i < |t|
      ensures t[i] != '\n'
    {
      assert t[i] in t;
    }
    FinalTidyUnchanged(t);
  }

  // ---------------------------------------------------------------------
  // How single steps act on the characteristic shapes

  /** One break between two lines of tame text passes steps 2 to 6 unchanged. */
  lemma PreludeOnOneBreak(a: string, b: string)
    requires Plain(a) && Plain(b) && a != []
    requires !IsBlank(Last(a))
    ensures Prelude(a + "\n" + b) == a + "\n" + b
  {
    var t := a + "\n" + b;
    forall j | 0 <= j < |t| && j != |a|
      ensures t[j] != '\n'
    {
      if j < |a| {
        assert t[j] == a[j] && a[j] in a;
      } else {
        assert t[j] == b[j - |a| - 1] && b[j - |a| - 1] in b;
      }
    }
    PreludeUnchanged(t);
  }

  /**
   The first soft wrap of a text is marked, and marking goes on after the
   character following it.
   */
  lemma MarkFirstWrap(a: string, y: char, r: string)
    requires a != [] && '\n' !in a && y != '\n'
    ensures MarkSoftWraps(a + "\n" + [y] + r) == a + WRAP + [y] + MarkSoftWraps(r)
  {
    var a0 := a[..|a| - 1];
    var x := [Last(a), '\n', y] + r;
    assert a + "\n" + [y] + r == a0 + x;
    assert a0 + [Last(a)] == a;
    MarkSkipsLine(a0, x);
    MarkAtWrap(Last(a), y, r);
  }

  /** Marking needs a newline in second place. */
  lemma SoftWrapMiss(u: string)
    requires |u| < 2 || u[1] != '\n'
    ensures SoftWrapAt(u).None?
  {
  }

  /** Marking copies a line without newline, up to a character that is not one either. */
  lemma MarkSkipsLine(a: string, x: string)
    requires '\n' !in a && x != [] && x[0] != '\n'
    ensures MarkSoftWraps(a + x) == a + MarkSoftWraps(x)
  {
    SoftWrapAtOk();
    forall i | 0 <= i < |a|
      ensures SoftWrapAt((a + x)[i..]).None?
    {
      var u := (a + x)[i..];
      if i + 1 < |a| {
        assert u[1] == a[i + 1] && a[i + 1] in a;
      } else {
        assert u[1] == x[0];
      }
      SoftWrapMiss(u);
    }
    SubSkips(a, x, SoftWrapAt);
  }

  /** A single newline between two other characters is marked. */
  lemma MarkAtWrap(c: char, y: char, r: string)
    requires c != '\n' && y != '\n'
    ensures MarkSoftWraps([c, '\n', y] + r) == [c] + WRAP + [y] + MarkSoftWraps(r)
  {
    SoftWrapAtOk();
    var x := [c, '\n', y] + r;
    SubHit(x, SoftWrapAt);
    assert x[3..] == r;
  }

  /** Where the sentinel sits in a marked line: only at `|a|`. */
  lemma SentinelOnlyAt(a: string, b: string)
    requires WRAP_OPEN !in a && WRAP_OPEN !in b
    ensures forall j :: 0 <= j < |a + WRAP + b| && j != |a| ==> (a + WRAP + b)[j] != WRAP_OPEN
  {
    var t := a + WRAP + b;
    forall j | 0 <= j < |t| && j != |a|
      ensures t[j] != WRAP_OPEN
    {
      if j < |a| {
        assert t[j] == a[j] && a[j] in a;
      } else if j < |a| + 6 {
        assert t[j] == WRAP[j - |a|];
      } else {
        assert t[j] == b[j - |a| - 6] && b[j - |a| - 6] in b;
      }
    }
  }

  /** A sentinel not followed by whitespace is left for the last wrap pass. */
  lemma LoneSentinelStays(a: string, b: string)
    requires WRAP_OPEN !in a && WRAP_OPEN !in b
    requires b == [] || !IsSpace(b[0])
    ensures HugPunctuation(a + WRAP + b) == a + WRAP + b
    ensures JoinSemicolonDot(a + WRAP + b) == a + WRAP + b
  {
    LoneSentinelNoHug(a, b);
    LoneSentinelNoSemicolon(a, b);
  }

  /** The punctuation pass needs a sentinel bracket followed by whitespace. */
  lemma HugMiss(u: string)
    requires u == [] || u[0] != WRAP_OPEN || (6 <= |u| && u[..6] == WRAP && (|u| == 6 || !IsSpace(u[6])))
    ensures HugAt(u).None?
  {
    WrapShape();
  }

  /** The semicolon pass needs a semicolon directly followed by a sentinel and whitespace. */
  lemma SemicolonMiss(u: string)
    requires |u| < 2 || u[0] != ';' || u[1] != WRAP_OPEN || (7 <= |u| && u[1..7] == WRAP && (|u| == 7 || !IsSpace(u[7])))
    ensures SemicolonDotAt(u).None?
  {
    WrapShape();
  }

  lemma LoneSentinelNoHug(a: string, b: string)
    requires WRAP_OPEN !in a && WRAP_OPEN !in b
    requires b == [] || !IsSpace(b[0])
    ensures HugPunctuation(a + WRAP + b) == a + WRAP + b
  {
    HugAtOk();
    var t := a + WRAP + b;
    SentinelOnlyAt(a, b);
    forall i | 0 <= i < |t|
      ensures HugAt(t[i..]).None?
    {
      var u := t[i..];
      if i == |a| {
        assert u[..6] == WRAP && u[6..] == b;
      } else {
        assert u[0] == t[i];
      }
      HugMiss(u);
    }
    SubUnchanged(t, HugAt);
  }

  lemma LoneSentinelNoSemicolon(a: string, b: string)
    requires WRAP_OPEN !in a && WRAP_OPEN !in b
    requires b == [] || !IsSpace(b[0])
    ensures JoinSemicolonDot(a + WRAP + b) == a + WRAP + b
  {
    SemicolonDotAtOk();
    var t := a + WRAP + b;
    SentinelOnlyAt(a, b);
    forall i | 0 <= i < |t|
      ensures SemicolonDotAt(t[i..]).None?
    {
      var u := t[i..];
      if i + 1 == |a| {
        assert u[1..7] == WRAP && u[7..] == b;
      } else if i + 1 < |t| {
        assert u[1] == t[i + 1];
      }
      SemicolonMiss(u);
    }
    SubUnchanged(t, SemicolonDotAt);
  }

  /** The punctuation pass copies a stretch without a sentinel bracket and carries on after it. */
  lemma HugSkips(a: string, y: string)
    requires WRAP_OPEN !in a
    ensures HugPunctuation(a + y) == a + HugPunctuation(y)
  {
    HugAtOk();
    forall i | 0 <= i < |a|
      ensures HugAt((a + y)[i..]).None?
    {
      var u := (a + y)[i..];
      assert u[0] == a[i] && a[i] in a;
      HugMiss(u);
    }
    SubSkips(a, y, HugAt);
  }

  lemma HugAtSentinel(ws: string, p: char, b: string)
    requires WRAP_OPEN !in b
    requires ws != [] && AllSpace(ws) && IsClosingPunct(p)
    ensures HugPunctuation(WRAP + ws + [p] + b) == [p] + b
  {
    HugAtOk();
    var y := WRAP + ws + [p] + b;
    HugAtHit(ws, p, b);
    SubHit(y, HugAt);
    assert y[7 + |ws|..] == b;
    SentinelFreePasses(b);
  }

  lemma HugAtHit(ws: string, p: char, b: string)
    requires ws != [] && AllSpace(ws) && IsClosingPunct(p)
    ensures HugAt(WRAP + ws + [p] + b) == Some(Hit(7 + |ws|, [p]))
  {
    var y := WRAP + ws + [p] + b;
    assert y[..6] == WRAP;
    assert y[6..] == ws + ([p] + b);
    SpanOfRun(ws, [p] + b);
    assert y[6 + |ws|] == p;
  }

  /** A sentinel, whitespace, then closing punctuation: the punctuation alone remains. */
  lemma HugAfterWrap(a: string, ws: string, p: char, b: string)
    requires WRAP_OPEN !in a && WRAP_OPEN !in b
    requires ws != [] && AllSpace(ws) && IsClosingPunct(p)
    ensures HugPunctuation(a + WRAP + ws + [p] + b) == a + [p] + b
  {
    assert a + WRAP + ws + [p] + b == a + (WRAP + ws + [p] + b);
    HugSkips(a, WRAP + ws + [p] + b);
    HugAtSentinel(ws, p, b);
  }

  /** No match of the last wrap pass starts where the first non-space character is not a sentinel bracket. */
  lemma WrapAtMisses(u: string, m: nat)
    requires m < |u| && !IsSpace(u[m])
    requires forall j :: 0 <= j <= m ==> u[j] != WRAP_OPEN
    ensures WrapAt(u).None?
  {
    var k := Span(u, IsSpace);
    assert k <= m;
    assert u[k..][0] == u[k];
  }

  /**
   The last wrap pass copies a stretch without a sentinel bracket that does
   not end in whitespace, and carries on after it.
   */
  lemma ResolveSkips(a: string, y: string)
    requires WRAP_OPEN !in a
    requires a == [] || !IsSpace(Last(a))
    ensures ResolveWraps(a + y) == a + ResolveWraps(y)
  {
    WrapAtOk();
    forall i | 0 <= i < |a|
      ensures WrapAt((a + y)[i..]).None?
    {
      var u := (a + y)[i..];
      forall j | 0 <= j <= |a| - 1 - i
        ensures u[j] != WRAP_OPEN
      {
        assert u[j] == a[i + j] && a[i + j] in a;
      }
      WrapAtMisses(u, |a| - 1 - i);
    }
    SubSkips(a, y, WrapAt);
  }

  lemma WrapAtSentinel(ws: string, b: string)
    requires AllSpace(ws)
    requires b == [] || !IsSpace(b[0])
    ensures WrapAt(WRAP + ws + b) == Some(Hit(6 + |ws|, " "))
  {
    var y := WRAP + ws + b;
    assert y[6..] == ws + b;
    SpanOfRun(ws, b);
    assert y[0] == WRAP_OPEN;
    assert Span(y, IsSpace) == 0;
  }

  lemma ResolveAtSentinel(ws: string, b: string)
    requires WRAP_OPEN !in b
    requires AllSpace(ws)
    requires b == [] || !IsSpace(b[0])
    ensures ResolveWraps(WRAP + ws + b) == " " + b
  {
    WrapAtOk();
    var y := WRAP + ws + b;
    WrapAtSentinel(ws, b);
    SubHit(y, WrapAt);
    assert y[6 + |ws|..] == b;
    SentinelFreePasses(b);
  }

  lemma Regroup(a: string, w: string, ws: string, b: string)
    ensures a + w + ws + b == a + (w + ws + b)
  {
  }

  lemma SplitLast(x: string, v: char)
    ensures x + [v, v, '.'] == x + [v, v] + ['.']
  {
  }

  lemma Cons(x: string, b: string)
    requires b != []
    ensures x + [b[0]] + b[1..] == x + b
  {
  }

  lemma NoGap(x: string, b: string)
    ensures x + [] + b == x + b
  {
  }

  /** The last wrap pass turns a sentinel and the whitespace after it into one space. */
  lemma ResolveOne(a: string, ws: string, b: string)
    requires WRAP_OPEN !in a && WRAP_OPEN !in b
    requires a == [] || !IsSpace(Last(a))
    requires AllSpace(ws)
    requires b == [] || !IsSpace(b[0])
    ensures ResolveWraps(a + WRAP + ws + b) == a + " " + b
  {
    Regroup(a, WRAP, ws, b);
    ResolveSkips(a, WRAP + ws + b);
    ResolveAtSentinel(ws, b);
    Regroup(a, " ", [], b);
  }

  // ---------------------------------------------------------------------
  // What the segment clean-up does to line breaks in prose

  /**
   A lone newline between two lines that neither end nor start with
   whitespace is a soft wrap: it becomes one space.
   */
  lemma SoftWrapBecomesSpace(a: string, b: string)
    requires Plain(a) && Plain(b) && a != [] && b != []
    requires !IsSpace(Last(a)) && !IsSpace(b[0])
    ensures Tidy(a + "\n" + b) == a + " " + b
  {
    PreludeOnOneBreak(a, b);
    Cons(a + "\n", b);
    MarkFirstWrap(a, b[0], b[1..]);
    MarkWithoutNewline(b[1..]);
    Cons(a + WRAP, b);
    LoneSentinelStays(a, b);
    NoGap(a + WRAP, b);
    ResolveOne(a, [], b);
    NoNewlineTidy(a + " " + b);
  }

  /**
   A soft wrap followed by whitespace and closing punctuation disappears
   together with that whitespace: the punctuation hugs the word before it.
   */
  lemma WrapHugsSpacedPunct(a: string, ws: string, p: char, b: string)
    requires Plain(a) && Plain(ws) && Plain(b) && a != []
    requires !IsBlank(Last(a))
    requires ws != [] && AllSpace(ws) && IsClosingPunct(p)
    ensures Tidy(a + "\n" + ws + [p] + b) == a + [p] + b
  {
    var rest := ws + [p] + b;
    PlainAround(ws, p, b);
    Regroup(a, "\n", ws, [p] + b);
    assert a + "\n" + ws + [p] + b == a + "\n" + rest;
    PreludeOnOneBreak(a, rest);
    MarkWrapBeforeLine(a, rest);
    assert a + WRAP + rest == a + WRAP + ws + [p] + b;
    HugAfterWrap(a, ws, p, b);
    PlainAround(a, p, b);
    TidyChain(a + "\n" + rest, a + WRAP + ws + [p] + b, a + [p] + b);
  }

  /** A closing punctuation character between two plain lines keeps them plain. */
  lemma PlainAround(x: string, p: char, b: string)
    requires Plain(x) && Plain(b) && IsClosingPunct(p)
    ensures Plain(x + [p] + b)
  {
    var t := x + [p] + b;
    forall c | c in t
      ensures c in x || c in b || c == p
    {
    }
  }

  /** The soft wrap before a line is marked, and nothing after it. */
  lemma MarkWrapBeforeLine(a: string, rest: string)
    requires a != [] && '\n' !in a && rest != [] && '\n' !in rest
    ensures MarkSoftWraps(a + "\n" + rest) == a + WRAP + rest
  {
    var tail := rest[1..];
    assert rest == [rest[0]] + tail;
    assert '\n' !in tail by {
      forall c | c in tail ensures c in rest {
      }
    }
    assert a + "\n" + rest == a + "\n" + [rest[0]] + tail;
    MarkFirstWrap(a, rest[0], tail);
    MarkWithoutNewline(tail);
    assert a + WRAP + [rest[0]] + tail == a + WRAP + rest;
  }

  /**
   A text the first passes leave alone, whose marked form the punctuation
   pass turns into a single sentinel-free line, comes out as that line.
   */
  lemma TidyChain(t: string, marked: string, hugged: string)
    requires Prelude(t) == t && MarkSoftWraps(t) == marked && HugPunctuation(marked) == hugged
    requires Plain(hugged)
    ensures Tidy(t) == hugged
  {
    SentinelFreePasses(hugged);
    NoNewlineTidy(hugged);
  }

  /** A paragraph break between two lines of prose is kept as it is. */
  lemma ParagraphBreakKept(a: string, b: string)
    requires Plain(a) && Plain(b) && a != [] && b != []
    requires !IsBlank(Last(a)) && !IsBlank(b[0])
    ensures Tidy(a + "\n\n" + b) == a + "\n\n" + b
  {
    var t := a + "\n\n" + b;
    ParagraphClean(a, b);
    TameJoin(a, "\n\n", b);
    PreludeUnchanged(t);
    ParagraphNotMarked(a, b);
    SentinelFreePasses(t);
    FinalTidyUnchanged(t);
  }

  /** Joining tame pieces gives tame text. */
  lemma TameJoin(a: string, sep: string, b: string)
    requires Tame(a) && Tame(b) && forall c :: c in sep ==> c == '\n'
    ensures Tame(a + sep + b)
  {
    var t := a + sep + b;
    forall c | c in t
      ensures c in a || c in b || c == '\n'
    {
    }
  }

  /** No blank touches either newline of a paragraph break between unblank ends, and there is no run of three. */
  lemma ParagraphClean(a: string, b: string)
    requires '\n' !in a && '\n' !in b && a != [] && b != []
    requires !IsBlank(Last(a)) && !IsBlank(b[0])
    ensures var t := a + "\n\n" + b;
      NoBlankBeforeNewline(t) && NoTripleNewline(t) && NoBlankAfterNewline(t)
  {
    var t := a + "\n\n" + b;
    ParagraphNewlines(a, b);
    assert t[|a| - 1] == Last(a) && t[|a| + 2] == b[0];
  }

  /** The only newlines around a paragraph break are its own two. */
  lemma ParagraphNewlines(a: string, b: string)
    requires '\n' !in a && '\n' !in b
    ensures forall j :: 0 <= j < |a + "\n\n" + b| && j != |a| && j != |a| + 1 ==> (a + "\n\n" + b)[j] != '\n'
  {
    var t := a + "\n\n" + b;
    forall j | 0 <= j < |t| && j != |a| && j != |a| + 1
      ensures t[j] != '\n'
    {
      if j < |a| {
        assert t[j] == a[j] && a[j] in a;
      } else {
        assert t[j] == b[j - |a| - 2] && b[j - |a| - 2] in b;
      }
    }
  }

  /** Marking leaves a paragraph break alone: neither of its newlines stands between two other characters. */
  lemma ParagraphNotMarked(a: string, b: string)
    requires '\n' !in a && '\n' !in b
    ensures MarkSoftWraps(a + "\n\n" + b) == a + "\n\n" + b
  {
    SoftWrapAtOk();
    var t := a + "\n\n" + b;
    ParagraphNewlines(a, b);
    forall i | 0 <= i < |t|
      ensures SoftWrapAt(t[i..]).None?
    {
      var u := t[i..];
      if i + 2 < |t| {
        assert u[0] == t[i] && u[1] == t[i + 1] && u[2] == t[i + 2];
      }
    }
    SubUnchanged(t, SoftWrapAt);
  }

  /** Steps 2 to 6 leave two single breaks around a one-character line alone. */
  lemma PreludeOnTwoBreaks(a: string, y: char, b: string)
    requires Plain(a) && Plain([y]) && Plain(b) && a != []
    requires !IsBlank(Last(a)) && !IsBlank(y)
    ensures Prelude(a + "\n" + [y] + "\n" + b) == a + "\n" + [y] + "\n" + b
  {
    var t := a + "\n" + [y] + "\n" + b;
    forall j | 0 <= j < |t| && j != |a| && j != |a| + 2
      ensures t[j] != '\n'
    {
      if j < |a| {
        assert t[j] == a[j] && a[j] in a;
      } else if j > |a| + 2 {
        assert t[j] == b[j - |a| - 3] && b[j - |a| - 3] in b;
      }
    }
    assert t[|a| - 1] == Last(a) && t[|a| + 1] == y;
    PreludeUnchanged(t);
  }

  lemma Assoc(x: string, y: string, z: string)
    ensures x + y + z == x + (y + z)
  {
  }

  lemma MarkAfterBreak(b: string)
    requires '\n' !in b
    ensures MarkSoftWraps("\n" + b) == "\n" + b
  {
    SoftWrapAtOk();
    var r := "\n" + b;
    SubMiss(r, SoftWrapAt);
    assert r[1..] == b;
    MarkWithoutNewline(b);
  }

  lemma MarkAdjacentWraps(a: string, y: char, b: string)
    requires a != [] && '\n' !in a && y != '\n' && '\n' !in b
    ensures MarkSoftWraps(a + "\n" + [y] + "\n" + b) == a + WRAP + ([y] + ("\n" + b))
  {
    Assoc(a + "\n" + [y], "\n", b);
    MarkFirstWrap(a, y, "\n" + b);
    MarkAfterBreak(b);
    Assoc(a + WRAP, [y], "\n" + b);
  }

  /** The final tidy leaves one break between lines that do not end or start with a blank. */
  lemma FinalOnOneBreak(x: string, b: string)
    requires x != [] && '\n' !in x && '\n' !in b
    requires !IsBlank(Last(x)) && (b == [] || !IsBlank(b[0]))
    ensures FinalTidy(x + "\n" + b) == x + "\n" + b
  {
    var t := x + "\n" + b;
    forall j | 0 <= j < |t| && j != |x|
      ensures t[j] != '\n'
    {
      if j < |x| {
        assert t[j] == x[j] && x[j] in x;
      } else {
        assert t[j] == b[j - |x| - 1] && b[j - |x| - 1] in b;
      }
    }
    assert t[|x| - 1] == Last(x);
    if b != [] {
      assert t[|x| + 1] == b[0];
    }
    FinalTidyUnchanged(t);
  }

  /**
   The marking pattern consumes the character after the newline, so of two
   soft wraps around a one-character line only the first is marked: the
   second newline survives.
   */
  lemma OnlyFirstOfAdjacentWrapsMarked(a: string, y: char, b: string)
    requires Plain(a) && Plain([y]) && Plain(b) && a != [] && b != []
    requires !IsSpace(Last(a)) && !IsSpace(y) && !IsBlank(b[0])
    ensures Tidy(a + "\n" + [y] + "\n" + b) == a + " " + [y] + "\n" + b
  {
    PreludeOnTwoBreaks(a, y, b);
    MarkAdjacentWraps(a, y, b);
    var tail := [y] + ("\n" + b);
    assert WRAP_OPEN !in tail;
    LoneSentinelStays(a, tail);
    NoGap(a + WRAP, tail);
    ResolveOne(a, [], tail);
    var x := a + " " + [y];
    Assoc(a + " ", [y], "\n" + b);
    Assoc(x, "\n", b);
    assert Last(x) == y;
    FinalOnOneBreak(x, b);
  }

  /**
   The clean-up is not idempotent: of two soft wraps one character apart
   only the first is resolved, and a second run resolves the other.
   */
  lemma TidyTwiceDiffers(a: string, y: char, b: string)
    requires Plain(a) && Plain([y]) && Plain(b) && a != [] && b != []
    requires !IsSpace(Last(a)) && !IsSpace(y) && !IsSpace(b[0])
    ensures Tidy(Tidy(a + "\n" + [y] + "\n" + b)) == a + " " + [y] + " " + b
    ensures Tidy(Tidy(a + "\n" + [y] + "\n" + b)) != Tidy(a + "\n" + [y] + "\n" + b)
  {
    OnlyFirstOfAdjacentWrapsMarked(a, y, b);
    var x := a + " " + [y];
    PlainJoin(a, " ");
    PlainJoin(a + " ", [y]);
    assert Last(x) == y;
    SoftWrapBecomesSpace(x, b);
    var once := x + "\n" + b;
    var twice := x + " " + b;
    assert once[|x|] == '\n' && twice[|x|] == ' ';
  }

  lemma PlainJoin(a: string, b: string)
    requires Plain(a) && (Plain(b) || b == " ")
    ensures Plain(a + b)
  {
    forall c | c in a + b
      ensures c != NBSP && c != '\r' && c != WRAP_OPEN && !IsInvisible(c) && c != '\n'
    {
      if c !in a {
        assert c in b;
      }
    }
  }

  // ---------------------------------------------------------------------
  // The `;` + `.` pass

  /** Whitespace that no earlier pass rewrites on its own: a vertical tab, a form feed, and the like. */
  predicate QuietSpace(v: char) {
    IsSpace(v) && !IsBlank(v) && v != '\n' && v != '\r' && v != NBSP
  }

  /**
   The `;` + sentinel + whitespace + `.` pass does fire: the punctuation pass
   cannot consume a sentinel whose whitespace is followed by another
   sentinel, and the hug at the second wrap leaves exactly that shape
   behind. With `v` a vertical tab, `";\n\v\v\n\v."` becomes `";."`, where
   skipping the pass would give `"; ."`.
   */
  lemma SemicolonPassCanFire(v: char)
    requires QuietSpace(v)
    ensures Tidy([';', '\n', v, v, '\n', v, '.']) == ";."
    ensures FinalTidy(ResolveWraps(HugPunctuation(MarkSoftWraps(Prelude([';', '\n', v, v, '\n', v, '.']))))) == "; ."
  {
    WithSemicolonPass(v);
    WithoutSemicolonPass(v);
  }

  lemma WithSemicolonPass(v: char)
    requires QuietSpace(v)
    ensures Tidy([';', '\n', v, v, '\n', v, '.']) == ";."
  {
    PreludeSemicolonWitness(v);
    MarkSemicolonWitness(v);
    HugSemicolonWitness(v);
    JoinSemicolonWitness(v);
    SemicolonTail();
  }

  lemma WithoutSemicolonPass(v: char)
    requires QuietSpace(v)
    ensures FinalTidy(ResolveWraps(HugPunctuation(MarkSoftWraps(Prelude([';', '\n', v, v, '\n', v, '.']))))) == "; ."
  {
    PreludeSemicolonWitness(v);
    MarkSemicolonWitness(v);
    HugSemicolonWitness(v);
    SplitLast([';'] + WRAP, v);
    ResolveOne([';'], [v, v], ['.']);
    SkippedSemicolonTail();
  }

  lemma SemicolonTail()
    ensures FinalTidy(ResolveWraps(";.")) == ";."
  {
    SentinelFreePasses(";.");
    NoNewlineTidy(";.");
  }

  lemma SkippedSemicolonTail()
    ensures [';'] + " " + ['.'] == "; ."
    ensures FinalTidy("; .") == "; ."
  {
    NoNewlineTidy("; .");
  }

  lemma PreludeSemicolonWitness(v: char)
    requires QuietSpace(v)
    ensures Prelude([';', '\n', v, v, '\n', v, '.']) == [';', '\n', v, v, '\n', v, '.']
  {
    PreludeUnchanged([';', '\n', v, v, '\n', v, '.']);
  }

  lemma MarkSemicolonWitness(v: char)
    requires QuietSpace(v)
    ensures MarkSoftWraps([';', '\n', v, v, '\n', v, '.']) == [';'] + WRAP + [v, v] + WRAP + [v, '.']
  {
    assert [';', '\n', v, v, '\n', v, '.'] == [';'] + "\n" + [v] + [v, '\n', v, '.'];
    MarkFirstWrap([';'], v, [v, '\n', v, '.']);
    assert [v, '\n', v, '.'] == [v] + "\n" + [v] + ['.'];
    MarkFirstWrap([v], v, ['.']);
    MarkWithoutNewline(['.']);
  }

  /** A sentinel whose whitespace runs into another sentinel is not a hug. */
  lemma HugAtBlocked(ws: string, r: string)
    requires ws != [] && AllSpace(ws)
    ensures HugAt(WRAP + ws + WRAP + r).None?
  {
    var u := WRAP + ws + WRAP + r;
    assert u[6..] == ws + (WRAP + r);
    SpanOfRun(ws, WRAP + r);
    assert u[6 + |ws|] == WRAP_OPEN;
  }

  lemma HugLastSentinel(v: char)
    requires QuietSpace(v)
    ensures HugPunctuation(WRAP + [v, '.']) == ['.']
  {
    assert WRAP + [v] + ['.'] + [] == WRAP + [v, '.'];
    HugAtSentinel([v], '.', []);
  }

  lemma HugAtNeedsOpen(t: string)
    requires t != [] && t[0] != WRAP_OPEN
    ensures HugAt(t).None?
  {
    if |t| >= 6 {
      assert t[..6][0] == t[0];
    }
  }

  lemma OpenOnlyFirst(ws: string)
    requires AllSpace(ws)
    ensures forall i :: 0 < i < |WRAP + ws| ==> (WRAP + ws)[i] != WRAP_OPEN
  {
    forall i | 0 < i < |WRAP + ws|
      ensures (WRAP + ws)[i] != WRAP_OPEN
    {
      if i < 6 {
        assert (WRAP + ws)[i] == WRAP[i];
      } else {
        assert (WRAP + ws)[i] == ws[i - 6] && IsSpace(ws[i - 6]);
      }
    }
  }

  /** Scanning goes past a sentinel whose whitespace runs into another sentinel. */
  lemma HugSkipsBlocked(ws: string, r: string)
    requires ws != [] && AllSpace(ws)
    ensures HugPunctuation(WRAP + ws + WRAP + r) == WRAP + ws + HugPunctuation(WRAP + r)
  {
    HugAtOk();
    var x := WRAP + ws;
    var y := WRAP + r;
    Assoc(x, WRAP, r);
    HugAtBlocked(ws, r);
    OpenOnlyFirst(ws);
    forall i | 0 <= i < |x|
      ensures HugAt((x + y)[i..]).None?
    {
      if i == 0 {
        assert (x + y)[i..] == x + y;
      } else {
        assert (x + y)[i..][0] == x[i];
        HugAtNeedsOpen((x + y)[i..]);
      }
    }
    SubSkips(x, y, HugAt);
  }

  /** The first sentinel is followed by whitespace and then the second sentinel, not punctuation. */
  lemma HugMissesFirstSentinel(v: char)
    requires QuietSpace(v)
    ensures HugPunctuation(WRAP + [v, v] + WRAP + [v, '.']) == WRAP + [v, v, '.']
  {
    HugSkipsBlocked([v, v], [v, '.']);
    HugLastSentinel(v);
    SplitLast(WRAP, v);
  }

  lemma HugSemicolonWitness(v: char)
    requires QuietSpace(v)
    ensures HugPunctuation([';'] + WRAP + [v, v] + WRAP + [v, '.']) == [';'] + WRAP + [v, v, '.']
  {
    var u := WRAP + [v, v] + WRAP + [v, '.'];
    assert [';'] + WRAP + [v, v] + WRAP + [v, '.'] == [';'] + u;
    HugSkips([';'], u);
    HugMissesFirstSentinel(v);
  }

  lemma JoinSemicolonWitness(v: char)
    requires QuietSpace(v)
    ensures JoinSemicolonDot([';'] + WRAP + [v, v, '.']) == ";."
  {
    SemicolonDotAtOk();
    var h := [';'] + WRAP + [v, v, '.'];
    assert h[1..7] == WRAP;
    assert h[7..] == [v, v] + ['.'];
    SpanOfRun([v, v], ['.']);
    SubHit(h, SemicolonDotAt);
    assert h[10..] == [];
  }
}

=== FILE: passes.dfy ===
/**
 The individual rewrites of `_reflow_segment` (and the blank-line collapse
 that `_text_from_dom` shares with it), each one regular expression applied
 with `re.sub` semantics through `Rewrite.Sub`. A matcher `FooAt(t)` decides
 whether its pattern matches at the first character of `t`; greedy
 quantifiers take the longest run, and where backtracking could shorten a run
 the character after the run never satisfies what follows it, so the
 longest run is the only candidate.
 */
module Passes {
  import opened Wrappers
  import opened Chars
  import opened Rewrite

  /** The soft-wrap sentinel. */
  const WRAP: string := "\U{27E6}WRAP\U{27E7}"

  const NBSP: char := '\U{A0}'

  /** The invisible format characters removed from prose. */
  predicate IsInvisible(c: char) {
    || ('\U{200B}' <= c <= '\U{200F}')
    || ('\U{202A}' <= c <= '\U{202E}')
    || c == '\U{2060}' || c == '\U{FEFF}' || c == '\U{AD}'
  }

  /** Closing punctuation that a soft wrap hugs: the class `[.,;:!?%)\]\}]`. */
  predicate IsClosingPunct(c: char) {
    c == '.' || c == ',' || c == ';' || c == ':' || c == '!' || c == '?' || c == '%' || c == ')' || c == ']' || c == '}'
  }

  predicate IsNewline(c: char) { c == '\n' }

  // ---------------------------------------------------------------------
  // Matchers

  /** The literal `" "`, replaced by a space. */
  function NbspAt(t: string): (r: Option<Hit>)
  {
    if t != [] && t[0] == NBSP then Some(Hit(1, " ")) else None
  }

  /** The literal `"\r\n"`, replaced by `"\n"`. */
  function CrLfAt(t: string): (r: Option<Hit>)
  {
    if |t| >= 2 && t[0] == '\r' && t[1] == '\n' then Some(Hit(2, "\n")) else None
  }

  /** The literal `"\r"`, replaced by `"\n"`. */
  function CrAt(t: string): (r: Option<Hit>)
  {
    if t != [] && t[0] == '\r' then Some(Hit(1, "\n")) else None
  }

  /** One invisible character, deleted. */
  function InvisibleAt(t: string): (r: Option<Hit>)
  {
    if t != [] && IsInvisible(t[0]) then Some(Hit(1, "")) else None
  }

  /** `[ \t]+\n`, replaced by `"\n"`. */
  function LineEndBlanksAt(t: string): (r: Option<Hit>)
  {
    var k := Span(t, IsBlank);
    if 0 < k < |t| && t[k] == '\n' then Some(Hit(k + 1, "\n")) else None
  }

  /** `\n{3,}`, replaced by `"\n\n"`. */
  function BlankLinesAt(t: string): (r: Option<Hit>)
  {
    var k := Span(t, IsNewline);
    if k >= 3 then Some(Hit(k, "\n\n")) else None
  }

  /** `([^\n])\n(?!\n)([^\n])`, replaced by `\1` WRAP `\2`. */
  function SoftWrapAt(t: string): (r: Option<Hit>)
  {
    if |t| >= 3 && t[0] != '\n' && t[1] == '\n' && t[2] != '\n' then Some(Hit(3, [t[0]] + WRAP + [t[2]])) else None
  }

  /** `WRAP\s+([.,;:!?%)\]\}])`, replaced by the punctuation character. */
  function HugAt(t: string): (r: Option<Hit>)
  {
    if StartsWith(t, WRAP) then
      var k := Span(t[6..], IsSpace);
      if 0 < k && 6 + k < |t| && IsClosingPunct(t[6 + k]) then Some(Hit(7 + k, [t[6 + k]])) else None
    else None
  }

  /** `;WRAP\s+\.`, replaced by `";."`. */
  function SemicolonDotAt(t: string): (r: Option<Hit>)
  {
    if |t| > 7 && t[0] == ';' && t[1..7] == WRAP then
      var k := Span(t[7..], IsSpace);
      if 0 < k && 7 + k < |t| && t[7 + k] == '.' then Some(Hit(8 + k, ";.")) else None
    else None
  }

  /** `\s*WRAP\s*`, replaced by one space. */
  function WrapAt(t: string): (r: Option<Hit>)
  {
    var k := Span(t, IsSpace);
    if StartsWith(t[k..], WRAP) then Some(Hit(k + 6 + Span(t[k + 6..], IsSpace), " ")) else None
  }

  /** `\n[ \t]+`, replaced by `"\n"`. */
  function LineStartBlanksAt(t: string): (r: Option<Hit>)
  {
    if t != [] && t[0] == '\n' && Span(t[1..], IsBlank) > 0 then Some(Hit(1 + Span(t[1..], IsBlank), "\n")) else None
  }

  /** `WRAP` itself, replaced by the newline it stands for; used only to state what the marking pass did. */
  function SentinelAt(t: string): (r: Option<Hit>)
  {
    if StartsWith(t, WRAP) then Some(Hit(6, "\n")) else None
  }

  // Each matcher consumes at least one and at most all remaining characters.

  lemma NbspAtOk()
    ensures Matcher(NbspAt)
  {
  }

  lemma CrLfAtOk()
    ensures Matcher(CrLfAt)
  {
  }

  lemma CrAtOk()
    ensures Matcher(CrAt)
  {
  }

  lemma InvisibleAtOk()
    ensures Matcher(InvisibleAt)
  {
  }

  lemma LineEndBlanksAtOk()
    ensures Matcher(LineEndBlanksAt)
  {
  }

  lemma BlankLinesAtOk()
    ensures Matcher(BlankLinesAt)
  {
  }

  lemma SoftWrapAtOk()
    ensures Matcher(SoftWrapAt)
  {
  }

  lemma HugAtOk()
    ensures Matcher(HugAt)
  {
  }

  lemma SemicolonDotAtOk()
    ensures Matcher(SemicolonDotAt)
  {
  }

  lemma WrapAtOk()
    ensures Matcher(WrapAt)
  {
  }

  lemma LineStartBlanksAtOk()
    ensures Matcher(LineStartBlanksAt)
  {
  }

  lemma SentinelAtOk()
    ensures Matcher(SentinelAt)
  {
  }

  // ---------------------------------------------------------------------
  // Predicates stating what the passes establish

  /** `s` contains the sentinel. */
  predicate HasSentinel(s: string) {
    Occurs(WRAP, s)
  }

  predicate NoBlankBeforeNewline(s: string) {
    forall i :: 0 <= i < |s| - 1 ==> !(IsBlank(s[i]) && s[i + 1] == '\n')
  }

  predicate NoBlankAfterNewline(s: string) {
    forall i :: 0 <= i < |s| - 1 ==> !(s[i] == '\n' && IsBlank(s[i + 1]))
  }

  predicate NoTripleNewline(s: string) {
    forall i :: 0 <= i < |s| - 2 ==> !(s[i] == '\n' && s[i + 1] == '\n' && s[i + 2] == '\n')
  }

  // ---------------------------------------------------------------------
  // The passes

  /** Step 2: every no-break space becomes a plain space. */
  function ReplaceNbsp(t: string): string {
    NbspAtOk();
    Sub(t, NbspAt)
  }

  /** Step 3: Windows line ends, then lone carriage returns, become newlines. */
  function UnifyNewlines(t: string): string {
    CrLfAtOk();
    CrAtOk();
    Sub(Sub(t, CrLfAt), CrAt)
  }

  /** Step 4: zero-width and direction-control characters, the soft hyphen and the BOM are deleted. */
  function DropInvisibles(t: string): string {
    InvisibleAtOk();
    Sub(t, InvisibleAt)
  }

  /** Step 5, and again in the final tidy: blanks at the end of a line are deleted. */
  function TrimLineEnds(t: string): string {
    LineEndBlanksAtOk();
    Sub(t, LineEndBlanksAt)
  }

  /** Step 6: three or more newlines in a row become exactly two. */
  function CollapseBlankLines(t: string): string {
    BlankLinesAtOk();
    Sub(t, BlankLinesAt)
  }

  /** Step 7a: a lone newline between two other characters is replaced by the sentinel. */
  function MarkSoftWraps(t: string): string {
    SoftWrapAtOk();
    Sub(t, SoftWrapAt)
  }

  /** Step 7b: a sentinel, whitespace and closing punctuation shrink to the punctuation. */
  function HugPunctuation(t: string): string {
    HugAtOk();
    Sub(t, HugAt)
  }

  /** Step 7c: a semicolon, a sentinel, whitespace and a full stop shrink to `;.`. */
  function JoinSemicolonDot(t: string): string {
    SemicolonDotAtOk();
    Sub(t, SemicolonDotAt)
  }

  /** Step 7d: each remaining sentinel, with the whitespace around it, becomes one space. */
  function ResolveWraps(t: string): string {
    WrapAtOk();
    Sub(t, WrapAt)
  }

  /** Final tidy: blanks at the start of a line are deleted. */
  function TrimLineStarts(t: string): string {
    LineStartBlanksAtOk();
    Sub(t, LineStartBlanksAt)
  }

  /** Turns every sentinel back into the newline it replaced. */
  function Unmark(t: string): string {
    SentinelAtOk();
    Sub(t, SentinelAt)
  }

  // ---------------------------------------------------------------------
  // Character-level passes

  /** Every no-break space becomes a space; every other character stays where it was. */
  lemma {:induction false} ReplaceNbspPointwise(t: string)
    ensures |ReplaceNbsp(t)| == |t|
    ensures forall k :: 0 <= k < |t| ==> ReplaceNbsp(t)[k] == (if t[k] == NBSP then ' ' else t[k])
  {
    NbspAtOk();
    if t != [] {
      ReplaceNbspPointwise(t[1..]);
      var head := if t[0] == NBSP then " " else [t[0]];
      assert ReplaceNbsp(t) == head + ReplaceNbsp(t[1..]);
    }
  }

  predicate NotLineBreak(c: char) { c != '\r' && c != '\n' }

  lemma KeepNone(s: string, keep: char -> bool)
    requires forall k :: 0 <= k < |s| ==> !keep(s[k])
    ensures Keep(s, keep) == []
  {
    if s != [] {
      KeepNone(s[1..], keep);
    }
  }

  lemma KeepAll(s: string, keep: char -> bool)
    requires forall k :: 0 <= k < |s| ==> keep(s[k])
    ensures Keep(s, keep) == s
  {
    if s != [] {
      KeepAll(s[1..], keep);
    }
  }

  lemma OccursSingle(c: char, s: string)
    ensures Occurs([c], s) <==> c in s
  {
    if c in s {
      var i :| 0 <= i < |s| && s[i] == c;
      assert OccursAt([c], s, i);
    }
    if Occurs([c], s) {
      var i :| 0 <= i <= |s| && OccursAt([c], s, i);
      assert s[i] == s[i..i + 1][0];
    }
  }

  lemma CrLfKeepsText(u: string)
    requires CrLfAt(u).Some?
    ensures Keep(CrLfAt(u).value.repl, NotLineBreak) == Keep(u[..CrLfAt(u).value.len], NotLineBreak)
  {
    KeepNone(u[..2], NotLineBreak);
    KeepNone("\n", NotLineBreak);
  }

  lemma CrKeepsText(u: string)
    requires CrAt(u).Some?
    ensures Keep(CrAt(u).value.repl, NotLineBreak) == Keep(u[..CrAt(u).value.len], NotLineBreak)
  {
    KeepNone(u[..1], NotLineBreak);
    KeepNone("\n", NotLineBreak);
  }

  lemma NoCarriageReturn(t: string)
    ensures '\r' !in UnifyNewlines(t)
  {
    CrLfAtOk();
    CrAtOk();
    var mid := Sub(t, CrLfAt);
    forall i | 0 <= i <= |mid| && OccursAt("\r", mid, i)
      ensures CrAt(mid[i..]).Some?
    {
      assert mid[i] == '\r';
    }
    SubExcludes(mid, CrAt, "\r");
    OccursSingle('\r', UnifyNewlines(t));
  }

  /** Text without a carriage return is left as it is. */
  lemma CarriageReturnFree(t: string)
    requires '\r' !in t
    ensures UnifyNewlines(t) == t
  {
    CrLfAtOk();
    CrAtOk();
    forall u | CrLfAt(u).Some?
      ensures '\r' in u
    {
      assert u[0] == '\r';
    }
    SubUnchangedLacking(t, CrLfAt, '\r');
    forall u | CrAt(u).Some?
      ensures '\r' in u
    {
      assert u[0] == '\r';
    }
    SubUnchangedLacking(t, CrAt, '\r');
  }

  /** Each step of the scan: `\r\n` and a lone `\r` give one `\n`; any other character is copied. */
  lemma UnifyNewlinesStep(t: string)
    requires t != []
    ensures |t| >= 2 && t[0] == '\r' && t[1] == '\n' ==> UnifyNewlines(t) == "\n" + UnifyNewlines(t[2..])
    ensures t[0] == '\r' && (|t| == 1 || t[1] != '\n') ==> UnifyNewlines(t) == "\n" + UnifyNewlines(t[1..])
    ensures t[0] != '\r' ==> UnifyNewlines(t) == [t[0]] + UnifyNewlines(t[1..])
  {
    CrLfAtOk();
    CrAtOk();
    if CrLfAt(t).Some? {
      SubHit(t, CrLfAt);
      CopiedHead('\n', Sub(t[2..], CrLfAt));
    } else {
      SubMiss(t, CrLfAt);
      if t[0] == '\r' {
        var m := Sub(t[1..], CrLfAt);
        assert CrAt("\r" + m).Some?;
        SubHit("\r" + m, CrAt);
        assert ("\r" + m)[1..] == m;
      } else {
        CopiedHead(t[0], Sub(t[1..], CrLfAt));
      }
    }
  }

  /** A character that is not a carriage return passes the second rewrite unchanged. */
  lemma CopiedHead(c: char, m: string)
    requires c != '\r'
    ensures Sub([c] + m, CrAt) == [c] + Sub(m, CrAt)
  {
    CrAtOk();
    SubMiss([c] + m, CrAt);
    assert ([c] + m)[1..] == m;
  }

  /**
   No carriage return survives, and only line-break characters change. Text
   without a carriage return is unchanged; otherwise the result is fixed
   step by step: each `\r\n` and each lone `\r` becomes one `\n`.
   */
  lemma UnifyNewlinesSpec(t: string)
    ensures '\r' !in UnifyNewlines(t)
    ensures Keep(UnifyNewlines(t), NotLineBreak) == Keep(t, NotLineBreak)
    ensures '\r' !in t ==> UnifyNewlines(t) == t
    ensures |t| >= 2 && t[0] == '\r' && t[1] == '\n' ==> UnifyNewlines(t) == "\n" + UnifyNewlines(t[2..])
    ensures t != [] && t[0] == '\r' && (|t| == 1 || t[1] != '\n') ==> UnifyNewlines(t) == "\n" + UnifyNewlines(t[1..])
    ensures t != [] && t[0] != '\r' ==> UnifyNewlines(t) == [t[0]] + UnifyNewlines(t[1..])
  {
    CrLfAtOk();
    CrAtOk();
    NoCarriageReturn(t);
    forall u | CrLfAt(u).Some?
      ensures Keep(CrLfAt(u).value.repl, NotLineBreak) == Keep(u[..CrLfAt(u).value.len], NotLineBreak)
    {
      CrLfKeepsText(u);
    }
    forall u | CrAt(u).Some?
      ensures Keep(CrAt(u).value.repl, NotLineBreak) == Keep(u[..CrAt(u).value.len], NotLineBreak)
    {
      CrKeepsText(u);
    }
    SubKeeps(t, CrLfAt, NotLineBreak);
    SubKeeps(Sub(t, CrLfAt), CrAt, NotLineBreak);
    if '\r' !in t {
      CarriageReturnFree(t);
    }
    if t != [] {
      UnifyNewlinesStep(t);
    }
  }

  predicate Visible(c: char) { !IsInvisible(c) }

  /** Removing invisibles is exactly filtering them out. */
  lemma {:induction false} DropInvisiblesIsFilter(t: string)
    ensures DropInvisibles(t) == Keep(t, Visible)
  {
    InvisibleAtOk();
    if t != [] {
      DropInvisiblesIsFilter(t[1..]);
    }
  }

  // ---------------------------------------------------------------------
  // Trailing blanks: `[ \t]+\n`

  /** A line break at the head of the output comes from blanks and a line break at the head of the input. */
  lemma {:induction false} TrimLineEndsHead(t: string)
    ensures TrimLineEnds(t) != [] && TrimLineEnds(t)[0] == '\n' ==> Span(t, IsBlank) < |t| && t[Span(t, IsBlank)] == '\n'
  {
    LineEndBlanksAtOk();
  }

  lemma {:induction false} TrimLineEndsClean(t: string)
    ensures NoBlankBeforeNewline(TrimLineEnds(t))
    decreases |t|
  {
    LineEndBlanksAtOk();
    if t != [] {
      var out := TrimLineEnds(t);
      match LineEndBlanksAt(t)
      case Some(h) =>
        TrimLineEndsClean(t[h.len..]);
        assert out == "\n" + TrimLineEnds(t[h.len..]);
      case None =>
        TrimLineEndsClean(t[1..]);
        TrimLineEndsHead(t[1..]);
        assert out == [t[0]] + TrimLineEnds(t[1..]);
        if IsBlank(t[0]) {
          assert Span(t, IsBlank) == 1 + Span(t[1..], IsBlank);
        }
    }
  }

  lemma TrimLineEndsUnchanged(t: string)
    requires NoBlankBeforeNewline(t)
    ensures TrimLineEnds(t) == t
  {
    LineEndBlanksAtOk();
    forall i | 0 <= i < |t|
      ensures LineEndBlanksAt(t[i..]).None?
    {
      var u := t[i..];
      var k := Span(u, IsBlank);
      if 0 < k < |u| {
        assert IsBlank(t[i + k - 1]);
      }
    }
    SubUnchanged(t, LineEndBlanksAt);
  }

  lemma LineEndKeepsText(u: string)
    requires LineEndBlanksAt(u).Some?
    ensures Keep(LineEndBlanksAt(u).value.repl, NotBlank) == Keep(u[..LineEndBlanksAt(u).value.len], NotBlank)
  {
    var k := Span(u, IsBlank);
    assert u[..k + 1] == u[..k] + "\n";
    KeepAppend(u[..k], "\n", NotBlank);
    KeepNone(u[..k], NotBlank);
  }

  /**
   Each step of the scan: a run of blanks followed by a line break becomes
   the line break; a run of blanks followed by anything else is copied; any
   other character is copied.
   */
  lemma TrimLineEndsStep(t: string)
    requires t != []
    ensures var k := Span(t, IsBlank);
      0 < k < |t| && t[k] == '\n' ==> TrimLineEnds(t) == "\n" + TrimLineEnds(t[k + 1..])
    ensures var k := Span(t, IsBlank);
      0 < k && (k == |t| || t[k] != '\n') ==> TrimLineEnds(t) == t[..k] + TrimLineEnds(t[k..])
    ensures !IsBlank(t[0]) ==> TrimLineEnds(t) == [t[0]] + TrimLineEnds(t[1..])
  {
    LineEndBlanksAtOk();
    var k := Span(t, IsBlank);
    if 0 < k && (k == |t| || t[k] != '\n') {
      forall i | 0 <= i < k
        ensures LineEndBlanksAt(t[i..]).None?
      {
        SpanFrom(t, IsBlank, i);
        if k < |t| {
          assert t[i..][k - i] == t[k];
        }
      }
      SubSkipsFrom(t, LineEndBlanksAt, k);
    }
  }

  /**
   The trailing-blank pass leaves no space or tab before a line break,
   deletes nothing but spaces and tabs, and changes nothing in text that
   already has none there. Step by step, it deletes exactly the blank runs
   that end at a line break.
   */
  lemma TrimLineEndsSpec(t: string)
    ensures NoBlankBeforeNewline(TrimLineEnds(t))
    ensures Keep(TrimLineEnds(t), NotBlank) == Keep(t, NotBlank)
    ensures NoBlankBeforeNewline(t) ==> TrimLineEnds(t) == t
    ensures var k := Span(t, IsBlank);
      0 < k < |t| && t[k] == '\n' ==> TrimLineEnds(t) == "\n" + TrimLineEnds(t[k + 1..])
    ensures var k := Span(t, IsBlank);
      0 < k && (k == |t| || t[k] != '\n') ==> TrimLineEnds(t) == t[..k] + TrimLineEnds(t[k..])
    ensures t != [] && !IsBlank(t[0]) ==> TrimLineEnds(t) == [t[0]] + TrimLineEnds(t[1..])
  {
    if t != [] {
      TrimLineEndsStep(t);
    }
    LineEndBlanksAtOk();
    TrimLineEndsClean(t);
    forall u | LineEndBlanksAt(u).Some?
      ensures Keep(LineEndBlanksAt(u).value.repl, NotBlank) == Keep(u[..LineEndBlanksAt(u).value.len], NotBlank)
    {
      LineEndKeepsText(u);
    }
    SubKeeps(t, LineEndBlanksAt, NotBlank);
    if NoBlankBeforeNewline(t) {
      TrimLineEndsUnchanged(t);
    }
  }

  predicate NotBlank(c: char) { !IsBlank(c) }

  // ---------------------------------------------------------------------
  // Blank-line runs: `\n{3,}`

  lemma {:induction false} CollapseHead(t: string)
    ensures CollapseBlankLines(t) != [] && CollapseBlankLines(t)[0] == '\n' <==> t != [] && t[0] == '\n'
    ensures |CollapseBlankLines(t)| >= 2 && CollapseBlankLines(t)[..2] == "\n\n" ==> |t| >= 2 && t[..2] == "\n\n"
  {
    BlankLinesAtOk();
    if t != [] {
      match BlankLinesAt(t)
      case Some(h) =>
      case None =>
        CollapseHead(t[1..]);
    }
  }

  lemma {:induction false} CollapseClean(t: string)
    ensures NoTripleNewline(CollapseBlankLines(t))
    decreases |t|
  {
    BlankLinesAtOk();
    if t != [] {
      match BlankLinesAt(t)
      case Some(h) =>
        var rest := t[h.len..];
        CollapseClean(rest);
        CollapseHead(rest);
        SubHit(t, BlankLinesAt);
        PairThenTripleFree(CollapseBlankLines(rest));
      case None =>
        CollapseClean(t[1..]);
        CollapseHead(t[1..]);
        ThreeNewlinesMatch(t);
        SubMiss(t, BlankLinesAt);
        ConsTripleFree(t[0], CollapseBlankLines(t[1..]));
    }
  }

  /** Three line breaks at the start of a text always start a blank-line match. */
  lemma ThreeNewlinesMatch(t: string)
    ensures |t| >= 3 && t[0] == '\n' && t[1] == '\n' && t[2] == '\n' ==> BlankLinesAt(t).Some?
  {
    if |t| >= 3 && t[0] == '\n' && t[1] == '\n' && t[2] == '\n' {
      assert Span(t, IsNewline) == 1 + Span(t[1..], IsNewline);
      assert Span(t[1..], IsNewline) == 1 + Span(t[2..], IsNewline);
      assert Span(t[2..], IsNewline) >= 1;
    }
  }

  lemma PairThenTripleFree(r: string)
    requires NoTripleNewline(r)
    requires r == [] || r[0] != '\n'
    ensures NoTripleNewline("\n\n" + r)
  {
    var out := "\n\n" + r;
    forall i | 0 <= i < |out| - 2
      ensures !(out[i] == '\n' && out[i + 1] == '\n' && out[i + 2] == '\n')
    {
      if i >= 2 {
        assert out[i] == r[i - 2] && out[i + 1] == r[i - 1] && out[i + 2] == r[i];
      }
    }
  }

  lemma ConsTripleFree(c: char, r: string)
    requires NoTripleNewline(r)
    requires !(c == '\n' && |r| >= 2 && r[0] == '\n' && r[1] == '\n')
    ensures NoTripleNewline([c] + r)
  {
    var out := [c] + r;
    forall i | 0 <= i < |out| - 2
      ensures !(out[i] == '\n' && out[i + 1] == '\n' && out[i + 2] == '\n')
    {
      if i >= 1 {
        assert out[i] == r[i - 1] && out[i + 1] == r[i] && out[i + 2] == r[i + 1];
      }
    }
  }

  lemma CollapseUnchanged(t: string)
    requires NoTripleNewline(t)
    ensures CollapseBlankLines(t) == t
  {
    BlankLinesAtOk();
    forall i | 0 <= i < |t|
      ensures BlankLinesAt(t[i..]).None?
    {
      var u := t[i..];
    }
    SubUnchanged(t, BlankLinesAt);
  }

  /**
   Each step of the scan: a run of three or more line breaks becomes two; a
   shorter run is copied; any other character is copied.
   */
  lemma CollapseStep(t: string)
    requires t != []
    ensures var k := Span(t, IsNewline);
      k >= 3 ==> CollapseBlankLines(t) == "\n\n" + CollapseBlankLines(t[k..])
    ensures var k := Span(t, IsNewline);
      0 < k < 3 ==> CollapseBlankLines(t) == t[..k] + CollapseBlankLines(t[k..])
    ensures t[0] != '\n' ==> CollapseBlankLines(t) == [t[0]] + CollapseBlankLines(t[1..])
  {
    BlankLinesAtOk();
    var k := Span(t, IsNewline);
    if 0 < k < 3 {
      forall i | 0 <= i < k
        ensures BlankLinesAt(t[i..]).None?
      {
        SpanFrom(t, IsNewline, i);
      }
      SubSkipsFrom(t, BlankLinesAt, k);
    }
  }

  /**
   After collapsing, no three line breaks are adjacent; only line breaks
   were removed; and text without such a run is left as it is, so the pass
   is idempotent. Step by step, each maximal run of three or more line
   breaks becomes exactly two, and everything else is copied.
   */
  lemma CollapseBlankLinesSpec(t: string)
    ensures NoTripleNewline(CollapseBlankLines(t))
    ensures Keep(CollapseBlankLines(t), NotNewline) == Keep(t, NotNewline)
    ensures NoTripleNewline(t) ==> CollapseBlankLines(t) == t
    ensures CollapseBlankLines(CollapseBlankLines(t)) == CollapseBlankLines(t)
    ensures var k := Span(t, IsNewline);
      k >= 3 ==> CollapseBlankLines(t) == "\n\n" + CollapseBlankLines(t[k..])
    ensures var k := Span(t, IsNewline);
      0 < k < 3 ==> CollapseBlankLines(t) == t[..k] + CollapseBlankLines(t[k..])
    ensures t != [] && t[0] != '\n' ==> CollapseBlankLines(t) == [t[0]] + CollapseBlankLines(t[1..])
  {
    if t != [] {
      CollapseStep(t);
    }
    BlankLinesAtOk();
    CollapseClean(t);
    CollapseUnchanged(CollapseBlankLines(t));
    forall u | BlankLinesAt(u).Some?
      ensures Keep(BlankLinesAt(u).value.repl, NotNewline) == Keep(u[..BlankLinesAt(u).value.len], NotNewline)
    {
      KeepNone(u[..Span(u, IsNewline)], NotNewline);
      KeepNone("\n\n", NotNewline);
    }
    SubKeeps(t, BlankLinesAt, NotNewline);
    if NoTripleNewline(t) {
      CollapseUnchanged(t);
    }
  }

  predicate NotNewline(c: char) { c != '\n' }

  // ---------------------------------------------------------------------
  // Soft-wrap marking

  const WRAP_OPEN: char := '\U{27E6}'

  /**
   The marked text begins with `q` only if the input does, provided `q`
   does not contain the sentinel's opening bracket.
   */
  lemma {:induction false} MarkKeepsPrefix(t: string, q: string)
    requires WRAP_OPEN !in q
    ensures StartsWith(MarkSoftWraps(t), q) ==> StartsWith(t, q)
    decreases |t|
  {
    if q != [] && t != [] {
      assert t == [t[0]] + t[1..];
      ConsPrefix(t[0], t[1..], q);
      if SoftWrapAt(t).Some? {
        MarkHit(t);
        var x := WRAP + [t[2]] + MarkSoftWraps(t[3..]);
        assert MarkSoftWraps(t) == [t[0]] + x;
        ConsPrefix(t[0], x, q);
        if |q| >= 2 {
          assert q[1] in q;
          assert x[0] == WRAP_OPEN;
        }
      } else {
        MarkMiss(t);
        assert forall c :: c in q[1..] ==> c in q;
        MarkKeepsPrefix(t[1..], q[1..]);
        ConsPrefix(t[0], MarkSoftWraps(t[1..]), q);
      }
    }
  }

  /** A character followed by the marked text of `rest` does not start a sentinel unless the input does. */
  lemma NoSentinelAtJoin(t: string, k: nat)
    requires 0 < k <= |t|
    requires !OccursAt(WRAP, t, k - 1)
    ensures !StartsWith([t[k - 1]] + MarkSoftWraps(t[k..]), WRAP)
  {
    MarkKeepsPrefix(t[k..], WRAP[1..]);
  }

  lemma MarkHit(t: string)
    requires SoftWrapAt(t).Some?
    ensures MarkSoftWraps(t) == [t[0]] + WRAP + [t[2]] + MarkSoftWraps(t[3..])
  {
    SoftWrapAtOk();
  }

  lemma MarkMiss(t: string)
    requires t != [] && SoftWrapAt(t).None?
    ensures MarkSoftWraps(t) == [t[0]] + MarkSoftWraps(t[1..])
  {
    SoftWrapAtOk();
  }

  lemma UnmarkMiss(c: char, rest: string)
    requires !StartsWith([c] + rest, WRAP)
    ensures Unmark([c] + rest) == [c] + Unmark(rest)
  {
    SentinelAtOk();
    assert ([c] + rest)[1..] == rest;
  }

  lemma UnmarkHit(rest: string)
    ensures Unmark(WRAP + rest) == "\n" + Unmark(rest)
  {
    SentinelAtOk();
    assert (WRAP + rest)[6..] == rest;
  }

  lemma RoundTripAtWrap(t: string)
    requires SoftWrapAt(t).Some?
    requires !OccursAt(WRAP, t, 2)
    requires Unmark(MarkSoftWraps(t[3..])) == t[3..]
    ensures Unmark(MarkSoftWraps(t)) == t
  {
    var m := MarkSoftWraps(t[3..]);
    var x := WRAP + ([t[2]] + m);
    MarkHit(t);
    assert MarkSoftWraps(t) == [t[0]] + x;
    NoSentinelAtJoin(t, 3);
    UnmarkMarked(t[2], m);
    UnmarkBeforeSentinel(t[0], [t[2]] + m);
    assert t == [t[0]] + ("\n" + ([t[2]] + t[3..]));
  }

  /** The sentinel of a marked wrap turns back into its newline. */
  lemma UnmarkMarked(c: char, m: string)
    requires !StartsWith([c] + m, WRAP)
    ensures Unmark(WRAP + ([c] + m)) == "\n" + ([c] + Unmark(m))
  {
    UnmarkMiss(c, m);
    UnmarkHit([c] + m);
  }

  /** The character before a sentinel is copied. */
  lemma UnmarkBeforeSentinel(c: char, rest: string)
    ensures Unmark([c] + (WRAP + rest)) == [c] + Unmark(WRAP + rest)
  {
    var x := WRAP + rest;
    WrapShape();
    ConsPrefix(c, x, WRAP);
    assert x[0] != WRAP[1];
    UnmarkMiss(c, x);
  }

  lemma RoundTripElsewhere(t: string)
    requires t != [] && SoftWrapAt(t).None?
    requires !OccursAt(WRAP, t, 0)
    requires Unmark(MarkSoftWraps(t[1..])) == t[1..]
    ensures Unmark(MarkSoftWraps(t)) == t
  {
    MarkMiss(t);
    NoSentinelAtJoin(t, 1);
    assert t[0..] == t;
    UnmarkMiss(t[0], MarkSoftWraps(t[1..]));
  }

  lemma {:induction false} MarkRoundTrip(t: string)
    requires !HasSentinel(t)
    ensures Unmark(MarkSoftWraps(t)) == t
    decreases |t|
  {
    if t != [] {
      assert !OccursAt(WRAP, t, 0) && !OccursAt(WRAP, t, 2);
      if SoftWrapAt(t).Some? {
        OccursInSuffix(WRAP, t, 3);
        MarkRoundTrip(t[3..]);
        RoundTripAtWrap(t);
      } else {
        OccursInSuffix(WRAP, t, 1);
        MarkRoundTrip(t[1..]);
        RoundTripElsewhere(t);
      }
    }
  }

  /** Every sentinel in the marked text stands between two characters that are not line breaks. */
  ghost predicate SentinelsFramed(out: string) {
    forall j :: OccursAt(WRAP, out, j) ==> 0 < j && j + 6 < |out| && out[j - 1] != '\n' && out[j + 6] != '\n'
  }

  /** The sentinel's characters after the first are not its opening bracket. */
  lemma WrapShape()
    ensures |WRAP| == 6 && WRAP[0] == WRAP_OPEN
    ensures forall k :: 1 <= k < 6 ==> WRAP[k] != WRAP_OPEN
  {
  }

  /** In a marked head `a WRAP b …`, the only sentinel among the first eight positions is the one at 1. */
  lemma MarkedHeadFramed(a: char, b: char, m: string)
    requires !StartsWith([b] + m, WRAP)
    ensures forall j :: 0 <= j < 8 && j != 1 ==> !OccursAt(WRAP, [a] + WRAP + [b] + m, j)
  {
    WrapShape();
    var out := [a] + WRAP + [b] + m;
    forall j | 0 <= j < 8 && j != 1
      ensures !OccursAt(WRAP, out, j)
    {
      if j == 0 {
        assert out[1] == WRAP_OPEN;
      } else if j < 7 {
        assert out[j] == WRAP[j - 1];
      } else {
        assert out[7..] == [b] + m;
        StartsWithOccurs(out, 7, WRAP);
      }
    }
  }

  lemma {:induction false} MarkFramesSentinels(t: string)
    requires !HasSentinel(t)
    ensures SentinelsFramed(MarkSoftWraps(t))
    decreases |t|
  {
    if t != [] {
      var out := MarkSoftWraps(t);
      if SoftWrapAt(t).Some? {
        var rest := t[3..];
        OccursInSuffix(WRAP, t, 3);
        MarkFramesSentinels(rest);
        var m := MarkSoftWraps(rest);
        var head := [t[0]] + WRAP + [t[2]];
        MarkHit(t);
        assert out == head + m;
        assert !OccursAt(WRAP, t, 2);
        NoSentinelAtJoin(t, 3);
        MarkedHeadFramed(t[0], t[2], m);
        forall j | OccursAt(WRAP, out, j)
          ensures 0 < j && j + 6 < |out| && out[j - 1] != '\n' && out[j + 6] != '\n'
        {
          if j >= 8 {
            OccursShift(WRAP, head, m, j);
          }
        }
      } else {
        var rest := t[1..];
        OccursInSuffix(WRAP, t, 1);
        MarkFramesSentinels(rest);
        var m := MarkSoftWraps(rest);
        MarkMiss(t);
        assert out == [t[0]] + m;
        assert t[0..] == t;
        assert !OccursAt(WRAP, t, 0);
        NoSentinelAtJoin(t, 1);
        forall j | OccursAt(WRAP, out, j)
          ensures 0 < j && j + 6 < |out| && out[j - 1] != '\n' && out[j + 6] != '\n'
        {
          if j >= 1 {
            OccursShift(WRAP, [t[0]], m, j);
          }
        }
      }
    }
  }

  /**
   Every line break left between two other characters follows a marked
   wrap: the character before it closed the previous match, whose sentinel
   sits just before that character.
   */
  predicate LoneBreaksMarked(r: string) {
    forall j :: 0 < j < |r| - 1 && r[j] == '\n' && r[j - 1] != '\n' && r[j + 1] != '\n' ==>
      7 <= j && OccursAt(WRAP, r, j - 7)
  }

  /** Marking keeps the first character. */
  lemma MarkHead(u: string)
    ensures u == [] ==> MarkSoftWraps(u) == []
    ensures u != [] ==> MarkSoftWraps(u) != [] && MarkSoftWraps(u)[0] == u[0]
  {
    SoftWrapAtOk();
  }

  lemma {:induction false} MarkComplete(t: string)
    ensures LoneBreaksMarked(MarkSoftWraps(t))
    decreases |t|
  {
    if t != [] {
      if SoftWrapAt(t).Some? {
        MarkComplete(t[3..]);
        MarkHit(t);
        MarkedHeadComplete(t[0], t[2], MarkSoftWraps(t[3..]));
      } else {
        MarkComplete(t[1..]);
        MarkMiss(t);
        MissHeadComplete(t);
        ConsComplete(t[0], MarkSoftWraps(t[1..]));
      }
    }
  }

  /** After a marked wrap `a WRAP b`, the only new lone break can be the one right after `b`. */
  lemma MarkedHeadComplete(a: char, b: char, m: string)
    requires a != '\n' && b != '\n' && LoneBreaksMarked(m)
    ensures LoneBreaksMarked([a] + WRAP + [b] + m)
  {
    var head := [a] + WRAP + [b];
    var r := head + m;
    assert forall k :: 0 <= k < 8 ==> r[k] != '\n';
    assert r[1..7] == WRAP;
    forall j | 8 < j < |r| - 1 && r[j] == '\n' && r[j - 1] != '\n' && r[j + 1] != '\n'
      ensures 7 <= j && OccursAt(WRAP, r, j - 7)
    {
      var i := j - 8;
      assert m[i] == r[j] && m[i - 1] == r[j - 1] && m[i + 1] == r[j + 1];
      OccursShift(WRAP, head, m, j - 7);
    }
  }

  /** A copied character adds no lone break unless the marked rest starts with one. */
  lemma ConsComplete(c: char, m: string)
    requires LoneBreaksMarked(m)
    requires c != '\n' && |m| >= 2 && m[0] == '\n' ==> m[1] == '\n'
    ensures LoneBreaksMarked([c] + m)
  {
    var r := [c] + m;
    forall j | 1 < j < |r| - 1 && r[j] == '\n' && r[j - 1] != '\n' && r[j + 1] != '\n'
      ensures 7 <= j && OccursAt(WRAP, r, j - 7)
    {
      var i := j - 1;
      assert m[i] == r[j] && m[i - 1] == r[j - 1] && m[i + 1] == r[j + 1];
      OccursShift(WRAP, [c], m, j - 7);
    }
  }

  /**
   Where no wrap is matched at the start, a line break followed by another
   character in the marked rest is followed by a second line break.
   */
  lemma MissHeadComplete(t: string)
    requires t != [] && SoftWrapAt(t).None?
    ensures var m := MarkSoftWraps(t[1..]);
      t[0] != '\n' && |m| >= 2 && m[0] == '\n' ==> m[1] == '\n'
  {
    var m := MarkSoftWraps(t[1..]);
    if t[0] != '\n' && |m| >= 2 && m[0] == '\n' {
      MarkHead(t[1..]);
      assert t[1..][0] == '\n';
      MarkMiss(t[1..]);
      assert t[1..][1..] == t[2..];
      MarkHead(t[2..]);
      assert m[1] == t[2];
    }
  }

  /**
   Marking replaces line breaks by the sentinel and changes nothing else, so
   turning the sentinels back into line breaks restores the input. Each
   sentinel sits between two characters that are not line breaks, so a line
   break that belongs to a blank line is never marked. Conversely, a line
   break left between two other characters is one whose preceding
   character was taken by the previous match.
   */
  lemma MarkSoftWrapsSpec(t: string)
    requires !HasSentinel(t)
    ensures Unmark(MarkSoftWraps(t)) == t
    ensures SentinelsFramed(MarkSoftWraps(t))
    ensures LoneBreaksMarked(MarkSoftWraps(t))
  {
    MarkRoundTrip(t);
    MarkFramesSentinels(t);
    MarkComplete(t);
  }

  // ---------------------------------------------------------------------
  // Resolving the sentinel

  /** A sentinel always starts a match of the wrap pass. */
  lemma SentinelStartsWrapMatch(u: string)
    requires StartsWith(u, WRAP)
    ensures WrapAt(u).Some?
  {
    assert u[0] == WRAP[0];
    assert !IsSpace(WRAP[0]);
    assert Span(u, IsSpace) == 0;
  }

  lemma WrapReplacementAvoidsSentinel()
    ensures ReplacementsAvoid(WrapAt, WRAP)
  {
    assert AvoidsAll(" ", WRAP);
  }

  lemma ResolveRemovesSentinels(t: string)
    ensures !HasSentinel(ResolveWraps(t))
  {
    WrapAtOk();
    forall i | 0 <= i <= |t| && OccursAt(WRAP, t, i)
      ensures WrapAt(t[i..]).Some?
    {
      SentinelStartsWrapMatch(t[i..]);
    }
    WrapReplacementAvoidsSentinel();
    SubExcludes(t, WrapAt, WRAP);
  }

  /** The wrap pass matches at `i` only where a sentinel follows the whitespace there. */
  lemma WrapMissAt(t: string, i: nat)
    requires i < |t|
    requires !OccursAt(WRAP, t, i + Span(t[i..], IsSpace))
    ensures WrapAt(t[i..]).None?
  {
    var u := t[i..];
    var k := Span(u, IsSpace);
    assert u[k..] == t[i + k..];
    StartsWithOccurs(t, i + k, WRAP);
  }

  lemma ResolveUnchanged(t: string)
    requires !HasSentinel(t)
    ensures ResolveWraps(t) == t
  {
    WrapAtOk();
    forall i | 0 <= i < |t|
      ensures WrapAt(t[i..]).None?
    {
      WrapMissAt(t, i);
    }
    SubUnchanged(t, WrapAt);
  }

  /**
   A sentinel cannot start inside sentinel-free text and run on into text
   that starts with whitespace or with a sentinel bracket.
   */
  lemma NoSentinelAcross(a: string, y: string, p: nat)
    requires !HasSentinel(a)
    requires y != [] && (IsSpace(y[0]) || y[0] == WRAP_OPEN)
    requires p < |a|
    ensures !OccursAt(WRAP, a + y, p)
  {
    var s := a + y;
    WrapShape();
    assert forall k :: 1 <= k < 6 ==> !IsSpace(WRAP[k]);
    if p + 6 <= |a| {
      assert s[p..p + 6] == a[p..p + 6];
      assert !OccursAt(WRAP, a, p);
    } else if p + 6 <= |s| {
      var d := |a| - p;
      assert s[p..p + 6][d] == y[0];
      assert WRAP[d] != y[0];
    }
  }

  /**
   One sentinel with its surrounding whitespace, after sentinel-free text
   that does not end in whitespace: the text is copied, the whole stretch
   becomes one space, and the pass carries on after it.
   */
  lemma ResolveAtWrap(a: string, ws1: string, ws2: string, b: string)
    requires !HasSentinel(a) && (a == [] || !IsSpace(a[|a| - 1]))
    requires AllSpace(ws1) && AllSpace(ws2)
    requires b == [] || !IsSpace(b[0])
    ensures ResolveWraps(a + ws1 + WRAP + ws2 + b) == a + " " + ResolveWraps(b)
  {
    var y := ws1 + WRAP + ws2 + b;
    assert a + ws1 + WRAP + ws2 + b == a + y;
    RunStart(ws1, WRAP + ws2 + b);
    assert ws1 + (WRAP + ws2 + b) == y;
    ResolveCopies(a, y);
    ResolveRun(ws1, ws2, b);
  }

  lemma RunStart(ws: string, z: string)
    requires AllSpace(ws) && StartsWith(z, WRAP)
    ensures ws + z != [] && (IsSpace((ws + z)[0]) || (ws + z)[0] == WRAP_OPEN)
  {
    assert z[0] == WRAP[0];
  }

  /** The whitespace-sentinel-whitespace stretch at the start becomes one space. */
  lemma ResolveRun(ws1: string, ws2: string, b: string)
    requires AllSpace(ws1) && AllSpace(ws2)
    requires b == [] || !IsSpace(b[0])
    ensures ResolveWraps(ws1 + WRAP + ws2 + b) == " " + ResolveWraps(b)
  {
    WrapAtOk();
    var y := ws1 + WRAP + ws2 + b;
    WrapAtRun(ws1, ws2, b);
    SubHit(y, WrapAt);
    assert y[|ws1| + 6 + |ws2|..] == b;
  }

  /** The pass copies sentinel-free text that does not end in whitespace when whitespace or a sentinel bracket follows. */
  lemma ResolveCopies(a: string, y: string)
    requires !HasSentinel(a) && (a == [] || !IsSpace(a[|a| - 1]))
    requires y != [] && (IsSpace(y[0]) || y[0] == WRAP_OPEN)
    ensures ResolveWraps(a + y) == a + ResolveWraps(y)
  {
    WrapAtOk();
    forall i | 0 <= i < |a|
      ensures WrapAt((a + y)[i..]).None?
    {
      WrapMissBefore(a, y, i);
    }
    SubSkips(a, y, WrapAt);
  }

  lemma WrapMissBefore(a: string, y: string, i: nat)
    requires !HasSentinel(a) && i < |a| && !IsSpace(a[|a| - 1])
    requires y != [] && (IsSpace(y[0]) || y[0] == WRAP_OPEN)
    ensures WrapAt((a + y)[i..]).None?
  {
    var s := a + y;
    var k := Span(s[i..], IsSpace);
    assert s[i..][|a| - 1 - i] == a[|a| - 1];
    assert i + k < |a|;
    NoSentinelAcross(a, y, i + k);
    WrapMissAt(s, i);
  }

  /** Whitespace, a sentinel and whitespace form one match of the wrap pass. */
  lemma WrapAtRun(ws1: string, ws2: string, b: string)
    requires AllSpace(ws1) && AllSpace(ws2)
    requires b == [] || !IsSpace(b[0])
    ensures WrapAt(ws1 + WRAP + ws2 + b) == Some(Hit(|ws1| + 6 + |ws2|, " "))
  {
    var z := WRAP + ws2 + b;
    assert ws1 + WRAP + ws2 + b == ws1 + z;
    assert z[..6] == WRAP && z[6..] == ws2 + b;
    WrapAtFramed(ws1, z, ws2, b);
  }

  lemma WrapAtFramed(ws1: string, z: string, ws2: string, b: string)
    requires AllSpace(ws1) && AllSpace(ws2)
    requires b == [] || !IsSpace(b[0])
    requires |z| >= 6 && z[..6] == WRAP && z[6..] == ws2 + b
    ensures WrapAt(ws1 + z) == Some(Hit(|ws1| + 6 + |ws2|, " "))
  {
    var y := ws1 + z;
    assert z[0] == WRAP[0];
    SpanOfRun(ws1, z);
    assert y[|ws1|..] == z;
    SpanOfRun(ws2, b);
  }

  /**
   No sentinel survives the last wrap pass, and text that never contained
   one passes through unchanged. Step by step, each sentinel together with
   the whitespace on both sides of it becomes a single space, and the text
   before it is copied.
   */
  lemma ResolveWrapsSpec(t: string)
    ensures !HasSentinel(ResolveWraps(t))
    ensures !HasSentinel(t) ==> ResolveWraps(t) == t
    ensures forall a, ws1, ws2, b ::
      && t == a + ws1 + WRAP + ws2 + b
      && !HasSentinel(a) && (a == [] || !IsSpace(a[|a| - 1]))
      && AllSpace(ws1) && AllSpace(ws2)
      && (b == [] || !IsSpace(b[0]))
      ==> ResolveWraps(t) == a + " " + ResolveWraps(b)
  {
    ResolveRemovesSentinels(t);
    if !HasSentinel(t) {
      ResolveUnchanged(t);
    }
    forall a, ws1, ws2, b |
      && t == a + ws1 + WRAP + ws2 + b
      && !HasSentinel(a) && (a == [] || !IsSpace(a[|a| - 1]))
      && AllSpace(ws1) && AllSpace(ws2)
      && (b == [] || !IsSpace(b[0]))
      ensures ResolveWraps(t) == a + " " + ResolveWraps(b)
    {
      ResolveAtWrap(a, ws1, ws2, b);
    }
  }

  /** The two punctuation passes only ever act at a sentinel. */
  lemma PunctuationPassesNeedSentinel(t: string)
    requires !HasSentinel(t)
    ensures HugPunctuation(t) == t
    ensures JoinSemicolonDot(t) == t
  {
    HugAtOk();
    SemicolonDotAtOk();
    forall i | 0 <= i < |t|
      ensures HugAt(t[i..]).None?
    {
      assert !OccursAt(WRAP, t, i);
      HugNeedsSentinel(t, i);
    }
    SubUnchanged(t, HugAt);
    forall i | 0 <= i < |t|
      ensures SemicolonDotAt(t[i..]).None?
    {
      assert !OccursAt(WRAP, t, i + 1);
      SemicolonNeedsSentinel(t, i);
    }
    SubUnchanged(t, SemicolonDotAt);
  }

  lemma HugNeedsSentinel(t: string, i: nat)
    requires i < |t| && !OccursAt(WRAP, t, i)
    ensures HugAt(t[i..]).None?
  {
    StartsWithOccurs(t, i, WRAP);
  }

  lemma SemicolonNeedsSentinel(t: string, i: nat)
    requires i < |t| && !OccursAt(WRAP, t, i + 1)
    ensures SemicolonDotAt(t[i..]).None?
  {
    if |t[i..]| > 7 {
      assert t[i..][1..7] == t[i + 1..i + 7];
    }
  }

  // ---------------------------------------------------------------------
  // Leading blanks: `\n[ \t]+`

  lemma {:induction false} TrimLineStartsHead(t: string)
    ensures t != [] ==> TrimLineStarts(t) != [] && TrimLineStarts(t)[0] == t[0]
  {
    LineStartBlanksAtOk();
  }

  lemma {:induction false} TrimLineStartsClean(t: string)
    ensures NoBlankAfterNewline(TrimLineStarts(t))
    ensures NoBlankBeforeNewline(t) ==> NoBlankBeforeNewline(TrimLineStarts(t))
    decreases |t|
  {
    LineStartBlanksAtOk();
    if t != [] {
      var out := TrimLineStarts(t);
      match LineStartBlanksAt(t)
      case Some(h) =>
        var rest := t[h.len..];
        TrimLineStartsClean(rest);
        TrimLineStartsHead(rest);
        assert out == "\n" + TrimLineStarts(rest);
        assert rest != [] ==> rest[0] == t[1..][Span(t[1..], IsBlank)];
      case None =>
        var rest := t[1..];
        TrimLineStartsClean(rest);
        TrimLineStartsHead(rest);
        assert out == [t[0]] + TrimLineStarts(rest);
    }
  }

  lemma TrimLineStartsUnchanged(t: string)
    requires NoBlankAfterNewline(t)
    ensures TrimLineStarts(t) == t
  {
    LineStartBlanksAtOk();
    forall i | 0 <= i < |t|
      ensures LineStartBlanksAt(t[i..]).None?
    {
      assert t[i..][1..] == t[i + 1..];
    }
    SubUnchanged(t, LineStartBlanksAt);
  }

  /**
   Each step of the scan: a line break followed by blanks becomes the line
   break alone; any other character is copied.
   */
  lemma TrimLineStartsStep(t: string)
    requires t != []
    ensures t[0] == '\n' ==> TrimLineStarts(t) == "\n" + TrimLineStarts(t[1 + Span(t[1..], IsBlank)..])
    ensures t[0] != '\n' ==> TrimLineStarts(t) == [t[0]] + TrimLineStarts(t[1..])
  {
    LineStartBlanksAtOk();
  }

  lemma LineStartKeepsText(u: string)
    requires LineStartBlanksAt(u).Some?
    ensures Keep(LineStartBlanksAt(u).value.repl, NotBlank) == Keep(u[..LineStartBlanksAt(u).value.len], NotBlank)
  {
    var k := Span(u[1..], IsBlank);
    assert u[..1 + k] == "\n" + u[1..][..k];
    KeepAppend("\n", u[1..][..k], NotBlank);
    KeepNone(u[1..][..k], NotBlank);
    assert Keep("\n", NotBlank) == "\n";
  }

  /**
   The leading-blank pass leaves no space or tab after a line break, keeps
   the trailing-blank pass's guarantee, deletes nothing but spaces and tabs,
   and changes nothing in text that already has no blank after a line
   break. Step by step, it deletes exactly the blank runs that follow a line
   break.
   */
  lemma TrimLineStartsSpec(t: string)
    ensures NoBlankAfterNewline(TrimLineStarts(t))
    ensures NoBlankBeforeNewline(t) ==> NoBlankBeforeNewline(TrimLineStarts(t))
    ensures Keep(TrimLineStarts(t), NotBlank) == Keep(t, NotBlank)
    ensures NoBlankAfterNewline(t) ==> TrimLineStarts(t) == t
    ensures t != [] && t[0] == '\n' ==> TrimLineStarts(t) == "\n" + TrimLineStarts(t[1 + Span(t[1..], IsBlank)..])
    ensures t != [] && t[0] != '\n' ==> TrimLineStarts(t) == [t[0]] + TrimLineStarts(t[1..])
  {
    LineStartBlanksAtOk();
    TrimLineStartsClean(t);
    forall u | LineStartBlanksAt(u).Some?
      ensures Keep(LineStartBlanksAt(u).value.repl, NotBlank) == Keep(u[..LineStartBlanksAt(u).value.len], NotBlank)
    {
      LineStartKeepsText(u);
    }
    SubKeeps(t, LineStartBlanksAt, NotBlank);
    if NoBlankAfterNewline(t) {
      TrimLineStartsUnchanged(t);
    }
    if t != [] {
      TrimLineStartsStep(t);
    }
  }

  /** Neither blank-trimming pass can create a sentinel. */
  lemma TrimsKeepSentinelOut(t: string)
    requires !HasSentinel(t)
    ensures !HasSentinel(TrimLineEnds(t))
    ensures !HasSentinel(TrimLineStarts(t))
  {
    TrimLineEndsKeepsSentinelOut(t);
    TrimLineStartsKeepsSentinelOut(t);
  }

  lemma TrimLineEndsKeepsSentinelOut(t: string)
    requires !HasSentinel(t)
    ensures !HasSentinel(TrimLineEnds(t))
  {
    LineEndBlanksAtOk();
    assert AvoidsAll("\n", WRAP);
    SubExcludes(t, LineEndBlanksAt, WRAP);
  }

  lemma TrimLineStartsKeepsSentinelOut(t: string)
    requires !HasSentinel(t)
    ensures !HasSentinel(TrimLineStarts(t))
  {
    LineStartBlanksAtOk();
    assert AvoidsAll("\n", WRAP);
    SubExcludes(t, LineStartBlanksAt, WRAP);
  }
}

=== FILE: rewrite.dfy ===
/**
 Python's `re.sub(pattern, repl, s)` for patterns that never match the empty
 string. A pattern is given as a matcher: a function that, looking at a
 suffix of the subject, says whether the pattern matches at its first
 character, how many characters the match consumes, and what replaces them
 (with the captured groups already substituted). `Sub` then scans left to
 right, replaces the leftmost match, resumes after it, and copies every
 character at which no match starts.
 */
module Rewrite {
  import opened Wrappers
  import opened Chars

  /** A match at the start of a string: its length and its replacement text. */
  datatype Hit = Hit(len: nat, repl: string)

  /** The matcher never matches the empty string and never runs past the end of its subject. */
  ghost predicate Matcher(at: string -> Option<Hit>) {
    forall t :: at(t).Some? ==> 0 < at(t).value.len <= |t|
  }

  function Sub(s: string, at: string -> Option<Hit>): string
    requires Matcher(at)
    decreases |s|
  {
    if s == [] then []
    else match at(s)
      case Some(h) => h.repl + Sub(s[h.len..], at)
      case None => [s[0]] + Sub(s[1..], at)
  }

  /** The characters of `s` that satisfy `keep`, in order. */
  function Keep(s: string, keep: char -> bool): string {
    if s == [] then [] else (if keep(s[0]) then [s[0]] else []) + Keep(s[1..], keep)
  }

  lemma {:induction false} KeepAppend(a: string, b: string, keep: char -> bool)
    ensures Keep(a + b, keep) == Keep(a, keep) + Keep(b, keep)
  {
    if a != [] {
      assert (a + b)[1..] == a[1..] + b;
      KeepAppend(a[1..], b, keep);
    } else {
      assert a + b == b;
    }
  }

  /**
   A stretch `x` in which no match starts is copied unchanged, and scanning
   resumes after it exactly as if it had started there.
   */
  lemma SubSkips(x: string, y: string, at: string -> Option<Hit>)
    requires Matcher(at)
    requires forall i :: 0 <= i < |x| ==> at((x + y)[i..]).None?
    ensures Sub(x + y, at) == x + Sub(y, at)
  {
    SubSkipsFrom(x + y, at, |x|);
    assert (x + y)[..|x|] == x && (x + y)[|x|..] == y;
  }

  /** The first `m` characters, where no match starts, are copied as they are. */
  lemma {:induction false} SubSkipsFrom(s: string, at: string -> Option<Hit>, m: nat)
    requires Matcher(at)
    requires m <= |s|
    requires forall i :: 0 <= i < m ==> at(s[i..]).None?
    ensures Sub(s, at) == s[..m] + Sub(s[m..], at)
    decreases m
  {
    if m == 0 {
      assert s[..0] + Sub(s[0..], at) == Sub(s, at);
    } else {
      NoMatchShift(s, at, m);
      SubSkipsFrom(s[1..], at, m - 1);
      SubMissAt0(s, at);
      SkipRegroup(s, m, Sub(s[m..], at));
    }
  }

  lemma NoMatchShift(s: string, at: string -> Option<Hit>, m: nat)
    requires 0 < m <= |s|
    requires forall i :: 0 <= i < m ==> at(s[i..]).None?
    ensures forall i :: 0 <= i < m - 1 ==> at(s[1..][i..]).None?
    ensures s[1..][m - 1..] == s[m..]
  {
    forall i | 0 <= i < m - 1
      ensures at(s[1..][i..]).None?
    {
      assert s[1..][i..] == s[i + 1..];
    }
  }

  lemma SubMissAt0(s: string, at: string -> Option<Hit>)
    requires Matcher(at)
    requires s != [] && at(s[0..]).None?
    ensures Sub(s, at) == [s[0]] + Sub(s[1..], at)
  {
    assert s[0..] == s;
  }

  lemma SkipRegroup(s: string, m: nat, z: string)
    requires 0 < m <= |s|
    ensures [s[0]] + (s[1..][..m - 1] + z) == s[..m] + z
  {
    assert s[..m] == [s[0]] + s[1..][..m - 1];
  }

  /** A string in which no match starts anywhere is left unchanged. */
  lemma SubUnchanged(s: string, at: string -> Option<Hit>)
    requires Matcher(at)
    requires forall i :: 0 <= i < |s| ==> at(s[i..]).None?
    ensures Sub(s, at) == s
  {
    assert s + [] == s;
    SubSkips(s, [], at);
  }

  /** One step of the scan at a match. */
  lemma SubHit(s: string, at: string -> Option<Hit>)
    requires Matcher(at)
    requires at(s).Some?
    ensures Sub(s, at) == at(s).value.repl + Sub(s[at(s).value.len..], at)
  {
  }

  /** One step of the scan where no match starts. */
  lemma SubMiss(s: string, at: string -> Option<Hit>)
    requires Matcher(at)
    requires s != [] && at(s).None?
    ensures Sub(s, at) == [s[0]] + Sub(s[1..], at)
  {
  }

  /**
   If every match needs the character `c` somewhere in the text it looks at,
   a string without `c` is left unchanged.
   */
  lemma SubUnchangedLacking(s: string, at: string -> Option<Hit>, c: char)
    requires Matcher(at)
    requires forall u :: at(u).Some? ==> c in u
    requires c !in s
    ensures Sub(s, at) == s
  {
    forall i | 0 <= i < |s|
      ensures at(s[i..]).None?
    {
      assert c !in s[i..];
    }
    SubUnchanged(s, at);
  }

  /**
   If every match must consume some character satisfying `p`, a string
   without such characters is left unchanged.
   */
  lemma SubUnchangedWithout(s: string, at: string -> Option<Hit>, p: char -> bool)
    requires Matcher(at)
    requires forall u :: at(u).Some? ==> exists k :: 0 <= k < at(u).value.len && p(u[k])
    requires forall k :: 0 <= k < |s| ==> !p(s[k])
    ensures Sub(s, at) == s
  {
    forall i | 0 <= i < |s|
      ensures at(s[i..]).None?
    {
      var u := s[i..];
      assert forall k :: 0 <= k < |u| ==> !p(u[k]);
    }
    SubUnchanged(s, at);
  }

  /**
   Rewriting keeps the characters chosen by `keep` when every replacement
   keeps exactly the chosen characters of the text it replaces.
   */
  lemma {:induction false} SubKeeps(s: string, at: string -> Option<Hit>, keep: char -> bool)
    requires Matcher(at)
    requires forall u :: at(u).Some? ==> Keep(at(u).value.repl, keep) == Keep(u[..at(u).value.len], keep)
    ensures Keep(Sub(s, at), keep) == Keep(s, keep)
    decreases |s|
  {
    if s != [] {
      match at(s)
      case Some(h) =>
        SubKeeps(s[h.len..], at, keep);
        KeepAppend(h.repl, Sub(s[h.len..], at), keep);
        assert s == s[..h.len] + s[h.len..];
        KeepAppend(s[..h.len], s[h.len..], keep);
      case None =>
        SubKeeps(s[1..], at, keep);
        KeepAppend([s[0]], Sub(s[1..], at), keep);
    }
  }

  /** Every replacement is non-empty and shares no character with `w`. */
  ghost predicate ReplacementsAvoid(at: string -> Option<Hit>, w: string) {
    forall u :: at(u).Some? ==> at(u).value.repl != [] && AvoidsAll(at(u).value.repl, w)
  }

  /** No character of `r` occurs in `w`. */
  predicate AvoidsAll(r: string, w: string) {
    forall k :: 0 <= k < |r| ==> r[k] !in w
  }

  lemma AvoidsTail(at: string -> Option<Hit>, w: string)
    requires w != []
    requires ReplacementsAvoid(at, w)
    ensures ReplacementsAvoid(at, w[1..])
  {
    forall u | at(u).Some?
      ensures AvoidsAll(at(u).value.repl, w[1..])
    {
      var r := at(u).value.repl;
      forall k | 0 <= k < |r|
        ensures r[k] !in w[1..]
      {
        assert r[k] !in w;
      }
    }
  }

  /**
   When replacements avoid the characters of `q`, an output that begins with
   `q` came from an input that begins with `q`.
   */
  lemma {:induction false} SubKeepsPrefix(t: string, at: string -> Option<Hit>, q: string)
    requires Matcher(at)
    requires ReplacementsAvoid(at, q)
    ensures StartsWith(Sub(t, at), q) ==> StartsWith(t, q)
    decreases |t|
  {
    if q != [] && t != [] {
      assert q[0] in q;
      match at(t)
      case Some(h) =>
        var out := Sub(t, at);
        assert out == h.repl + Sub(t[h.len..], at);
        assert out[0] == h.repl[0];
      case None =>
        AvoidsTail(at, q);
        SubKeepsPrefix(t[1..], at, q[1..]);
        assert Sub(t, at) == [t[0]] + Sub(t[1..], at);
        ConsPrefix(t[0], Sub(t[1..], at), q);
        ConsPrefix(t[0], t[1..], q);
        assert t == [t[0]] + t[1..];
    }
  }

  lemma OccursShift(w: string, a: string, b: string, j: int)
    requires j >= |a|
    ensures OccursAt(w, a + b, j) <==> OccursAt(w, b, j - |a|)
  {
    if j + |w| <= |a + b| {
      assert (a + b)[j..j + |w|] == b[j - |a|..j - |a| + |w|];
    }
  }

  /**
   The rewrite leaves no occurrence of `w` when every occurrence of `w` in
   the input is the start of a match and no replacement contains a character
   of `w`.
   */
  lemma {:induction false} SubExcludes(s: string, at: string -> Option<Hit>, w: string)
    requires Matcher(at)
    requires w != []
    requires ReplacementsAvoid(at, w)
    requires forall i :: 0 <= i <= |s| && OccursAt(w, s, i) ==> at(s[i..]).Some?
    ensures !Occurs(w, Sub(s, at))
    decreases |s|
  {
    if s != [] {
      var n := if at(s).Some? then at(s).value.len else 1;
      var rest := s[n..];
      forall i | 0 <= i <= |rest| && OccursAt(w, rest, i)
        ensures at(rest[i..]).Some?
      {
        OccursShiftSuffix(w, s, n, i);
      }
      SubExcludes(rest, at, w);
      var head := if at(s).Some? then at(s).value.repl else [s[0]];
      assert Sub(s, at) == head + Sub(rest, at);
      forall j | 0 <= j <= |Sub(s, at)|
        ensures !OccursAt(w, Sub(s, at), j)
      {
        if j >= |head| {
          OccursShift(w, head, Sub(rest, at), j);
        } else if at(s).Some? {
          ReplacedHeadExcludes(head, Sub(rest, at), w, j);
        } else {
          CopiedHeadExcludes(s, at, w);
        }
      }
    }
  }

  /** An occurrence in a suffix is an occurrence in the whole, shifted. */
  lemma OccursShiftSuffix(w: string, s: string, n: nat, i: nat)
    requires n <= |s| && OccursAt(w, s[n..], i)
    ensures OccursAt(w, s, n + i) && s[n..][i..] == s[n + i..]
  {
    assert s[n + i..n + i + |w|] == s[n..][i..i + |w|];
  }

  /** No occurrence of `w` starts inside a replacement that avoids the characters of `w`. */
  lemma ReplacedHeadExcludes(head: string, tail: string, w: string, j: nat)
    requires w != [] && AvoidsAll(head, w) && j < |head|
    ensures !OccursAt(w, head + tail, j)
  {
    assert (head + tail)[j] == head[j];
    assert w[0] in w;
  }

  /** A copied first character does not start an occurrence: it would have started a match. */
  lemma CopiedHeadExcludes(s: string, at: string -> Option<Hit>, w: string)
    requires Matcher(at)
    requires w != [] && s != [] && at(s).None?
    requires ReplacementsAvoid(at, w)
    requires forall i :: 0 <= i <= |s| && OccursAt(w, s, i) ==> at(s[i..]).Some?
    ensures !OccursAt(w, Sub(s, at), 0)
  {
    AvoidsTail(at, w);
    SubKeepsPrefix(s[1..], at, w[1..]);
    assert Sub(s, at) == [s[0]] + Sub(s[1..], at);
    ConsPrefix(s[0], Sub(s[1..], at), w);
    ConsPrefix(s[0], s[1..], w);
    assert s == [s[0]] + s[1..];
    assert s[0..] == s;
    StartsWithOccurs(s, 0, w);
    StartsWithOccurs(Sub(s, at), 0, w);
  }
}

=== FILE: wrappers.dfy ===
/** The optional value the Python code expresses with `None`. */
module Wrappers {

  datatype Option<+T> = None | Some(value: T) {

    /** The contained value, or `default` when there is none. */
    function GetOr(default: T): T {
      match this
      case Some(v) => v
      case None => default
    }
  }
}
